=== FILE: README.md ===
# Earthquake pattern analysis and forecast — a Dafny model

This project models the decision logic of the `EarthquakeFuturePredictor`
class, the first class of that name in `final_app.py`. It covers five pieces:

- **Region filter and zone labels.** A static registry of 16 region bounding
  boxes. The events inside a box are kept, inclusively, in time order. A
  first-match classifier tags each event with one of four tectonic zones.
- **Live-feed rows.** Live-feed records become catalog rows: missing depth
  becomes 10 km and missing place becomes "Unknown location". Only rows
  strictly after the catalog's latest timestamp are kept. A non-empty batch
  is merged into the catalog in time order, without duplicate rows.
- **Pattern analysis.** This is `analyze_earthquake_patterns` with
  `_assess_data_quality`.
  - Three minimum-sample gates.
  - Whole-day intervals between consecutive significant (magnitude ≥ 4.0)
    events, with an interquartile outlier filter and a fixed-bound fallback.
  - Monthly histogram, peak months, seasonal buckets, peak season and its
    share.
  - Recent frequencies, magnitude and depth statistics, the magnitude trend,
    and the consistency metrics.
  - A tiered data-quality score.
- **Forecast.** This is `predict_next_earthquake` with
  `_calculate_risk_level`.
  - Weighted interval and overdue projection with its 30-day reset.
  - Peak-month snapping and an uncertainty window shifted past "now".
  - Five confidence factors and three penalties, clamped to [35, 85].
  - Magnitude from a trend blend, noise and a clamp.
  - Coordinates and depth from uniform draws, the risk level and the
    pattern strength.
- **Recent-activity summary.** This is `get_recent_earthquake_summary`: the
  trailing-365-day activity of a region.

Time is a real number of days on a continuous axis. A `timedelta`'s `.days`
is `Floor` of a difference of times. Everything is exact `real` arithmetic.

The following are inputs rather than computed values:

- the current time `now` and its calendar year;
- the calendar year and month of each event;
- the two quartiles of the raw intervals (pandas interpolation);
- the sample standard deviations of the surviving intervals, of the present
  months' counts, of the magnitudes and of the depths (they need a square
  root);
- the calendar month of a date, and day 15 of the first peak month in the
  current and the next year (calendar arithmetic);
- the random draws: one standard-normal value and three uniforms in [0, 1).

Modules follow the program's structure:

| module | file | models |
|---|---|---|
| `Seqs` | seqs.dfy | ordered filtering, stable sorting, duplicate removal |
| `Events` | events.dfy | the event row, whole days, significance thresholds |
| `Stats` | stats.dfy | sum, mean, extremes, median, round-half-to-even |
| `Regions` | regions.dfy | the registry and `filter_country_data` |
| `Zones` | zones.dfy | `_determine_earthquake_zone` |
| `LiveFeed` | livefeed.dfy | feed-record normalisation and the catalog merge |
| `Quality` | quality.dfy | `_assess_data_quality` |
| `Intervals` | intervals.dfy | interval extraction and the outlier filter |
| `Seasons` | seasons.dfy | histogram, peak months, seasons, seasonal confidence |
| `Analyzer` | analyzer.dfy | `analyze_earthquake_patterns` |
| `Risk` | risk.dfy | `_calculate_risk_level` and pattern strength |
| `Forecast` | forecast.dfy | `predict_next_earthquake` |
| `Summary` | summary.dfy | `get_recent_earthquake_summary` |

Three behaviours of the code are easy to misread:

- **Zones overlap.** The zone predicates are not disjoint
  (final_app.py:182-192). Pacific and Mediterranean share latitudes 20–50
  and longitudes 110–160. Mediterranean and Atlantic share the meridian −10
  at latitudes 20–50. The order of the tests decides the label.
- **Trend gate.** The magnitude trend is the mean of per-year means once at
  least 3 events fall in the trailing 10 calendar years
  (final_app.py:361-365). The gate counts events, not distinct years, so
  three events of a single year qualify.
- **Deduplication.** The merged catalog drops rows that are identical in
  every column (final_app.py:69).

## Model

| member | source | states |
|---|---|---|
| Regions.Lookup | final_app.py:19-36 | A region is found exactly when its name is one of the registered keys, and every registered box is well formed (latitudes within ±90, longitudes within ±180, minimum ≤ maximum). |
| Regions.FilterRegion | final_app.py:253-268 | An unknown region gives the empty sequence. Otherwise an event is in the result iff it is in the catalog and inside the box with all four bounds inclusive. Each event in the box appears exactly as often as in the catalog, and the result is in time order. |
| Zones.Classify | final_app.py:177-196 | First match wins. Pacific iff the Pacific predicate holds. Mediterranean iff it holds and Pacific does not. Atlantic iff it holds and neither earlier one does. Global iff none holds. |
| Zones.PacificShadowsMediterranean | final_app.py:182-188 | At latitudes 20–50 and longitudes 110–160 both the Pacific and the Mediterranean predicates hold, and the label is Pacific. |
| Zones.AtlanticShadowedOnlyOnMeridian | final_app.py:182-192 | The Pacific predicate never covers an Atlantic point. An Atlantic point gets the Atlantic label exactly when it is not on the meridian −10 between latitudes 20 and 50. |
| Zones.MeridianPointIsMediterranean | final_app.py:187-192 | The point (30, −10) satisfies the Atlantic predicate yet is labelled Mediterranean. |
| Zones.LabelInjective | final_app.py:184-196 | The four zone labels are distinct strings. |
| LiveFeed.Normalize | final_app.py:143-159 | The row's time is the feed's epoch milliseconds in days. Coordinates are swapped from the wire order; magnitude, year and month are copied. A missing depth becomes 10 km. A present place is kept and a missing one becomes "Unknown location". The zone is the classifier's label for the position, so a Pacific point is tagged Pacific. |
| LiveFeed.NewSince | final_app.py:162-165 | Every kept row is strictly later than the catalog's latest time and comes from the batch. Every batch record later than that time is kept. |
| LiveFeed.Merge | final_app.py:66-69 | The merged catalog holds exactly the rows of the catalog and of the new batch, each row once, in time order. |
| LiveFeed.Ingest | final_app.py:64-69 | An empty batch leaves the catalog as loaded. A non-empty one yields a time-ordered catalog without duplicate rows. Either way the rows are those of the catalog and the batch. |
| LiveFeed.MergeOfKnownRowsAddsNothing | final_app.py:66-69 | Merging a batch whose rows the catalog already holds adds no row. The result has exactly the catalog's distinct rows, as many as the catalog has distinct rows. |
| LiveFeed.SameValuesSameSize | final_app.py:69 | Two duplicate-free row sequences holding the same rows have the same length. |
| Quality.SpanTier | final_app.py:415-424 | The time-span sub-score is 25 iff the span is at least 50 years, at least 20 iff at least 20 years, at least 15 iff at least 10 years, and 10 otherwise. |
| Quality.CountTier | final_app.py:426-435 | The event-count sub-score is 25 iff there are at least 100 events, at least 20 iff at least 50, at least 15 iff at least 20, and 10 otherwise. |
| Quality.RecencyTier | final_app.py:437-447 | The recency sub-score is 25 iff the latest event is at most 365 whole days old, at least 20 iff at most 1825, at least 15 iff at most 3650, and 5 otherwise. |
| Quality.RangeTier | final_app.py:449-460 | The magnitude-range sub-score is 25 iff the range is at least 3.0, at least 20 iff at least 2.0, at least 15 iff at least 1.0, and 10 otherwise. |
| Quality.TiersMonotone | final_app.py:415-460 | A longer span, more events or a wider magnitude range never lowers its sub-score. An older latest event never raises the recency sub-score. |
| Quality.SpanYears | final_app.py:416 | The span in years is non-negative, and times 365.25 it gives the whole days between the earliest and the latest event. |
| Quality.RawQuality | final_app.py:412-460 | The uncapped tier sum is 10 with no events (only the count tier applies) and lies in [35, 100] otherwise. With events it is the sum of the four sub-scores of the span, the count, the latest event's age and the magnitude range. |
| Quality.DataQuality | final_app.py:410-462 | With no events the score is 10 (only the count tier applies). With events it lies in [35, 100]. The `min(100, …)` cap never changes the sum of the tiers. |
| Quality.TierSumMonotone | final_app.py:412-460 | A longer span, more events, a younger latest event and a wider magnitude range together never lower the sum of the four sub-scores. |
| Quality.TierSumExtremes | final_app.py:412-460 | The sub-scores add up to 100 iff every measure is in its top tier (span ≥ 50 years, ≥ 100 events, latest ≤ 365 days old, range ≥ 3.0), and to 35 iff every measure is in its bottom tier (span < 10 years, < 20 events, latest > 3650 days old, range < 1.0). |
| Quality.QualityMonotone | final_app.py:410-462 | For two non-empty event sets, one at least as good on span, count, recency of the latest event and magnitude range never scores lower than the other. |
| Quality.QualityExtremes | final_app.py:410-462 | With events, the score is 100 exactly when all four measures reach their top tier, and 35 exactly when all four sit in their bottom tier. |
| Quality.YearsBetween | final_app.py:416 | The years between two ordered times are non-negative, and times 365.25 give the whole days between them. |
| Intervals.Gaps | final_app.py:289-290 | For time-ordered events there is one interval fewer than events. Each interval is non-negative and is exactly the whole-day floor of the gap between neighbours. |
| Intervals.Keep | final_app.py:303 | A value is kept iff it is an input value inside the closed range, and each value inside the range is kept exactly as often as it occurs. |
| Intervals.LowerFence | final_app.py:300 | The lower fence is the larger of q1 − 1.5·(q3 − q1) and 30 days. |
| Intervals.UpperFence | final_app.py:301 | The upper fence is the smaller of q3 + 1.5·(q3 − q1) and 7300 days. |
| Intervals.FilterIntervals | final_app.py:293-309 | The fixed bounds are used iff there are at most 3 intervals. The interquartile result is used only when it is not too few, and then holds every raw value within the fences exactly as often as it occurs, and nothing else. The fallback is taken only when the interquartile result is too few. Off the interquartile path the survivors are every raw value in [30, 3650], each exactly as often as it occurs. All survivors lie in [30, 7300]. |
| Seasons.Histogram | final_app.py:320 | Twelve slots. Slot i counts the events of month i+1, and the slots add up to the number of events. |
| Seasons.Present | final_app.py:320 | The months with a non-zero count (the value-count index), in ascending order, each exactly once. |
| Seasons.TopMonths | final_app.py:331 | `nlargest(k)`: the first min(k, n) candidates by descending count. The chosen months are drawn from the candidates without repetition. The head is a busiest candidate, and no unchosen candidate is busier than the last chosen. |
| Seasons.PeakMonths | final_app.py:322-331 | Peak months are present months, and some exist when any event exists. With at least two present months and some month reaching mean + ½·std, they are exactly the present months reaching it, in calendar order. Otherwise they are the min(3, present) busiest present months by descending count, with no left-out month busier than the last one kept. |
| Seasons.ThresholdMonths | final_app.py:323-327 | When some present month reaches the threshold, the result is non-empty, is exactly the present months reaching it, and is in calendar order (the order of the sorted value counts). |
| Seasons.BusiestMonths | final_app.py:330-331 | `nlargest(3)`: min(3, present) present months drawn without repetition, in descending count, starting with a busiest month, with no left-out month busier than the last one kept. |
| Seasons.BusiestDistinct | final_app.py:330-331 | The fallback peak months are pairwise different months. |
| Seasons.DrawnFromIncreasingDistinct | final_app.py:330-331 | Months drawn without repetition from a strictly increasing list are pairwise different. |
| Seasons.ReachingIsThresholdPeaks | final_app.py:327 | Keeping the present months whose count reaches a threshold selects exactly the months with a non-zero count at or above it. |
| Seasons.ReachingMembers | final_app.py:327 | The months kept from a list are exactly its months whose count reaches the threshold, each kept month coming from the list. |
| Seasons.ReachingKeepsOrder | final_app.py:327 | Selecting months from a list in calendar order keeps them in calendar order. |
| Seasons.TopIsBusiestFirst | final_app.py:330-331 | The top-3 fallback starts with a month no other month outnumbers. |
| Seasons.PeakThreshold | final_app.py:323-326 | With months present, the threshold minus half the supplied deviation, times the number of present months, is the total count: the threshold is the mean over the present months plus half the deviation. With no month present it is half the deviation. |
| Seasons.PresentMean | final_app.py:323 | The mean over present months is non-negative, and times the number of present months it gives the total count. |
| Seasons.SeasonOf | final_app.py:333-338 | Winter is exactly December, January and February; spring March to May; summer June to August; autumn September to November. |
| Seasons.Buckets | final_app.py:333-338 | The four seasonal sums add up to the histogram total, and each month's count is within its season's sum (December–February is winter). |
| Seasons.BucketsBySeason | final_app.py:333-338 | Each season's sum is exactly the total of the counts of the months `SeasonOf` assigns to that season, and nothing else. |
| Seasons.InSeason | final_app.py:333-338 | The twelve counts with every month outside the given season set to zero. |
| Seasons.DrawnFromPresent | final_app.py:330-331 | Months drawn from the present months have a non-zero count. |
| Seasons.PeakSeason | final_app.py:340 | The chosen season has the largest sum. On a tie the earliest in winter, spring, summer, autumn order wins. |
| Seasons.SeasonalConfidence | final_app.py:342-344 | The peak season's share of all events is always between ¼ and 1, and it is ¼ when there are none. |
| Analyzer.AnalysisParts | final_app.py:315-365 | An analysis that passes the gates holds the mean and median of the surviving intervals, the month counts and peak months of the significant events, their mean magnitude and trend, and the 20- and 5-year rates. |
| Analyzer.Analyze | final_app.py:270-408 | No analysis exactly when there are fewer than 10 region events, fewer than 5 significant ones, or fewer than 3 surviving intervals. An analysis counts the significant events and is `Valid`: means, medians and extremes in range, and depth consistency in [½, 1]. Its last-event time is the time of a significant event, and no significant event is later. |
| Analyzer.Assemble | final_app.py:285-408 | For data that passes the gates, every statistic meets `Valid`. The survivors are the filtered intervals, and the last-event time is the last significant time. |
| Analyzer.AnalysisOrderFree | final_app.py:270-408 | The analysis depends only on which events are given, not on their order. A rearranged input fails the same gates, or yields the very same analysis. |
| Analyzer.SameGates | final_app.py:272-309 | Rearranged events have the same surviving intervals and pass the same gates. |
| Analyzer.SameAssembly | final_app.py:285-408 | Rearranged events that pass the gates are assembled into the same analysis. |
| Analyzer.SameSignificantTimes | final_app.py:277-289 | After the time sort, rearranged inputs give the same sequence of significant times. Events of equal time may trade places. |
| Analyzer.SameSummaries | final_app.py:320-371 | The seasonal, magnitude and depth statistics, the major count and both rates do not depend on the order of the significant events. |
| Analyzer.SameTrend | final_app.py:361-365 | The magnitude trend does not depend on the order of the events: the distinct years come out in another order, but their means average to the same value. |
| Analyzer.SameYearMeans | final_app.py:363 | The per-year means of rearranged events over rearranged years are a rearrangement of each other. |
| Analyzer.SameQuality | final_app.py:410-462 | The data-quality score does not depend on the order of the events. |
| Analyzer.SameLatest | final_app.py:401 | The last significant time does not depend on the order of the events. |
| Seasons.SameHistogram | final_app.py:320 | The month counts do not depend on the order of the events. |
| Intervals.AscendingUnique | final_app.py:289 | Two ascending sequences holding the same values are equal: a time sort has one outcome on the times. |
| Stats.SumPerm | final_app.py:316 | The sum does not depend on the order of the values. |
| Stats.SameExtremes | final_app.py:356-357 | The smallest and the largest value do not depend on the order of the values. |
| Analyzer.SignificantSorted | final_app.py:277-289 | The significant events are exactly the region events with magnitude ≥ 4.0, each as often as in the input, in time order. |
| Analyzer.RawIntervals | final_app.py:289-290 | One interval per pair of consecutive significant events in time order, and none without significant events. Interval i is the whole days from event i to event i + 1. |
| Analyzer.SurvivingIntervals | final_app.py:293-309 | Every surviving interval is a raw interval in [30, 7300] days, kept as often as it occurs among the raw intervals. A raw interval within both the fences and [30, 3650] survives whichever path the filter takes. |
| Analyzer.IntervalSummary | final_app.py:315-317 | The average is the mean of the survivors and the median is their median, both in [30, 7300] days. The deviation is the supplied one. |
| Analyzer.SeasonalSummary | final_app.py:320-344 | The histogram is the month counts of the significant events. The peak months, peak season and confidence are those of that histogram and its buckets. The pattern is valid for the number of events. |
| Analyzer.MagnitudeSummary | final_app.py:355-365 | The average is the mean magnitude and the trend is the magnitude trend. The extremes are the minimum and maximum, with 4.0 ≤ minimum ≤ mean ≤ maximum. |
| Analyzer.MagnitudeTrend | final_app.py:361-365 | The trend lies between the smallest and the largest magnitude. With fewer than 3 events in the trailing 10 calendar years it is the overall mean magnitude. |
| Analyzer.TrendWeighsYears | final_app.py:361-364 | With at least 3 trailing events, the trend is the average over the distinct trailing years, each weighing once, of that year's mean magnitude. Those years are exactly the years of the trailing events, each listed once. |
| Analyzer.TwoYearTrend | final_app.py:361-364 | When the trailing events come from exactly two calendar years, twice the trend is the sum of the two yearly means, however many events each year holds (four 4.0 events in one year and one 6.0 in another give 5.0, not the plain mean 4.4). |
| Analyzer.TrendIsYearMean | final_app.py:361-364 | With at least 3 trailing events, the trend is the mean of the per-year means over the distinct trailing years. |
| Analyzer.YearMeansSum | final_app.py:363 | The per-year means add up to the running total of yearly means. |
| Analyzer.OccurringYears | final_app.py:363 | The distinct years of a set of events are exactly the years some event falls in. |
| Analyzer.TwoTrailingYears | final_app.py:363 | Events spread over exactly two years have those two years, in one order or the other, as their distinct years. |
| Analyzer.TwoYearTotal | final_app.py:363 | Over the two years, the running total of yearly means is the sum of the two means. |
| Analyzer.AverageOfTwo | final_app.py:363 | Twice the average over two years is their total. |
| Seqs.TwoValues | final_app.py:363 | A duplicate-free sequence holding exactly two distinct values is those two values in one order or the other. |
| Analyzer.OneYearTrend | final_app.py:361-365 | When at least 3 trailing events all fall in one calendar year, the trend is the mean magnitude of those events alone, however the older events weigh. |
| Analyzer.OneYearMean | final_app.py:363 | The mean of per-year means over a single year is the mean magnitude of that year's events. |
| Analyzer.OneValueDedup | final_app.py:363 | The distinct years of events all from one year are that year alone. |
| Analyzer.YearMeans | final_app.py:363 | Every per-year mean lies within any bounds that hold for all the magnitudes. |
| Analyzer.RecentFrequency | final_app.py:347-352 | The rate is non-negative, rate × window equals the number of events in the trailing window of calendar years, and the rate is zero exactly when that number is. |
| Analyzer.RecentCountIsSince | final_app.py:347-349 | The number of events counted from year `since` on is the length of the filter `year >= since`. |
| Analyzer.RecentCountZero | final_app.py:347-349 | No event counts in a window exactly when every event's year is before the window's first year. |
| Analyzer.QuietWindowRate | final_app.py:351-352 | The rate over a window is zero exactly when every significant event is from before the window. |
| Analyzer.AnalysisOf | final_app.py:374-408 | Given valid parts, the record is `Valid`, and every field holds the part it was built from, including the major count. The temporal and magnitude consistencies are those of the interval and magnitude deviations over their means, the depth consistency is the larger depth group's share, and the seasonal consistency is the seasonal confidence. |
| Analyzer.AnalysisConsistency | final_app.py:354-408 | An analysis that passes the gates holds the number of major events, the mean depth and the data-quality score of the significant events. Its deviations are the supplied ones, and its four consistency values are computed from its own interval, magnitude, depth and seasonal fields. |
| Analyzer.AssembleFrom | final_app.py:285-408 | From significant events, surviving intervals in [30, 7300] and a quality score in [35, 100], the record is `Valid`, counts the events and keeps the intervals and last time given. |
| Intervals.Gap | final_app.py:289-290 | The whole days between two ordered times are non-negative and are the floor of their difference. |
| Analyzer.DepthSummary | final_app.py:368-371 | The mean depth is the mean of the events' depths, and the shallow (< 70 km) and deep (≥ 70 km) counts partition the significant events. |
| Analyzer.DepthConsistency | final_app.py:377 | The larger depth group's share lies between ½ and 1. |
| Analyzer.VariationConsistency | final_app.py:375-376 | At most 1 and 0.8 when the deviation is zero. It is negative once the deviation exceeds the mean, since it is not clamped. |
| Analyzer.LastSignificantTime | final_app.py:401 | The last significant event in time order has the latest time of all significant events. |
| Analyzer.MinMagnitudeSignificant | final_app.py:357 | The minimum magnitude of the significant events is at least 4.0. |
| Risk.RiskOf | final_app.py:717-728 | The level's rank equals the number of thresholds 4.5, 5.5, 6.5, 7.5 that the magnitude reaches. |
| Risk.RiskMonotone | final_app.py:717-728 | A larger magnitude never gets a lower risk level. |
| Risk.RiskLabelInjective | final_app.py:719-728 | The five level names are distinct. |
| Risk.StrengthOf | final_app.py:701-702 | Strong iff temporal consistency > 0.7. Weak iff it is ≤ 0.4. |
| Risk.StrengthMonotone | final_app.py:701-702 | More consistent intervals never give a weaker pattern. |
| Risk.NegativeConsistencyIsWeak | final_app.py:701-702 | A negative temporal consistency is reported as Weak. |
| Forecast.WeightedInterval | final_app.py:477-482 | The interval is positive and is the median when the 20-year rate is zero. Otherwise it lies 40 % of the way from the median to the rate's implied interval 365.25 / rate, i.e. 0.6 · median + 0.4 · implied. |
| Forecast.Cycles | final_app.py:494-498 | The step count is the unique k ≥ 1 with (k−1)·w ≤ overdue < k·w. |
| Forecast.Project | final_app.py:485-503 | The projected date is after now. It is last + w when that is after now, even when within 30 days. On the overdue path it is the first whole step of w past the whole days overdue whenever that lands 30 or more whole days ahead, and now + 30 + w exactly when it does not. |
| Forecast.ProjectionAloneCanLag | final_app.py:494-503 | With w = 30.3, expected date 30.3 and now 30.9, the step alone lands within 30 days of now. Only the reset gives a date 30 days ahead. |
| Forecast.NoBufferWhenNotOverdue | final_app.py:492-503 | A date last + w less than a day after now is kept, with no 30-day buffer. |
| Forecast.Near | final_app.py:517-519 | A candidate counted as within half an interval in whole days is less than half an interval before, and less than half an interval plus a day after, the date; a candidate more than a day inside that range always counts. |
| Forecast.Snap | final_app.py:506-521 | The date is unchanged when its month is a peak month or there are no peaks. Otherwise it becomes the current-year candidate when that is after now and near; else the next-year candidate when near; else it is kept. A moved date falls in the first peak month and stays within half an interval (plus the day fraction). |
| Forecast.UncertaintyFactor | final_app.py:524 | The factor is in [0, 0.3]: min(0.3, CV) when the deviation is positive, 0.2 otherwise. |
| Forecast.ShiftedWindow | final_app.py:527-537 | now < start ≤ predicted ≤ end, with both half-widths equal to the uncertainty. An unshifted window keeps the date. A shifted one moves the date forward by a whole number of days, leaving the start at most one day past now. |
| Forecast.DataVolumeScore | final_app.py:544 | Data volume lies in (0, 25] for events present. Below 50 events it is half the event count (n / 50 · 25), and it is 25 iff there are at least 50 events. |
| Forecast.RegularityScore | final_app.py:548-559 | Regularity is one of 10, 15, 20, 25. For a positive deviation it is 25 iff the coefficient of variation is below 0.2, at least 20 iff below 0.4, at least 15 iff below 0.6. It is 15 when the deviation is zero. |
| Forecast.RecencyScore | final_app.py:563-571 | Recency is one of 5, 10, 15, 20. It is 20 iff the last event is under 365 whole days old, at least 15 iff under 1825, at least 10 iff under 3650. |
| Forecast.RecencyMonotone | final_app.py:563-571 | An older last event never scores higher. |
| Forecast.SeasonalScore | final_app.py:575-587 | The seasonal score is one of 5, 10, 15, and 5 without peaks or with at most six months present. Otherwise it is 15 iff the busiest month exceeds 1.5 times the mean over present months, and at least 10 iff it exceeds 1.2 times that mean. |
| Forecast.GeoScore | final_app.py:592-602 | The geographic score is one of 8, 12, 15. It is 15 iff one depth group holds more than 80 % of the events, and at least 12 iff one holds more than 60 %. |
| Forecast.SparsePenalty | final_app.py:612-617 | The penalty is in {−15, −10, 0}: −15 iff there are fewer than 10 events, and 0 iff there are at least 20. |
| Forecast.VariabilityPenalty | final_app.py:620-623 | The penalty is in {−10, 0}, and −10 iff the interval deviation exceeds the mean interval. |
| Forecast.OutdatedPenalty | final_app.py:626-631 | The penalty is in {−15, −8, 0}: −15 iff the last event is more than 7300 days old, and 0 iff at most 3650. |
| Forecast.Confidence | final_app.py:634-638 | The clamped confidence, rounded half to even as at final_app.py:694, lies in [35, 85]. It is exactly 35 when the raw sum is at most 35, exactly 85 when it is at least 85, and within ½ of the raw sum in between. |
| Forecast.ClampBothEndsReachable | final_app.py:541-638 | Factors and penalties the scorers actually produce reach both clamp ends: 5 events, irregular intervals, a last event 8000 days old, no peaks and mixed depths give confidence 35; 50 regular, recent, single-depth events give 85. |
| Forecast.TrendWeight | final_app.py:648 | The weight is 0.3 iff the 5-year rate exceeds the 20-year rate, and 0.2 otherwise. |
| Forecast.TrendAdjusted | final_app.py:650-654 | The adjusted magnitude lies between the mean and the trend. It is the mean when they differ by at most 0.15. Otherwise it is strictly between them. |
| Forecast.BlendBetween | final_app.py:652 | A weighted blend lies between its two values, strictly between for distinct values and a weight strictly inside (0, 1). |
| Forecast.VariationFactor | final_app.py:658-663 | The noise scale is one of 0.2, 0.35, 0.5: 0.2 iff the magnitude deviation is below 0.3, and 0.5 iff it is at least 0.6. |
| Forecast.VariationMonotone | final_app.py:658-663 | A larger magnitude deviation never gives smaller noise. |
| Forecast.MagnitudeFloor | final_app.py:669 | The lower bound is the larger of 4.0 and the smallest magnitude seen. |
| Forecast.MagnitudeCeiling | final_app.py:670 | The upper bound is the smaller of the largest magnitude seen plus 0.5 and 9.5. |
| Forecast.ClampMagnitude | final_app.py:669-672 | The result is at least the floor, and within [floor, ceiling] when that is non-empty. A value already inside is unchanged. When the bounds cross, the floor wins. |
| Forecast.RawMagnitude | final_app.py:641-672 | For any noise value, the clamped magnitude is at least max(4.0, min magnitude), and at most min(max magnitude + 0.5, 9.5) when that bound is not below the floor. |
| Forecast.MagnitudeOf | final_app.py:641-673 | The reported magnitude is within 0.05 of the clamp bounds after rounding to a tenth. |
| Forecast.RoundTo | final_app.py:673 | Rounding to 1/scale moves a value by at most half a grid step. |
| Forecast.RoundToStaysWithin | final_app.py:686 | Rounding keeps a value inside a range whose ends lie on the grid. |
| Forecast.Uniform | final_app.py:677-684 | A draw in [0, 1) maps into [lo, hi], and below hi for a non-empty range. |
| Forecast.Coordinate | final_app.py:676-678 | The estimated coordinate lies in the region's range, give or take the 0.005 of the two-decimal rounding at final_app.py:692. |
| Forecast.EstimatedDepth | final_app.py:681-686 | The depth is in [5, 70] km when shallow events outnumber deep ones, in [70, 200] km otherwise. Both bounds hold after rounding. |
| Forecast.DatesOf | final_app.py:485-537 | Given snapping candidates in the first peak month, the forecast window lies strictly after now and contains the predicted date. |
| Forecast.FactorsOf | final_app.py:541-605 | Each factor lies in its stated range. |
| Forecast.PenaltiesOf | final_app.py:608-633 | Each penalty lies in its stated set. |
| Forecast.PredictionOf | final_app.py:469-715 | For a registered region and a valid analysis: now < range start ≤ date ≤ range end, confidence in [35, 85], the risk is that of the reported magnitude, which lies within 0.05 of the clamp bounds, coordinates are in the region's box up to rounding, depth is in [5, 200], and the peak months are the analysis's. |
| Forecast.Predict | final_app.py:464-715 | No forecast exactly when there is no analysis. Otherwise now < range start ≤ date ≤ range end, and confidence is in [35, 85]. The risk is that of the reported magnitude, and the magnitude lies within 0.05 of the clamp bounds. Coordinates are in the region's box up to rounding, depth is in [5, 200], and the peak months are the analysis's. |
| Summary.LastOf | final_app.py:223 | `iloc[-1]` of a time-ordered sequence is an element with the latest time. |
| Summary.RecentOf | final_app.py:205-209 | The events in the trailing 365 days are exactly those whose time is at least now − 365, each as often as in the region, in time order; so `total_recent` is the window's size. |
| Summary.SignificantOf | final_app.py:210 | The significant events of the window are exactly its events with magnitude ≥ 4.0, each as often as in the window, in time order. |
| Summary.LatestRecent | final_app.py:222-223 | The window's last event is the region's latest event overall. |
| Summary.LatestSignificant | final_app.py:226-238 | With the full-history fallback, the reported significant event is the latest significant event in the region. There is one iff the region has any. |
| Summary.BusySummary | final_app.py:222-247 | With events in the window, the counts are those of the window. The latest and latest-significant events are reported with their whole-day ages. |
| Summary.SummaryOf | final_app.py:205-247 | The counts are those of the window. With an empty window the all-zero/none record is returned; otherwise the latest events are reported. |
| Summary.Summarize | final_app.py:198-204 | No summary exactly when the region has no events (including an unknown region). |
| Summary.QuietWindowHidesHistory | final_app.py:212-238 | With nothing in the trailing year, the summary is the all-zero/none record even though the region holds a significant event. The history search runs only when the window is not empty. |
| Summary.HistoryFoundWhenWindowBusy | final_app.py:234-238 | With something in the trailing year, any significant event of the region's history leads to a reported latest significant event at least as late. |
| Seqs.Filter | final_app.py:277 | Filtering keeps exactly the elements satisfying the predicate, each exactly as often as in the input, and no others. |
| Seqs.FilterAll | final_app.py:363 | A filter every element passes returns its input unchanged. |
| Seqs.FilterSplit | final_app.py:370-371 | Two complementary filters split a sequence's length. |
| Seqs.FilterKeepsOrder | final_app.py:209-210 | Filtering a time-ordered sequence keeps it ordered. |
| Seqs.SortBy | final_app.py:267 | Sorting yields an ordered permutation of the input. |
| Seqs.Dedup | final_app.py:69 | Duplicate removal keeps every distinct row exactly once. |
| Seqs.DedupAbsorbs | final_app.py:66-69 | Appending rows already present does not change the distinct rows. |
| Stats.MeanWithin | final_app.py:315 | A mean lies within any bounds that hold for every element. |
| Stats.Median | final_app.py:316 | The median lies between minimum and maximum, with at least half of the values at most it and at least half at least it. For an odd count it is one of the values. For an even count it is the average of the lower and upper middle values, which are pinned down by how many values lie on each side. |
| Stats.MedianExact | final_app.py:316 | The middle of the sorted values is a value for an odd count, and half the sum of the two middle values for an even count. |
| Stats.MiddlePair | final_app.py:316 | The two middle elements of the sorted values are the lower and upper middle values. |
| Stats.RankOf | final_app.py:316 | The k-th smallest value has at least k + 1 values at most it and at least n − k values at least it. |
| Stats.SortedMiddle | final_app.py:316 | In a sorted sequence the middle element (or the average of the two middle ones) has at least half the elements on each side. |
| Stats.FilterSameSize | final_app.py:316 | Rearranging a sequence does not change how many of its elements pass a filter. |
| Stats.RoundHalfEven | final_app.py:694 | `round` moves a value by at most ½, to the even neighbour on a tie. |
| Stats.RoundStaysWithin | final_app.py:694 | Rounding a value within integer bounds stays within them. |

## Left out

- HTTP fetch, CSV loading and the dashboard (final_app.py:46-175 apart from the row normalisation and the "strictly after" filter, final_app.py:730-986). These are I/O, network and presentation. The fetch window's start date (final_app.py:106-111) only shapes the HTTP query.
- The second `EarthquakeFuturePredictor` (final_app.py:991-1215). It is unused code built around machine-learning libraries.
- Random sampling. The normal and uniform draws are inputs. Only ranges are stated, not distributions.
- Square roots and pandas quantile interpolation. The standard deviations and quartiles are inputs, assumed non-negative (deviations).
- Calendar arithmetic. The month of a date, the year and month of each event, and the two day-15 peak-month candidates are inputs. Local time zones and the microsecond rounding of `timedelta(days=float)` are not modelled.
- Analyzer.AnalysisOrderFree: the statement holds for exact real arithmetic. In the source, floating-point sums may differ in the last bits when the values are added in another order.
- Analyzer.Analyze: the analysis record's `avg_interval_years` field (final_app.py:387) is the mean interval divided by 365.25. It is a display copy of `avg_interval_days` and is not modelled.
- Analyzer.Analyze: `datetime.now()` is read several times in the source; the model uses one `now` for the whole call.
- Forecast.Predict: `datetime.now()` is read again at final_app.py:491, 509, 531, 563 and 699; the model uses one `now` (and one current year) for the whole forecast.
- Seasons.Histogram: the histogram is a total twelve-slot map with zero defaults. On recent pandas the label lookup `monthly_counts[[12, 1, 2]]` (final_app.py:335-338) raises when a month has no event, and the model does not reproduce that error.
- Seqs.SortBy: the sort is stable. pandas' default sort is not, so the order among equal timestamps (and among equally busy months in the top-3 fallback) may differ. Contracts state only the ordering and the permutation.
- LiveFeed.Normalize: a feed place is either present or absent. In the source a JSON null place stays `None`, because `get` substitutes "Unknown location" only for a missing key (final_app.py:155); the model gives a null place the same text as a missing one. A null magnitude (NaN in the frame) cannot be written as a real and is not modelled.
- Seqs.Dedup: rows are compared on the modelled columns (time, position, depth, magnitude, year, month). The source also compares place and zone, so two rows differing only in those would be kept as two.
- Forecast.Predict: the `certainty_factors` record (final_app.py:704-714) copies analysis values rounded to two decimals, which is a display copy and not part of the model. The risk level's colour symbol is left out as presentation.
- Forecast.Predict: the source looks the region up with `COUNTRY_COORDS[country]` (final_app.py:676) and raises `KeyError` for an unregistered name. The model requires a registered region instead of modelling the exception. Every caller in the source passes a name taken from the registry.
- Forecast.MagnitudeOf: the bounds are stated on the value before rounding to a tenth, plus half a grid step. Rounding can cross a bound that is not on the 0.1 grid. Python's `round(x, 1)` on binary floats is modelled as half-to-even on the exact decimal.
- Analyzer.Supplied: standard deviations computed from one sample are NaN in pandas. The only place that can happen in a gated analysis is the monthly deviation with a single present month. The model treats that case as "threshold not usable", so the top-3 fallback applies, as the NaN comparison does.

=== FILE: analyzer.dfy ===
/** `analyze_earthquake_patterns`: from one region's events to a pattern
    analysis, or no analysis when the minimum-sample gates fail. */
module Analyzer {

  import opened Events
  import opened Seqs
  import opened Stats
  import opened Quality
  import opened Intervals
  import opened Seasons

  /** Statistics the caller supplies rather than the model computing them:
      the quartiles of the raw intervals (pandas interpolation) and the sample
      standard deviations of the surviving intervals, of the present months'
      counts, and of the significant events' magnitudes and depths. */
  datatype Supplied = Supplied(
    q1: real, q3: real, intervalStd: real, monthlyStd: real, magnitudeStd: real, depthStd: real)

  /** Standard deviations are never negative. */
  predicate SuppliedOk(st: Supplied) {
    st.intervalStd >= 0.0 && st.monthlyStd >= 0.0 && st.magnitudeStd >= 0.0 && st.depthStd >= 0.0
  }

  /** The four consistency metrics; none is clamped. */
  datatype Consistency = Consistency(temporal: real, magnitude: real, depth: real, seasonal: real)

  /** Interval statistics over the surviving intervals (whole days). */
  datatype IntervalStats = IntervalStats(avg: real, median: real, std: real, kept: seq<int>)

  /** The monthly histogram and what is derived from it. */
  datatype SeasonalPattern = SeasonalPattern(
    monthly: seq<nat>, peakMonths: seq<Month>, peakSeason: Season, seasonal: SeasonSums, confidence: real)

  datatype MagnitudeStats = MagnitudeStats(avg: real, max: real, min: real, std: real, trend: real)

  /** Depth statistics; shallow means shallower than 70 km. */
  datatype DepthStats = DepthStats(avg: real, std: real, shallow: nat, deep: nat)

  datatype Analysis = Analysis(
    totalEarthquakes: nat,
    majorEarthquakes: nat,
    intervals: IntervalStats,
    seasons: SeasonalPattern,
    magnitudes: MagnitudeStats,
    depths: DepthStats,
    recentFrequency: real,
    recentFrequency5yr: real,
    lastMajorEarthquake: real,
    consistency: Consistency,
    dataQuality: int)

  predicate ValidIntervals(s: IntervalStats) {
    && |s.kept| >= 3
    && (forall x :: x in s.kept ==> 30 <= x <= 7300)
    && MinInterval <= s.avg <= MaxIqrInterval
    && MinInterval <= s.median <= MaxIqrInterval
    && s.std >= 0.0
  }

  /** A seasonal pattern over `n` events. */
  predicate ValidSeasons(p: SeasonalPattern, n: nat) {
    && |p.monthly| == 12
    && Total(p.monthly) == n
    && 0 < |p.peakMonths| <= 12
    && (forall i :: 0 <= i < |p.peakMonths| ==> p.monthly[p.peakMonths[i] - 1] > 0)
    && p.seasonal == Buckets(p.monthly)
    && 0.25 <= p.confidence <= 1.0
  }

  predicate ValidMagnitudes(m: MagnitudeStats) {
    && SignificantMagnitude <= m.min <= m.avg <= m.max
    && m.min <= m.trend <= m.max
    && m.std >= 0.0
  }

  /** What every analysis the analyzer produces satisfies. */
  predicate Valid(a: Analysis) {
    && a.totalEarthquakes >= 5
    && a.majorEarthquakes <= a.totalEarthquakes
    && ValidIntervals(a.intervals)
    && ValidSeasons(a.seasons, a.totalEarthquakes)
    && ValidMagnitudes(a.magnitudes)
    && a.depths.shallow + a.depths.deep == a.totalEarthquakes
    && a.depths.std >= 0.0
    && a.recentFrequency >= 0.0 && a.recentFrequency5yr >= 0.0
    && a.consistency.temporal <= 1.0
    && a.consistency.magnitude <= 1.0
    && 0.5 <= a.consistency.depth <= 1.0
    && a.consistency.seasonal == a.seasons.confidence
    && 35 <= a.dataQuality <= 100
  }

  /** Minimum number of region events. */
  const MinRegionEvents: nat := 10
  /** Minimum number of significant events. */
  const MinSignificantEvents: nat := 5
  /** Minimum number of surviving intervals. */
  const MinIntervals: nat := 3

  /** The significant events of the region, in time order. */
  function SignificantSorted(events: seq<Event>): (r: seq<Event>)
    ensures SortedBy(r, TimeOf)
    ensures forall e :: e in r <==> e in events && IsSignificant(e)
    ensures multiset(r) == multiset(Filter(events, IsSignificant))
    ensures |r| == |Filter(events, IsSignificant)|
  {
    var sig := Filter(events, IsSignificant);
    var r := SortBy(sig, TimeOf);
    assert forall e :: e in r <==> e in sig by {
      forall e ensures e in r <==> e in sig {
        assert e in r <==> e in multiset(r);
      }
    }
    r
  }

  lemma SortedTimesAscending(s: seq<Event>)
    requires SortedBy(s, TimeOf)
    ensures Ascending(Times(s))
  {
    forall i, j | 0 <= i < j < |s| ensures Times(s)[i] <= Times(s)[j] {
      assert TimeOf(s[i]) <= TimeOf(s[j]);
    }
  }

  /** Rearranging the input does not change the times of its significant
      events in time order; events of equal time may trade places. */
  lemma SameSignificantTimes(e1: seq<Event>, e2: seq<Event>)
    requires multiset(e1) == multiset(e2)
    ensures multiset(SignificantSorted(e1)) == multiset(SignificantSorted(e2))
    ensures Times(SignificantSorted(e1)) == Times(SignificantSorted(e2))
  {
    var s1, s2 := SignificantSorted(e1), SignificantSorted(e2);
    FilterPerm(e1, e2, IsSignificant);
    MapPerm(s1, s2, TimeOf);
    assert Times(s1) == MapSeq(s1, TimeOf);
    assert Times(s2) == MapSeq(s2, TimeOf);
    SortedTimesAscending(s1);
    SortedTimesAscending(s2);
    AscendingUnique(Times(s1), Times(s2));
  }

  /** Whole days between consecutive significant events. */
  function RawIntervals(events: seq<Event>): (r: seq<int>)
    ensures forall i :: 0 <= i < |r| ==> r[i] >= 0
    ensures |SignificantSorted(events)| > 0 ==> |r| == |SignificantSorted(events)| - 1
    ensures |SignificantSorted(events)| == 0 ==> r == []
    ensures forall i :: 0 <= i < |r| ==>
      r[i] == Days(SignificantSorted(events)[i + 1].time - SignificantSorted(events)[i].time)
  {
    var sig := SignificantSorted(events);
    SortedTimesAscending(sig);
    Gaps(Times(sig))
  }

  /** The intervals left by the outlier filter: a surviving length keeps all
      its occurrences, and a length inside both the fences and [30, 3650]
      survives whichever path the filter takes. */
  function SurvivingIntervals(events: seq<Event>, st: Supplied): (r: seq<int>)
    ensures forall x :: x in r ==> x in RawIntervals(events) && 30 <= x <= 7300
    ensures forall x {:trigger Count(r, x)} :: x in r ==> Count(r, x) == Count(RawIntervals(events), x)
    ensures forall x :: (x in RawIntervals(events) && 30 <= x <= 3650
      && LowerFence(st.q1, st.q3) <= x as real <= UpperFence(st.q1, st.q3)) ==> x in r
  {
    FilterIntervals(RawIntervals(events), st.q1, st.q3).kept
  }

  /** The gates: enough region events, enough significant ones, enough surviving intervals. */
  predicate Sufficient(events: seq<Event>, st: Supplied) {
    && |events| >= MinRegionEvents
    && |Filter(events, IsSignificant)| >= MinSignificantEvents
    && |SurvivingIntervals(events, st)| >= MinIntervals
  }

  function IntsAsReals(s: seq<int>): (r: seq<real>)
    ensures |r| == |s| && forall i :: 0 <= i < |s| ==> r[i] == s[i] as real
  {
    seq(|s|, i requires 0 <= i < |s| => s[i] as real)
  }

  /** Surviving intervals as reals, all within [30, 7300]. */
  lemma SurvivorsWithin(s: seq<int>)
    requires forall x :: x in s ==> 30 <= x <= 7300
    ensures Within(IntsAsReals(s), MinInterval, MaxIqrInterval)
  {
    forall i | 0 <= i < |s| ensures MinInterval <= IntsAsReals(s)[i] <= MaxIqrInterval {
      assert s[i] in s;
    }
  }

  /** Events per year over the trailing `window` calendar years (the events
      whose year is at least `nowYear - window`). */
  function RecentFrequency(sig: seq<Event>, nowYear: int, window: nat): (f: real)
    requires window > 0
    ensures f >= 0.0
    ensures f * window as real == RecentCount(sig, nowYear - window) as real
    ensures f == 0.0 <==> RecentCount(sig, nowYear - window) == 0
  {
    var n := RecentCount(sig, nowYear - window);
    var f := Rate(n, window);
    assert f * window as real == n as real;
    f
  }

  /** `n` events spread over `w` years, as events per year. */
  function Rate(n: nat, w: nat): (f: real)
    requires w > 0
    ensures f >= 0.0 && f * w as real == n as real
    ensures f == 0.0 <==> n == 0
  {
    n as real / w as real
  }

  /** The events whose calendar year is at least `since`, in order. */
  function Since(sig: seq<Event>, since: int): (r: seq<Event>)
    ensures forall e :: e in r <==> e in sig && e.year >= since
  {
    Filter(sig, (e: Event) => e.year >= since)
  }

  /** The number of events whose calendar year is at least `since`. */
  function RecentCount(sig: seq<Event>, since: int): (n: nat)
    ensures n <= |sig|
  {
    if |sig| == 0 then 0
    else (if sig[0].year >= since then 1 else 0) + RecentCount(sig[1..], since)
  }

  /** The running count agrees with the length of the year filter. */
  lemma {:induction false} RecentCountIsSince(sig: seq<Event>, since: int)
    ensures RecentCount(sig, since) == |Since(sig, since)|
  {
    if |sig| > 0 {
      RecentCountIsSince(sig[1..], since);
    }
  }

  /** The count of recent events does not depend on their order. */
  lemma SameRecentCount(s1: seq<Event>, s2: seq<Event>, since: int)
    requires multiset(s1) == multiset(s2)
    ensures RecentCount(s1, since) == RecentCount(s2, since)
  {
    RecentCountIsSince(s1, since);
    RecentCountIsSince(s2, since);
    FilterPerm(s1, s2, (e: Event) => e.year >= since);
  }


  /** No event counts exactly when every event is from before `since`. */
  lemma {:induction false} RecentCountZero(sig: seq<Event>, since: int)
    ensures RecentCount(sig, since) == 0 <==> forall e :: e in sig ==> e.year < since
  {
    if |sig| > 0 {
      RecentCountZero(sig[1..], since);
      assert forall e :: e in sig <==> e == sig[0] || e in sig[1..];
    }
  }

  /** The rate over a window is zero exactly when the window holds no event. */
  lemma QuietWindowRate(sig: seq<Event>, nowYear: int, window: nat)
    requires window > 0
    ensures RecentFrequency(sig, nowYear, window) == 0.0 <==> forall e :: e in sig ==> e.year < nowYear - window
  {
    RecentCountZero(sig, nowYear - window);
  }

  function YearsOf(s: seq<Event>): (r: seq<int>)
    ensures |r| == |s| && forall i :: 0 <= i < |s| ==> r[i] == s[i].year
  {
    seq(|s|, i requires 0 <= i < |s| => s[i].year)
  }

  /** When the trailing events all fall in one calendar year, the trend is
      that year's mean magnitude, whatever the older events weigh: the gate
      counts events, not years. */
  lemma {:induction false} OneYearTrend(sig: seq<Event>, nowYear: int, y: int)
    requires |sig| > 0 && |Since(sig, nowYear - 10)| >= 3
    requires forall e :: e in Since(sig, nowYear - 10) ==> e.year == y
    ensures MagnitudeTrend(sig, nowYear) == Mean(Mags(Since(sig, nowYear - 10)))
  {
    var recent := Since(sig, nowYear - 10);
    assert forall z :: z in YearsOf(recent) ==> z == y by {
      forall z | z in YearsOf(recent) ensures z == y {
        var k :| 0 <= k < |recent| && YearsOf(recent)[k] == z;
        assert recent[k] in recent;
      }
    }
    OneValueDedup(YearsOf(recent), y);
    OneYearMean(recent, y);
  }

  /** The per-year means of events all in year `y`, over the single year `y`,
      are their overall mean. */
  lemma OneYearMean(recent: seq<Event>, y: int)
    requires |recent| > 0 && forall e :: e in recent ==> e.year == y
    ensures y in YearsOf(recent)
    ensures Mean(YearMeans(recent, [y])) == Mean(Mags(recent))
  {
    assert YearsOf(recent)[0] == y;
    FilterAll(recent, (e: Event) => e.year == y);
    var m := Mean(Mags(recent));
    assert YearMeans(recent, [y]) == [m];
    assert Sum([m]) == m + Sum([]);
  }

  /** Deduplicating a non-empty sequence of one repeated value leaves that value once. */
  lemma OneValueDedup(s: seq<int>, y: int)
    requires |s| > 0 && forall z :: z in s ==> z == y
    ensures Dedup(s) == [y]
  {
    var d := Dedup(s);
    assert s[0] in s;
    assert |d| > 0;
    assert forall z :: z in d ==> z == y;
    if |d| > 1 {
      assert d[0] in d && d[1] in d;
      TwiceCounted(d, y);
      assert false;
    }
    assert d[0] in d;
  }

  lemma TwiceCounted(d: seq<int>, y: int)
    requires |d| > 1 && d[0] == y && d[1] == y
    ensures multiset(d)[y] >= 2
  {
    assert d == [y, y] + d[2..];
  }

  /** The events of calendar year `y`. */
  function InYear(s: seq<Event>, y: int): (r: seq<Event>)
    ensures forall e :: e in r <==> e in s && e.year == y
  {
    Filter(s, (e: Event) => e.year == y)
  }

  /** `groupby('year')['magnitude'].mean()`: the mean magnitude of each listed year. */
  function YearMeans(s: seq<Event>, ys: seq<int>): (r: seq<real>)
    requires forall y :: y in ys ==> y in YearsOf(s)
    ensures |r| == |ys|
    ensures forall lo, hi :: Within(Mags(s), lo, hi) ==> Within(r, lo, hi)
  {
    if |ys| == 0 then []
    else
      assert ys[0] in ys;
      InYearNonEmpty(s, ys[0]);
      GroupMeanWithin(InYear(s, ys[0]), s);
      [Mean(Mags(InYear(s, ys[0])))] + YearMeans(s, ys[1..])
  }

  /** The mean magnitude of year `y`, zero for a year without events. */
  function YearMean(s: seq<Event>, y: int): real {
    if |InYear(s, y)| > 0 then Mean(Mags(InYear(s, y))) else 0.0
  }

  /** Entry `i` of the year means is the mean magnitude of year `ys[i]`. */
  lemma {:induction false} YearMeansAt(s: seq<Event>, ys: seq<int>)
    requires forall y :: y in ys ==> y in YearsOf(s)
    ensures forall i :: 0 <= i < |ys| ==> YearMeans(s, ys)[i] == YearMean(s, ys[i])
  {
    if |ys| > 0 {
      assert ys[0] in ys;
      InYearNonEmpty(s, ys[0]);
      YearMeansAt(s, ys[1..]);
    }
  }

  /** A year's mean magnitude does not depend on the order of the events. */
  lemma SameYearMean(s1: seq<Event>, s2: seq<Event>, y: int)
    requires multiset(s1) == multiset(s2)
    ensures YearMean(s1, y) == YearMean(s2, y)
  {
    FilterPerm(s1, s2, (e: Event) => e.year == y);
    SameColumns(InYear(s1, y), InYear(s2, y));
    if |InYear(s1, y)| > 0 {
      MeanPerm(Mags(InYear(s1, y)), Mags(InYear(s2, y)));
    }
  }

  /** The mean magnitudes of the listed years, added up. */
  function YearMeanTotal(s: seq<Event>, ys: seq<int>): real {
    if |ys| == 0 then 0.0 else YearMean(s, ys[0]) + YearMeanTotal(s, ys[1..])
  }

  /** The plain average of the listed years' mean magnitudes. */
  function YearAverage(s: seq<Event>, ys: seq<int>): real
    requires |ys| > 0
  {
    YearMeanTotal(s, ys) / |ys| as real
  }

  /** The per-year means add up to the total of the listed years' means. */
  lemma {:induction false} YearMeansSum(s: seq<Event>, ys: seq<int>)
    requires forall y :: y in ys ==> y in YearsOf(s)
    ensures Sum(YearMeans(s, ys)) == YearMeanTotal(s, ys)
  {
    if |ys| > 0 {
      assert ys[0] in ys;
      InYearNonEmpty(s, ys[0]);
      assert forall y :: y in ys[1..] ==> y in ys;
      YearMeansSum(s, ys[1..]);
    }
  }

  /** With at least 3 trailing events the trend weighs every calendar year
      that occurs among them once, however many events it holds: it is the
      plain average of the mean magnitudes of those years. */
  lemma TrendWeighsYears(sig: seq<Event>, nowYear: int)
    requires |sig| > 0 && |Since(sig, nowYear - 10)| >= 3
    ensures var ys := Dedup(YearsOf(Since(sig, nowYear - 10)));
      && |ys| > 0 && NoDuplicates(ys)
      && (forall y :: y in ys <==> exists e :: e in Since(sig, nowYear - 10) && e.year == y)
      && MagnitudeTrend(sig, nowYear) == YearAverage(Since(sig, nowYear - 10), ys)
  {
    var recent := Since(sig, nowYear - 10);
    var ys := Dedup(YearsOf(recent));
    OccurringYears(recent);
    assert YearsOf(recent)[0] in ys;
    YearMeansSum(recent, ys);
    TrendIsYearMean(sig, nowYear);
  }

  /** The deduplicated years of `recent` are the years some event of it falls in. */
  lemma OccurringYears(recent: seq<Event>)
    ensures forall y :: y in Dedup(YearsOf(recent)) <==> exists e :: e in recent && e.year == y
  {
    var years := YearsOf(recent);
    forall y ensures y in years <==> exists e :: e in recent && e.year == y {
      if y in years {
        var i :| 0 <= i < |recent| && years[i] == y;
        assert recent[i] in recent;
      }
      if e :| e in recent && e.year == y {
        var i :| 0 <= i < |recent| && recent[i] == e;
        assert years[i] == y;
      }
    }
  }

  /** Past the gate, the trend is the mean of the trailing years' means. */
  lemma TrendIsYearMean(sig: seq<Event>, nowYear: int)
    requires |sig| > 0 && |Since(sig, nowYear - 10)| >= 3
    ensures var recent := Since(sig, nowYear - 10); var ys := Dedup(YearsOf(recent));
      |ys| > 0 && MagnitudeTrend(sig, nowYear) == Mean(YearMeans(recent, ys))
  {
    var recent := Since(sig, nowYear - 10);
    assert YearsOf(recent)[0] in Dedup(YearsOf(recent));
  }

  /** Trailing events from exactly two calendar years give the mean of the
      two years' mean magnitudes, not the mean over the events: four events
      of magnitude 4.0 in one year and one of 6.0 in the other give 5.0. */
  lemma TwoYearTrend(sig: seq<Event>, nowYear: int, y1: int, y2: int)
    requires |sig| > 0 && |Since(sig, nowYear - 10)| >= 3 && y1 != y2
    requires forall e :: e in Since(sig, nowYear - 10) ==> e.year == y1 || e.year == y2
    requires exists e :: e in Since(sig, nowYear - 10) && e.year == y1
    requires exists e :: e in Since(sig, nowYear - 10) && e.year == y2
    ensures 2.0 * MagnitudeTrend(sig, nowYear)
      == YearMean(Since(sig, nowYear - 10), y1) + YearMean(Since(sig, nowYear - 10), y2)
  {
    var recent := Since(sig, nowYear - 10);
    var ys := Dedup(YearsOf(recent));
    assert |ys| > 0 && MagnitudeTrend(sig, nowYear) == YearAverage(recent, ys) by {
      TrendWeighsYears(sig, nowYear);
    }
    assert ys == [y1, y2] || ys == [y2, y1] by {
      TwoTrailingYears(recent, y1, y2);
    }
    TwoYearTotal(recent, ys, y1, y2);
    AverageOfTwo(recent, ys);
  }

  /** Events from exactly two different years deduplicate to those two years. */
  lemma TwoTrailingYears(recent: seq<Event>, y1: int, y2: int)
    requires y1 != y2
    requires forall e :: e in recent ==> e.year == y1 || e.year == y2
    requires exists e :: e in recent && e.year == y1
    requires exists e :: e in recent && e.year == y2
    ensures var ys := Dedup(YearsOf(recent)); ys == [y1, y2] || ys == [y2, y1]
  {
    OccurringYears(recent);
    TwoValues(Dedup(YearsOf(recent)), y1, y2);
  }

  /** The two years' means, added in either order. */
  lemma TwoYearTotal(s: seq<Event>, ys: seq<int>, y1: int, y2: int)
    requires ys == [y1, y2] || ys == [y2, y1]
    ensures |ys| == 2 && YearMeanTotal(s, ys) == YearMean(s, y1) + YearMean(s, y2)
  {
    assert YearMeanTotal(s, ys) == YearMean(s, ys[0]) + YearMeanTotal(s, ys[1..]);
    assert YearMeanTotal(s, ys[1..]) == YearMean(s, ys[1]) + YearMeanTotal(s, ys[1..][1..]);
    assert ys[1..][1..] == [];
  }

  /** The average of two years' means is half their total. */
  lemma AverageOfTwo(s: seq<Event>, ys: seq<int>)
    requires |ys| == 2
    ensures 2.0 * YearAverage(s, ys) == YearMeanTotal(s, ys)
  {
  }


  /** The year means of rearranged events over rearranged years are a
      rearrangement of each other. */
  lemma SameYearMeans(s1: seq<Event>, s2: seq<Event>, ys1: seq<int>, ys2: seq<int>)
    requires multiset(s1) == multiset(s2) && multiset(ys1) == multiset(ys2)
    requires forall y :: y in ys1 ==> y in YearsOf(s1)
    requires forall y :: y in ys2 ==> y in YearsOf(s2)
    ensures multiset(YearMeans(s1, ys1)) == multiset(YearMeans(s2, ys2))
  {
    YearMeansAt(s1, ys1);
    YearMeansAt(s2, ys2);
    var f := (y: int) => YearMean(s1, y);
    var g := (y: int) => YearMean(s2, y);
    forall y ensures f(y) == g(y) {
      SameYearMean(s1, s2, y);
    }
    assert YearMeans(s1, ys1) == MapSeq(ys1, f);
    assert YearMeans(s2, ys2) == MapSeq(ys2, g);
    MapPerm(ys1, ys2, f);
    assert MapSeq(ys2, f) == MapSeq(ys2, g);
  }

  /** The magnitude trend does not depend on the order of the events. */
  lemma SameTrend(s1: seq<Event>, s2: seq<Event>, nowYear: int)
    requires |s1| > 0 && multiset(s1) == multiset(s2)
    ensures |s2| > 0 && MagnitudeTrend(s1, nowYear) == MagnitudeTrend(s2, nowYear)
  {
    assert |s1| == |multiset(s1)| == |s2|;
    var r1, r2 := Since(s1, nowYear - 10), Since(s2, nowYear - 10);
    FilterPerm(s1, s2, (e: Event) => e.year >= nowYear - 10);
    SameColumns(s1, s2);
    MeanPerm(Mags(s1), Mags(s2));
    if |r1| >= 3 {
      var y1, y2 := YearsOf(r1), YearsOf(r2);
      MapPerm(r1, r2, YearOf);
      assert y1 == MapSeq(r1, YearOf) && y2 == MapSeq(r2, YearOf);
      DedupPerm(y1, y2);
      var d1, d2 := Dedup(y1), Dedup(y2);
      assert y1[0] in d1;
      SameYearMeans(r1, r2, d1, d2);
      MeanPerm(YearMeans(r1, d1), YearMeans(r2, d2));
    }
  }

  /** A year that occurs among the events has at least one event. */
  lemma InYearNonEmpty(s: seq<Event>, y: int)
    requires y in YearsOf(s)
    ensures |InYear(s, y)| > 0
  {
    var k :| 0 <= k < |s| && YearsOf(s)[k] == y;
    assert s[k] in InYear(s, y);
  }

  /** The mean magnitude of a non-empty group drawn from `s` lies within any bounds of `s`. */
  lemma GroupMeanWithin(group: seq<Event>, s: seq<Event>)
    requires |group| > 0
    requires forall e :: e in group ==> e in s
    ensures forall lo, hi :: Within(Mags(s), lo, hi) ==> lo <= Mean(Mags(group)) <= hi
  {
    forall lo, hi | Within(Mags(s), lo, hi) ensures lo <= Mean(Mags(group)) <= hi {
      SubWithin(group, s, lo, hi);
      MeanWithin(Mags(group), lo, hi);
    }
  }

  lemma SubWithin(sub: seq<Event>, s: seq<Event>, lo: real, hi: real)
    requires forall e :: e in sub ==> e in s
    requires Within(Mags(s), lo, hi)
    ensures Within(Mags(sub), lo, hi)
  {
    forall i | 0 <= i < |sub| ensures lo <= Mags(sub)[i] <= hi {
      assert sub[i] in sub;
      var k :| 0 <= k < |s| && s[k] == sub[i];
      assert Mags(s)[k] == sub[i].mag;
    }
  }


  /** The magnitude trend: over the events of the trailing 10 calendar years,
      the mean of the per-year mean magnitudes, when there are at least 3 such
      events (not 3 distinct years); the overall mean otherwise. */
  function MagnitudeTrend(sig: seq<Event>, nowYear: int): (t: real)
    requires |sig| > 0
    ensures MinOf(Mags(sig)) <= t <= MaxOf(Mags(sig))
    ensures |Since(sig, nowYear - 10)| < 3 ==> t == Mean(Mags(sig))
  {
    var lo := MinOf(Mags(sig));
    var hi := MaxOf(Mags(sig));
    assert Within(Mags(sig), lo, hi);
    var recent := Since(sig, nowYear - 10);
    if |recent| >= 3 then
      var years := Dedup(YearsOf(recent));
      assert forall y :: y in years ==> y in YearsOf(recent);
      assert YearsOf(recent)[0] in years;
      SubWithin(recent, sig, lo, hi);
      var means := YearMeans(recent, years);
      MeanWithin(means, lo, hi);
      Mean(means)
    else
      MeanWithin(Mags(sig), lo, hi);
      Mean(Mags(sig))
  }

  predicate IsShallow(e: Event) { e.depth < 70.0 }
  predicate IsDeep(e: Event) { e.depth >= 70.0 }

  /** A count between half of a positive whole and the whole. */
  lemma MajorityShare(part: real, whole: real)
    requires 0.0 < whole && part <= whole && 2.0 * part >= whole
    ensures 0.5 <= part / whole <= 1.0
  {
    var q := part / whole;
    assert q * whole == part;
  }

  /** Depth consistency: the share of the larger of the shallow (< 70 km) and
      deep (>= 70 km) groups, always between one half and one. */
  function DepthConsistency(shallow: nat, deep: nat): (c: real)
    requires shallow + deep > 0
    ensures 0.5 <= c <= 1.0
  {
    var larger := if shallow >= deep then shallow else deep;
    MajorityShare(larger as real, (shallow + deep) as real);
    larger as real / (shallow + deep) as real
  }

  /** One minus the coefficient of variation, or 0.8 when the deviation is
      zero; not clamped below, so it is negative once the deviation exceeds
      the mean. */
  function VariationConsistency(std: real, mean: real): (c: real)
    requires std >= 0.0 && mean > 0.0
    ensures c <= 1.0
    ensures std > mean ==> c < 0.0
    ensures std == 0.0 ==> c == 0.8
  {
    if std > 0.0 then
      assert std / mean > 0.0;
      assert std > mean ==> std / mean > 1.0 by {
        if std > mean { assert (std / mean) * mean == std; }
      }
      1.0 - std / mean
    else 0.8
  }

  /** Mean, median and the supplied deviation of the surviving intervals. */
  function IntervalSummary(kept: seq<int>, std: real): (s: IntervalStats)
    requires |kept| >= 3 && std >= 0.0
    requires forall x :: x in kept ==> 30 <= x <= 7300
    ensures ValidIntervals(s) && s.kept == kept && s.std == std
    ensures s.avg == Mean(IntsAsReals(kept)) && s.median == Median(IntsAsReals(kept))
  {
    var ks := IntsAsReals(kept);
    SurvivorsWithin(kept);
    MeanWithin(ks, MinInterval, MaxIqrInterval);
    IntervalStats(Mean(ks), Median(ks), std, kept)
  }

  /** Monthly histogram, peak months, seasonal sums, peak season and its share. */
  function SeasonalSummary(sig: seq<Event>, monthlyStd: real): (p: SeasonalPattern)
    requires |sig| > 0
    ensures ValidSeasons(p, |sig|)
    ensures p.monthly == Histogram(sig)
    ensures p.peakMonths == PeakMonths(p.monthly, monthlyStd)
    ensures p.peakSeason == PeakSeason(p.seasonal) && p.confidence == SeasonalConfidence(p.seasonal)
  {
    var h := Histogram(sig);
    PatternValid(h, monthlyStd);
    PatternOf(h, monthlyStd)
  }

  /** Peak months, seasonal sums, peak season and its share, read off a histogram. */
  function PatternOf(h: seq<nat>, monthlyStd: real): (p: SeasonalPattern)
    requires |h| == 12
    ensures p.monthly == h
  {
    var buckets := Buckets(h);
    SeasonalPattern(h, PeakMonths(h, monthlyStd), PeakSeason(buckets), buckets, SeasonalConfidence(buckets))
  }

  /** A histogram of a positive total gives a valid pattern over that total. */
  lemma PatternValid(h: seq<nat>, monthlyStd: real)
    requires |h| == 12 && Total(h) > 0
    ensures ValidSeasons(PatternOf(h, monthlyStd), Total(h))
  {
  }

  /** The smallest magnitude of significant events is itself significant. */
  lemma MinMagnitudeSignificant(sig: seq<Event>)
    requires |sig| > 0
    requires forall e :: e in sig ==> IsSignificant(e)
    ensures MinOf(Mags(sig)) >= SignificantMagnitude
  {
    var k :| 0 <= k < |sig| && Mags(sig)[k] == MinOf(Mags(sig));
    assert sig[k] in sig;
  }

  /** Mean, extremes, supplied deviation and trend of the magnitudes. */
  function MagnitudeSummary(sig: seq<Event>, std: real, nowYear: int): (m: MagnitudeStats)
    requires |sig| > 0 && std >= 0.0
    requires forall e :: e in sig ==> IsSignificant(e)
    ensures ValidMagnitudes(m)
    ensures m.min == MinOf(Mags(sig)) && m.max == MaxOf(Mags(sig))
    ensures m.avg == Mean(Mags(sig)) && m.trend == MagnitudeTrend(sig, nowYear) && m.std == std
  {
    var mags := Mags(sig);
    MinMagnitudeSignificant(sig);
    MeanWithin(mags, MinOf(mags), MaxOf(mags));
    MagnitudeStats(Mean(mags), MaxOf(mags), MinOf(mags), std, MagnitudeTrend(sig, nowYear))
  }

  /** Mean depth, supplied deviation, and the shallow / deep split. */
  function DepthSummary(sig: seq<Event>, std: real): (d: DepthStats)
    requires |sig| > 0
    ensures d.shallow + d.deep == |sig|
    ensures d.std == std
    ensures d.shallow == |Filter(sig, IsShallow)| && d.deep == |Filter(sig, IsDeep)|
    ensures d.avg == Mean(Depths(sig))
  {
    FilterSplit(sig, IsShallow, IsDeep);
    DepthStats(Mean(Depths(sig)), std, |Filter(sig, IsShallow)|, |Filter(sig, IsDeep)|)
  }

  /** The last of a time-ordered sequence is its latest event. */
  lemma LastIsLatest(sig: seq<Event>)
    requires |sig| > 0 && SortedBy(sig, TimeOf)
    ensures forall e :: e in sig ==> e.time <= sig[|sig| - 1].time
  {
    LastIsLargest(sig, TimeOf);
  }

  /** The time of the last significant event in time order: the latest
      significant time. */
  function LastSignificantTime(events: seq<Event>): (t: real)
    requires |SignificantSorted(events)| > 0
    ensures forall e :: e in events && IsSignificant(e) ==> e.time <= t
    ensures exists e :: e in events && IsSignificant(e) && e.time == t
  {
    var sig := SignificantSorted(events);
    LastIsLatest(sig);
    assert sig[|sig| - 1] in sig;
    sig[|sig| - 1].time
  }

  /** The analysis of events that pass every gate. */
  function Assemble(events: seq<Event>, now: real, nowYear: int, st: Supplied): (a: Analysis)
    requires SuppliedOk(st) && Sufficient(events, st)
    ensures Valid(a)
    ensures a.totalEarthquakes == |Filter(events, IsSignificant)|
    ensures a.intervals.kept == SurvivingIntervals(events, st)
    ensures a.lastMajorEarthquake == LastSignificantTime(events)
  {
    var sig := SignificantSorted(events);
    AssembleFrom(sig, SurvivingIntervals(events, st), LastSignificantTime(events),
      DataQuality(Filter(events, IsSignificant), now), nowYear, st)
  }

  /** The analysis record of time-ordered significant events, their
      surviving intervals, the latest time and the data quality. */
  function AssembleFrom(sig: seq<Event>, kept: seq<int>, last: real, quality: int, nowYear: int, st: Supplied): (a: Analysis)
    requires SuppliedOk(st) && |sig| >= MinSignificantEvents
    requires forall e :: e in sig ==> IsSignificant(e)
    requires |kept| >= MinIntervals && forall x :: x in kept ==> 30 <= x <= 7300
    requires 35 <= quality <= 100
    ensures Valid(a)
    ensures a.totalEarthquakes == |sig| && a.intervals.kept == kept && a.lastMajorEarthquake == last
  {
    var iv := IntervalSummary(kept, st.intervalStd);
    var (sp, ms, ds) := SignificantParts(sig, nowYear, st);
    var (rate20, rate5) := Rates(sig, nowYear);
    AnalysisOf(|sig|, |Filter(sig, IsMajor)|, iv, sp, ms, ds, rate20, rate5, last, quality)
  }

  /** The seasonal, magnitude and depth statistics of the significant events. */
  function SignificantParts(sig: seq<Event>, nowYear: int, st: Supplied): (p: (SeasonalPattern, MagnitudeStats, DepthStats))
    requires SuppliedOk(st) && |sig| > 0
    requires forall e :: e in sig ==> IsSignificant(e)
    ensures ValidSeasons(p.0, |sig|) && ValidMagnitudes(p.1)
    ensures p.2.shallow + p.2.deep == |sig| && p.2.std >= 0.0
  {
    (SeasonalSummary(sig, st.monthlyStd), MagnitudeSummary(sig, st.magnitudeStd, nowYear), DepthSummary(sig, st.depthStd))
  }

  /** The 20- and 5-year rates of the significant events. */
  function Rates(sig: seq<Event>, nowYear: int): (r: (real, real))
    ensures r.0 >= 0.0 && r.1 >= 0.0
  {
    (RecentFrequency(sig, nowYear, 20), RecentFrequency(sig, nowYear, 5))
  }

  /** What an analysis that passes the gates holds: the survivors' mean and
      median, the histogram and its peak months, the magnitudes' mean and
      trend, and the 20- and 5-year rates of the significant events. */
  lemma AnalysisParts(events: seq<Event>, now: real, nowYear: int, st: Supplied)
    requires SuppliedOk(st) && Sufficient(events, st)
    ensures Analyze(events, now, nowYear, st).Some?
    ensures var a := Analyze(events, now, nowYear, st).value;
      && a.intervals.avg == Mean(IntsAsReals(SurvivingIntervals(events, st)))
      && a.intervals.median == Median(IntsAsReals(SurvivingIntervals(events, st)))
    ensures var a := Analyze(events, now, nowYear, st).value;
      && a.seasons.monthly == Histogram(SignificantSorted(events))
      && a.seasons.peakMonths == PeakMonths(a.seasons.monthly, st.monthlyStd)
    ensures var a := Analyze(events, now, nowYear, st).value;
      && a.magnitudes.avg == Mean(Mags(SignificantSorted(events)))
      && a.magnitudes.trend == MagnitudeTrend(SignificantSorted(events), nowYear)
    ensures var a := Analyze(events, now, nowYear, st).value;
      && a.recentFrequency == RecentFrequency(SignificantSorted(events), nowYear, 20)
      && a.recentFrequency5yr == RecentFrequency(SignificantSorted(events), nowYear, 5)
  {
  }

  /** The rest of an analysis that passes the gates: the major count, the
      mean depth, the data quality of the significant events, and the four
      consistency metrics derived from the interval, magnitude, depth and
      seasonal statistics it holds. */
  lemma AnalysisConsistency(events: seq<Event>, now: real, nowYear: int, st: Supplied)
    requires SuppliedOk(st) && Sufficient(events, st)
    ensures Analyze(events, now, nowYear, st).Some?
    ensures var a := Analyze(events, now, nowYear, st).value;
      && a.majorEarthquakes == |Filter(SignificantSorted(events), IsMajor)|
      && a.depths.avg == Mean(Depths(SignificantSorted(events)))
      && a.dataQuality == DataQuality(Filter(events, IsSignificant), now)
    ensures var a := Analyze(events, now, nowYear, st).value;
      && a.intervals.std == st.intervalStd && a.magnitudes.std == st.magnitudeStd
      && a.consistency.temporal == VariationConsistency(a.intervals.std, a.intervals.avg)
      && a.consistency.magnitude == VariationConsistency(a.magnitudes.std, a.magnitudes.avg)
      && a.consistency.depth == DepthConsistency(a.depths.shallow, a.depths.deep)
      && a.consistency.seasonal == a.seasons.confidence
  {
  }

  /** The analysis does not depend on the order of the input events: a
      rearranged input passes the same gates and yields the same analysis. */
  lemma AnalysisOrderFree(e1: seq<Event>, e2: seq<Event>, now: real, nowYear: int, st: Supplied)
    requires SuppliedOk(st) && multiset(e1) == multiset(e2)
    ensures Analyze(e1, now, nowYear, st) == Analyze(e2, now, nowYear, st)
  {
    SameGates(e1, e2, st);
    if Sufficient(e1, st) {
      SameAssembly(e1, e2, now, nowYear, st);
    }
  }

  /** Rearranged events pass the same gates, with the same surviving intervals. */
  lemma SameGates(e1: seq<Event>, e2: seq<Event>, st: Supplied)
    requires multiset(e1) == multiset(e2)
    ensures SurvivingIntervals(e1, st) == SurvivingIntervals(e2, st)
    ensures Sufficient(e1, st) <==> Sufficient(e2, st)
  {
    SameSignificantTimes(e1, e2);
    assert RawIntervals(e1) == RawIntervals(e2);
    FilterPerm(e1, e2, IsSignificant);
    assert |e1| == |multiset(e1)| == |e2|;
  }

  /** Rearranged events that pass the gates are assembled into the same analysis. */
  lemma SameAssembly(e1: seq<Event>, e2: seq<Event>, now: real, nowYear: int, st: Supplied)
    requires SuppliedOk(st) && multiset(e1) == multiset(e2)
    requires Sufficient(e1, st) && Sufficient(e2, st)
    requires SurvivingIntervals(e1, st) == SurvivingIntervals(e2, st)
    ensures Assemble(e1, now, nowYear, st) == Assemble(e2, now, nowYear, st)
  {
    SameSummaries(e1, e2, nowYear, st);
    SameLatest(e1, e2);
    FilterPerm(e1, e2, IsSignificant);
    SameQuality(Filter(e1, IsSignificant), Filter(e2, IsSignificant), now);
  }

  /** The statistics of the significant events do not depend on their order. */
  lemma SameSummaries(e1: seq<Event>, e2: seq<Event>, nowYear: int, st: Supplied)
    requires SuppliedOk(st) && multiset(e1) == multiset(e2) && |SignificantSorted(e1)| > 0
    ensures var s1, s2 := SignificantSorted(e1), SignificantSorted(e2);
      && |s2| > 0
      && SeasonalSummary(s1, st.monthlyStd) == SeasonalSummary(s2, st.monthlyStd)
      && MagnitudeSummary(s1, st.magnitudeStd, nowYear) == MagnitudeSummary(s2, st.magnitudeStd, nowYear)
      && DepthSummary(s1, st.depthStd) == DepthSummary(s2, st.depthStd)
      && |Filter(s1, IsMajor)| == |Filter(s2, IsMajor)|
      && RecentFrequency(s1, nowYear, 20) == RecentFrequency(s2, nowYear, 20)
      && RecentFrequency(s1, nowYear, 5) == RecentFrequency(s2, nowYear, 5)
  {
    var s1, s2 := SignificantSorted(e1), SignificantSorted(e2);
    SameSignificantTimes(e1, e2);
    assert |s1| == |multiset(s1)| == |s2|;
    SameHistogram(s1, s2);
    SameColumns(s1, s2);
    SameExtremes(Mags(s1), Mags(s2));
    MeanPerm(Mags(s1), Mags(s2));
    SameTrend(s1, s2, nowYear);
    FilterPerm(s1, s2, IsShallow);
    FilterPerm(s1, s2, IsDeep);
    MeanPerm(Depths(s1), Depths(s2));
    FilterPerm(s1, s2, IsMajor);
    SameRecentCount(s1, s2, nowYear - 20);
    SameRecentCount(s1, s2, nowYear - 5);
  }

  /** The data-quality score does not depend on the order of the events. */
  lemma SameQuality(f1: seq<Event>, f2: seq<Event>, now: real)
    requires multiset(f1) == multiset(f2)
    ensures DataQuality(f1, now) == DataQuality(f2, now)
  {
    assert |f1| == |multiset(f1)| == |f2|;
    if |f1| > 0 {
      SameColumns(f1, f2);
      SameExtremes(Times(f1), Times(f2));
      SameExtremes(Mags(f1), Mags(f2));
      SameSpan(f1, f2);
      assert RawQuality(f1, now) == RawQuality(f2, now);
    }
  }

  /** Equal first and last times give equal spans. */
  lemma SameSpan(f1: seq<Event>, f2: seq<Event>)
    requires |f1| > 0 && |f2| > 0
    requires MinOf(Times(f1)) == MinOf(Times(f2)) && MaxOf(Times(f1)) == MaxOf(Times(f2))
    ensures SpanYears(f1) == SpanYears(f2)
  {
  }

  /** The last significant time does not depend on the order of the events. */
  lemma SameLatest(e1: seq<Event>, e2: seq<Event>)
    requires multiset(e1) == multiset(e2) && |SignificantSorted(e1)| > 0
    ensures |SignificantSorted(e2)| > 0
    ensures LastSignificantTime(e1) == LastSignificantTime(e2)
  {
    SameSignificantTimes(e1, e2);
    var n := |SignificantSorted(e1)|;
    assert Times(SignificantSorted(e1))[n - 1] == Times(SignificantSorted(e2))[n - 1];
  }

  /** The analysis record built from its parts, with the consistency metrics
      derived from the interval, magnitude, depth and seasonal statistics. */
  function AnalysisOf(
    n: nat, major: nat, iv: IntervalStats, sp: SeasonalPattern, ms: MagnitudeStats, ds: DepthStats,
    rate20: real, rate5: real, last: real, quality: int): (a: Analysis)
    requires n >= MinSignificantEvents && major <= n
    requires ValidIntervals(iv) && ValidSeasons(sp, n) && ValidMagnitudes(ms)
    requires ds.shallow + ds.deep == n && ds.std >= 0.0
    requires rate20 >= 0.0 && rate5 >= 0.0 && 35 <= quality <= 100
    ensures Valid(a)
    ensures a.totalEarthquakes == n && a.intervals == iv && a.lastMajorEarthquake == last
    ensures a.seasons == sp && a.magnitudes == ms && a.depths == ds
    ensures a.recentFrequency == rate20 && a.recentFrequency5yr == rate5 && a.dataQuality == quality
    ensures a.majorEarthquakes == major
    ensures a.consistency.temporal == VariationConsistency(iv.std, iv.avg)
    ensures a.consistency.magnitude == VariationConsistency(ms.std, ms.avg)
    ensures a.consistency.depth == DepthConsistency(ds.shallow, ds.deep)
    ensures a.consistency.seasonal == sp.confidence
  {
    Analysis(
      totalEarthquakes := n,
      majorEarthquakes := major,
      intervals := iv,
      seasons := sp,
      magnitudes := ms,
      depths := ds,
      recentFrequency := rate20,
      recentFrequency5yr := rate5,
      lastMajorEarthquake := last,
      consistency := Consistency(
        VariationConsistency(iv.std, iv.avg),
        VariationConsistency(ms.std, ms.avg),
        DepthConsistency(ds.shallow, ds.deep),
        sp.confidence),
      dataQuality := quality)
  }

  /** The pattern analysis of one region's events at time `now` (calendar
      year `nowYear`), or `None` when a gate fails. */
  function Analyze(events: seq<Event>, now: real, nowYear: int, st: Supplied): (r: Option<Analysis>)
    requires SuppliedOk(st)
    ensures r.None? <==> !Sufficient(events, st)
    ensures r.Some? ==> Valid(r.value)
    ensures r.Some? ==> r.value.totalEarthquakes == |Filter(events, IsSignificant)|
    ensures r.Some? ==> forall e :: e in events && IsSignificant(e) ==> e.time <= r.value.lastMajorEarthquake
    ensures r.Some? ==> exists e :: e in events && IsSignificant(e) && e.time == r.value.lastMajorEarthquake
  {
    if Sufficient(events, st) then Some(Assemble(events, now, nowYear, st)) else None
  }
}

=== FILE: events.dfy ===
/** Event records of the seismic catalog and the small sequence helpers
    every other module shares. */
module Events {

  import opened Seqs

  /** An absent-or-present value; stands for the source's `None` returns. */
  datatype Option<+T> = None | Some(value: T)

  /** Calendar month number, 1 = January. */
  type Month = m: int | 1 <= m <= 12 witness 1

  /** One catalog row. `time` counts days on a continuous axis (the fraction
      is the time of day); `year` and `month` are the calendar fields derived
      from it when the catalog is loaded, and are supplied, not computed. */
  datatype Event = Event(time: real, lat: real, lon: real, depth: real, mag: real, year: int, month: Month)

  /** Magnitude from which an event is "significant". */
  const SignificantMagnitude: real := 4.0
  /** Magnitude from which an event is "major". */
  const MajorMagnitude: real := 5.0

  function TimeOf(e: Event): real { e.time }

  /** `timedelta.days`: the whole days of a duration, rounded toward minus infinity. */
  function Days(d: real): (r: int)
    ensures r as real <= d < r as real + 1.0
  {
    d.Floor
  }

  function Times(s: seq<Event>): (r: seq<real>)
    ensures |r| == |s| && forall i :: 0 <= i < |s| ==> r[i] == s[i].time
  {
    seq(|s|, i requires 0 <= i < |s| => s[i].time)
  }

  function Mags(s: seq<Event>): (r: seq<real>)
    ensures |r| == |s| && forall i :: 0 <= i < |s| ==> r[i] == s[i].mag
  {
    seq(|s|, i requires 0 <= i < |s| => s[i].mag)
  }

  function Depths(s: seq<Event>): (r: seq<real>)
    ensures |r| == |s| && forall i :: 0 <= i < |s| ==> r[i] == s[i].depth
  {
    seq(|s|, i requires 0 <= i < |s| => s[i].depth)
  }

  predicate IsSignificant(e: Event) { e.mag >= SignificantMagnitude }
  predicate IsMajor(e: Event) { e.mag >= MajorMagnitude }

  function MagOf(e: Event): real { e.mag }
  function DepthOf(e: Event): real { e.depth }
  function YearOf(e: Event): int { e.year }

  /** Rearranged events have rearranged time, magnitude and depth columns. */
  lemma SameColumns(s1: seq<Event>, s2: seq<Event>)
    requires multiset(s1) == multiset(s2)
    ensures multiset(Times(s1)) == multiset(Times(s2))
    ensures multiset(Mags(s1)) == multiset(Mags(s2))
    ensures multiset(Depths(s1)) == multiset(Depths(s2))
  {
    MapPerm(s1, s2, TimeOf);
    assert Times(s1) == MapSeq(s1, TimeOf) && Times(s2) == MapSeq(s2, TimeOf);
    MapPerm(s1, s2, MagOf);
    assert Mags(s1) == MapSeq(s1, MagOf) && Mags(s2) == MapSeq(s2, MagOf);
    MapPerm(s1, s2, DepthOf);
    assert Depths(s1) == MapSeq(s1, DepthOf) && Depths(s2) == MapSeq(s2, DepthOf);
  }
}

=== FILE: forecast.dfy ===
/** `predict_next_earthquake`: the next-event forecast derived from a
    region's pattern analysis. */
module Forecast {

  import opened Events
  import opened Stats
  import opened Regions
  import opened Seasons
  import opened Analyzer
  import opened Risk
  import Quality

  /** Minimum distance, in whole days, of an overdue projection from now. */
  const BufferDays: real := 30.0

  function Min(a: real, b: real): real { if a <= b then a else b }
  function Max(a: real, b: real): real { if a >= b then a else b }
  function Abs(x: real): real { if x >= 0.0 then x else -x }

  /** The forecast interval: the median interval blended 60/40 with the
      interval implied by the 20-year frequency, or the median alone when
      that frequency is zero. */
  function WeightedInterval(median: real, frequency: real): (w: real)
    requires median > 0.0 && frequency >= 0.0
    ensures w > 0.0
    ensures frequency == 0.0 ==> w == median
    ensures frequency > 0.0 ==> Min(median, Quality.DaysPerYear / frequency) <= w <= Max(median, Quality.DaysPerYear / frequency)
    ensures frequency > 0.0 ==> w - median == 0.4 * (Quality.DaysPerYear / frequency - median)
  {
    if frequency > 0.0 then
      var recent := Quality.DaysPerYear / frequency;
      assert recent > 0.0;
      median * 0.6 + recent * 0.4
    else median
  }

  /** The multiples of `w` on either side of `q * w`. */
  lemma Bracket(q: real, w: real, k: int)
    requires w > 0.0 && k == q.Floor + 1
    ensures (k - 1) as real * w <= q * w < k as real * w
  {
    var f := (k - 1) as real;
    assert f <= q < f + 1.0;
    assert q * w - f * w == (q - f) * w;
    assert (q - f) * w >= 0.0;
    assert k as real * w - q * w == (f + 1.0 - q) * w;
    assert (f + 1.0 - q) * w > 0.0;
  }

  lemma Between(x: real, y: real, lo: real, hi: real)
    requires x == y && lo <= y < hi
    ensures lo <= x < hi
  {
  }

  /** `int(overdue / w) + 1`: the fewest whole intervals that pass `overdue` days. */
  function Cycles(overdue: int, w: real): (k: int)
    requires overdue >= 0 && w > 0.0
    ensures k >= 1
    ensures (k - 1) as real * w <= overdue as real < k as real * w
  {
    var q := overdue as real / w;
    assert q * w == overdue as real;
    var k := q.Floor + 1;
    Bracket(q, w, k);
    Between(overdue as real, q * w, (k - 1) as real * w, k as real * w);
    k
  }

  /** The length of `k` intervals of `w` days. */
  function Span(w: real, k: int): real {
    k as real * w
  }

  /** An overdue `last + w` moved forward by the whole intervals that pass
      the whole days it is overdue. */
  function Stepped(last: real, w: real, now: real): real
    requires w > 0.0 && last + w <= now
  {
    last + w + Span(w, Cycles(Days(now - (last + w)), w))
  }

  /** The predicted date before snapping: `last + w`, or, when that is not
      after now, the first whole-interval step past the whole days overdue,
      reset to `now + 30 + w` when that step is fewer than 30 whole days ahead. */
  function Project(last: real, w: real, now: real): (d: real)
    requires w > 0.0
    ensures d > now
    ensures last + w > now ==> d == last + w
    ensures last + w <= now ==> d >= now + BufferDays
    ensures last + w <= now && Days(Stepped(last, w, now) - now) as real >= BufferDays ==> d == Stepped(last, w, now)
    ensures last + w <= now && Days(Stepped(last, w, now) - now) as real < BufferDays ==> d == now + BufferDays + w
    ensures last + w <= now ==>
      d == now + BufferDays + w ||
      (Days(d - now) as real >= BufferDays && exists k: int ::
         k >= 1 && d == last + w + Span(w, k) && last + w + Span(w, k - 1) <= now)
  {
    var expected := last + w;
    if expected > now then expected
    else
      var k := Cycles(Days(now - expected), w);
      var stepped := Stepped(last, w, now);
      if Days(stepped - now) as real < BufferDays then now + BufferDays + w
      else
        assert expected + Span(w, k - 1) <= now;
        assert k >= 1 && stepped == last + w + Span(w, k) && last + w + Span(w, k - 1) <= now;
        stepped
  }

  /** The projection alone can fall short of the 30-day buffer (here
      w = 30.3 days, the expected date 30.3 and now 30.9, so one step lands
      at 60.6, within 30 days of now): the whole-day overdue count drops the
      fraction, and only the 30-day reset moves the date to the buffer. */
  lemma ProjectionAloneCanLag()
    ensures var w := 30.3; var expected := 0.0 + w; var now := 30.9;
      expected <= now && expected + Span(w, Cycles(Days(now - expected), w)) <= now + BufferDays
  {
    var w := 30.3;
    var now := 30.9;
    assert Days(now - w) == 0;
    assert Cycles(0, w) == 1;
  }

  /** The reset happens only when the analysis says the event is overdue:
      a date `last + w` a single day ahead of now is kept as it is. */
  lemma NoBufferWhenNotOverdue(last: real, w: real, now: real)
    requires w > 0.0 && now < last + w < now + 1.0
    ensures Project(last, w, now) == last + w
    ensures Project(last, w, now) < now + BufferDays
  {
  }

  /** Whether a candidate date is within half an interval of `expected`, in whole days. */
  predicate Near(candidate: real, expected: real, w: real)
    ensures Near(candidate, expected, w) ==> -(w * 0.5) < candidate - expected < w * 0.5 + 1.0
    ensures -(w * 0.5) + 1.0 < candidate - expected < w * 0.5 ==> Near(candidate, expected, w)
  {
    Abs(Days(candidate - expected) as real) < w * 0.5
  }

  /** The snapping candidates are dates in the first peak month, this year
      and next year. */
  predicate PeakCandidates(peaks: seq<Month>, monthOf: real -> Month, thisYear: real, nextYear: real) {
    |peaks| > 0 ==> monthOf(thisYear) == peaks[0] && monthOf(nextYear) == peaks[0]
  }

  /** Peak-month snapping: when the projected date's month is not a peak
      month, move it to day 15 of the first peak month this year
      (`thisYear`, if after now) or next year (`nextYear`) when that is
      within half an interval; otherwise keep it. */
  function Snap(expected: real, w: real, now: real, peaks: seq<Month>, monthOf: real -> Month,
                thisYear: real, nextYear: real): (d: real)
    requires PeakCandidates(peaks, monthOf, thisYear, nextYear)
    ensures d != expected ==> |peaks| > 0 && monthOf(d) == peaks[0]
    ensures monthOf(expected) in peaks || |peaks| == 0 ==> d == expected
    ensures d == expected || d == thisYear || d == nextYear
    ensures d != expected ==> monthOf(expected) !in peaks && Near(d, expected, w)
    ensures d != expected ==> (d == thisYear && thisYear > now) || d == nextYear
    ensures -(w * 0.5) < d - expected < w * 0.5 + 1.0 || d == expected
    ensures monthOf(expected) !in peaks && |peaks| > 0 && thisYear > now && Near(thisYear, expected, w) ==> d == thisYear
    ensures (monthOf(expected) !in peaks && |peaks| > 0 && !(thisYear > now && Near(thisYear, expected, w))
      && Near(nextYear, expected, w)) ==> d == nextYear
  {
    if monthOf(expected) !in peaks && |peaks| > 0 then
      if thisYear > now && Near(thisYear, expected, w) then thisYear
      else if Near(nextYear, expected, w) then nextYear
      else expected
    else expected
  }

  /** The uncertainty factor: the coefficient of variation capped at 0.3,
      or 0.2 when the deviation is zero. */
  function UncertaintyFactor(std: real, avg: real): (f: real)
    requires std >= 0.0 && avg > 0.0
    ensures 0.0 <= f <= 0.3
    ensures std > 0.0 ==> f == Min(0.3, std / avg) && f > 0.0
    ensures std == 0.0 ==> f == 0.2
  {
    if std > 0.0 then
      assert std / avg > 0.0;
      Min(0.3, std / avg)
    else 0.2
  }

  datatype Window = Window(start: real, predicted: real, end: real)

  /** The date range `predicted ± halfWidth`, shifted forward by whole days
      (all three dates by the same amount) when it does not start after now. */
  function ShiftedWindow(expected: real, halfWidth: real, now: real): (win: Window)
    requires halfWidth >= 0.0
    ensures now < win.start <= win.predicted <= win.end
    ensures win.predicted - win.start == halfWidth && win.end - win.predicted == halfWidth
    ensures expected - halfWidth > now ==> win.predicted == expected
    ensures expected - halfWidth <= now ==> win.start <= now + 1.0 && win.predicted >= expected
    ensures (win.predicted - expected).Floor as real == win.predicted - expected
  {
    var start := expected - halfWidth;
    if start <= now then
      var shift := (Days(now - start) + 1) as real;
      Window(start + shift, expected + shift, expected + halfWidth + shift)
    else Window(start, expected, expected + halfWidth)
  }

  /** The five confidence factors. */
  datatype Factors = Factors(dataVolume: real, regularity: int, recency: int, seasonal: int, geographic: int)

  /** The three confidence penalties (zero or negative). */
  datatype Penalties = Penalties(sparseData: int, highVariability: int, outdatedData: int)

  /** Data volume: 25 points at 50 significant events, proportionally fewer below. */
  function DataVolumeScore(total: nat): (s: real)
    ensures 0.0 <= s <= 25.0
    ensures total > 0 ==> s > 0.0
    ensures s == 25.0 <==> total >= 50
    ensures total <= 50 ==> 2.0 * s == total as real
  {
    Min(25.0, total as real / 50.0 * 25.0)
  }

  /** Regularity from the coefficient of variation of the intervals; 15 when the deviation is zero. */
  function RegularityScore(std: real, avg: real): (s: int)
    requires std >= 0.0 && avg > 0.0
    ensures s in {10, 15, 20, 25}
    ensures std > 0.0 && std / avg < 0.2 <==> s == 25
    ensures std > 0.0 ==> (s >= 20 <==> std / avg < 0.4)
    ensures std > 0.0 ==> (s >= 15 <==> std / avg < 0.6)
    ensures std == 0.0 ==> s == 15
  {
    if std > 0.0 then
      var cv := std / avg;
      if cv < 0.2 then 25 else if cv < 0.4 then 20 else if cv < 0.6 then 15 else 10
    else 15
  }

  /** Recency from the whole days since the last significant event. */
  function RecencyScore(daysSince: int): (s: int)
    ensures s in {5, 10, 15, 20}
    ensures s == 20 <==> daysSince < 365
    ensures s >= 15 <==> daysSince < 1825
    ensures s >= 10 <==> daysSince < 3650
  {
    if daysSince < 365 then 20 else if daysSince < 1825 then 15 else if daysSince < 3650 then 10 else 5
  }

  /** A staler last event never scores higher. */
  lemma RecencyMonotone(d1: int, d2: int)
    requires d1 <= d2
    ensures RecencyScore(d2) <= RecencyScore(d1)
  {
  }

  /** Seasonal strength: with peak months and more than six months present,
      15 / 10 / 5 as the busiest month exceeds 1.5 / 1.2 times the mean over
      present months; 5 otherwise. Absent months count zero, so the maximum
      over all twelve slots is the maximum over present months. */
  function SeasonalScore(peaks: seq<Month>, h: seq<nat>): (s: int)
    requires |h| == 12
    ensures s in {5, 10, 15}
    ensures |peaks| == 0 || |Present(h)| <= 6 ==> s == 5
    ensures |peaks| > 0 && |Present(h)| > 6 ==>
      (s == 15 <==> MaxOf(IntsAsReals(h)) > 1.5 * PresentMean(h)) &&
      (s >= 10 <==> MaxOf(IntsAsReals(h)) > 1.2 * PresentMean(h))
  {
    if |peaks| > 0 && |Present(h)| > 6 then
      var busiest := MaxOf(IntsAsReals(h));
      var mean := PresentMean(h);
      if busiest > mean * 1.5 then 15 else if busiest > mean * 1.2 then 10 else 5
    else 5
  }

  /** Geographic consistency from the share of the larger depth group. */
  function GeoScore(shallow: nat, deep: nat): (s: int)
    ensures s in {8, 12, 15}
    ensures shallow + deep > 0 && (shallow as real > 0.8 * (shallow + deep) as real || deep as real > 0.8 * (shallow + deep) as real) <==> s == 15
    ensures shallow + deep > 0 && (shallow as real > 0.6 * (shallow + deep) as real || deep as real > 0.6 * (shallow + deep) as real) <==> s >= 12
  {
    var total := shallow + deep;
    if total > 0 then
      var larger := if shallow >= deep then shallow else deep;
      var share := larger as real / total as real;
      ShareAbove(larger as real, total as real, 0.8);
      ShareAbove(larger as real, total as real, 0.6);
      if share > 0.8 then 15 else if share > 0.6 then 12 else 8
    else 8
  }

  /** A ratio with a positive denominator exceeds `t` exactly when the
      numerator exceeds `t` times the denominator. */
  lemma ShareAbove(part: real, whole: real, t: real)
    requires whole > 0.0
    ensures part / whole > t <==> part > t * whole
  {
    var q := part / whole;
    assert q * whole == part;
    assert (q - t) * whole == part - t * whole;
    if q > t { PositiveProduct(q - t, whole); }
    if part > t * whole {
      if q <= t { NonPositiveProduct(q - t, whole); }
    }
  }

  lemma PositiveProduct(a: real, b: real)
    requires a > 0.0 && b > 0.0
    ensures a * b > 0.0
  {
  }

  lemma NonPositiveProduct(a: real, b: real)
    requires a <= 0.0 && b > 0.0
    ensures a * b <= 0.0
  {
  }

  /** Scaling by a factor in [0, 1) does not increase a non-negative value. */
  lemma ScaleBelow(a: real, u: real)
    requires a >= 0.0 && 0.0 <= u <= 1.0
    ensures 0.0 <= a * u <= a
    ensures a > 0.0 && u < 1.0 ==> a * u < a
  {
    assert a - a * u == a * (1.0 - u);
    if a > 0.0 && u < 1.0 { PositiveProduct(a, 1.0 - u); }
  }

  function SparsePenalty(total: nat): (p: int)
    ensures p in {-15, -10, 0}
    ensures p == 0 <==> total >= 20
    ensures p == -15 <==> total < 10
  {
    if total < 10 then -15 else if total < 20 then -10 else 0
  }

  function VariabilityPenalty(std: real, avg: real): (p: int)
    requires avg > 0.0
    ensures p in {-10, 0}
    ensures p == -10 <==> std > avg
  {
    ShareAbove(std, avg, 1.0);
    if std > 0.0 && std / avg > 1.0 then -10 else 0
  }

  function OutdatedPenalty(daysSince: int): (p: int)
    ensures p in {-15, -8, 0}
    ensures p == 0 <==> daysSince <= 3650
    ensures p == -15 <==> daysSince > 7300
  {
    if daysSince > 7300 then -15 else if daysSince > 3650 then -8 else 0
  }

  function FactorSum(f: Factors): real {
    f.dataVolume + (f.regularity + f.recency + f.seasonal + f.geographic) as real
  }

  function PenaltySum(p: Penalties): int {
    p.sparseData + p.highVariability + p.outdatedData
  }

  /** Factors plus penalties, clamped to [35, 85], rounded half to even. */
  function Confidence(f: Factors, p: Penalties): (c: int)
    ensures 35 <= c <= 85
    ensures FactorSum(f) + PenaltySum(p) as real <= 35.0 ==> c == 35
    ensures FactorSum(f) + PenaltySum(p) as real >= 85.0 ==> c == 85
    ensures 35.0 <= FactorSum(f) + PenaltySum(p) as real <= 85.0 ==>
      -0.5 <= c as real - (FactorSum(f) + PenaltySum(p) as real) <= 0.5
  {
    var raw := FactorSum(f) + PenaltySum(p) as real;
    var clamped := Max(35.0, Min(85.0, raw));
    RoundStaysWithin(clamped, 35, 85);
    RoundHalfEven(clamped)
  }

  /** Both ends of the clamp are reached by scores the factor and penalty
      functions actually produce: five significant events with irregular
      intervals, a last event over twenty years old and no seasonal or
      depth preference give 35; fifty regular, recent, shallow events give 85. */
  lemma ClampBothEndsReachable()
    ensures Confidence(
      Factors(DataVolumeScore(5), RegularityScore(3.0, 1.0), RecencyScore(8000),
        SeasonalScore([], [0, 0, 0, 0, 0, 0, 0, 0, 0, 0, 0, 0]), GeoScore(1, 1)),
      Penalties(SparsePenalty(5), VariabilityPenalty(3.0, 1.0), OutdatedPenalty(8000))) == 35
    ensures Confidence(
      Factors(DataVolumeScore(50), RegularityScore(1.0, 10.0), RecencyScore(0),
        SeasonalScore([], [0, 0, 0, 0, 0, 0, 0, 0, 0, 0, 0, 0]), GeoScore(1, 0)),
      Penalties(SparsePenalty(50), VariabilityPenalty(1.0, 10.0), OutdatedPenalty(0))) == 85
  {
    var low := Factors(DataVolumeScore(5), RegularityScore(3.0, 1.0), RecencyScore(8000),
      SeasonalScore([], [0, 0, 0, 0, 0, 0, 0, 0, 0, 0, 0, 0]), GeoScore(1, 1));
    assert FactorSum(low) == 30.5;
    var high := Factors(DataVolumeScore(50), RegularityScore(1.0, 10.0), RecencyScore(0),
      SeasonalScore([], [0, 0, 0, 0, 0, 0, 0, 0, 0, 0, 0, 0]), GeoScore(1, 0));
    assert FactorSum(high) == 90.0;
  }

  /** The trend weight: 0.3 when the 5-year rate exceeds the 20-year rate, else 0.2. */
  function TrendWeight(rate5: real, rate20: real): (w: real)
    ensures w == 0.3 <==> rate5 > rate20
    ensures w == 0.2 <==> rate5 <= rate20
  {
    if rate5 > rate20 then 0.3 else 0.2
  }

  /** The trend-adjusted magnitude: a blend of the mean and the trend when
      they differ by more than 0.15, the mean otherwise. */
  function TrendAdjusted(base: real, trend: real, weight: real): (m: real)
    requires 0.0 <= weight <= 1.0
    ensures Min(base, trend) <= m <= Max(base, trend)
    ensures Abs(trend - base) <= 0.15 ==> m == base
    ensures Abs(trend - base) > 0.15 && 0.0 < weight < 1.0 ==> m != base && m != trend
  {
    if Abs(trend - base) > 0.15 then
        BlendBetween(base, trend, weight);
      base * (1.0 - weight) + trend * weight
    else base
  }

  /** `lo + d * w` for a weight in [0, 1] moves from `lo` toward `lo + d`,
      strictly between them for a weight strictly inside. */
  lemma Toward(m: real, lo: real, d: real, w: real)
    requires d >= 0.0 && 0.0 <= w <= 1.0 && m == lo + d * w
    ensures lo <= m <= lo + d
    ensures d > 0.0 && 0.0 < w < 1.0 ==> lo < m < lo + d
  {
    ScaleBelow(d, w);
    if d > 0.0 && 0.0 < w < 1.0 {
      PositiveProduct(d, w);
    }
  }

  /** A blend with a weight strictly between 0 and 1 lies strictly between
      two distinct values. */
  lemma BlendBetween(base: real, trend: real, weight: real)
    requires 0.0 <= weight <= 1.0
    ensures Min(base, trend) <= base * (1.0 - weight) + trend * weight <= Max(base, trend)
    ensures base != trend && 0.0 < weight < 1.0 ==>
      base * (1.0 - weight) + trend * weight != base && base * (1.0 - weight) + trend * weight != trend
  {
    var m := base * (1.0 - weight) + trend * weight;
    if trend >= base {
      assert m == base + (trend - base) * weight;
      Toward(m, base, trend - base, weight);
    } else {
      assert m == trend + (base - trend) * (1.0 - weight);
      Toward(m, trend, base - trend, 1.0 - weight);
    }
  }

  /** Scale of the magnitude noise: 0.2, 0.35 or 0.5 as the magnitude deviation grows. */
  function VariationFactor(magnitudeStd: real): (v: real)
    ensures v in {0.2, 0.35, 0.5}
    ensures v == 0.2 <==> magnitudeStd < 0.3
    ensures v == 0.5 <==> magnitudeStd >= 0.6
  {
    if magnitudeStd < 0.3 then 0.2 else if magnitudeStd < 0.6 then 0.35 else 0.5
  }

  /** A more dispersed region never gets smaller noise. */
  lemma VariationMonotone(s1: real, s2: real)
    requires s1 <= s2
    ensures VariationFactor(s1) <= VariationFactor(s2)
  {
  }

  /** Lower magnitude bound: at least 4.0 and at least the smallest seen. */
  function MagnitudeFloor(minMagnitude: real): (lo: real)
    ensures lo >= 4.0 && lo >= minMagnitude
    ensures lo == 4.0 || lo == minMagnitude
  {
    Max(4.0, minMagnitude)
  }

  /** Upper magnitude bound: half a unit above the largest seen, at most 9.5. */
  function MagnitudeCeiling(maxMagnitude: real): (hi: real)
    ensures hi <= 9.5 && hi <= maxMagnitude + 0.5
    ensures hi == 9.5 || hi == maxMagnitude + 0.5
  {
    Min(maxMagnitude + 0.5, 9.5)
  }

  /** `max(lo, min(x, hi))`: the floor wins when the bounds cross. */
  function ClampMagnitude(x: real, lo: real, hi: real): (m: real)
    ensures m >= lo
    ensures lo <= hi ==> lo <= m <= hi
    ensures lo <= x <= hi ==> m == x
    ensures hi < lo ==> m == lo
  {
    Max(lo, Min(x, hi))
  }

  /** `round(x, digits)` for a scale of `10^digits`, half to even on the scaled value. */
  function RoundTo(x: real, scale: nat): (r: real)
    requires scale > 0
    ensures Abs(r - x) * scale as real <= 0.5
  {
    var n := RoundHalfEven(x * scale as real);
    var r := n as real / scale as real;
    assert r * scale as real == n as real;
    assert (r - x) * scale as real == n as real - x * scale as real;
    r
  }

  /** Rounding to a grid that contains both ends of a range keeps the value in the range. */
  lemma RoundToStaysWithin(x: real, scale: nat, lo: int, hi: int)
    requires scale > 0
    requires lo as real <= x * scale as real <= hi as real
    ensures lo as real <= RoundTo(x, scale) * scale as real <= hi as real
  {
    var n := RoundHalfEven(x * scale as real);
    RoundStaysWithin(x * scale as real, lo, hi);
    assert RoundTo(x, scale) * scale as real == n as real;
  }

  /** The random draws: one standard-normal value and three uniforms in [0, 1). */
  datatype Draws = Draws(normal: real, uLat: real, uLon: real, uDepth: real)

  predicate DrawsOk(d: Draws) {
    0.0 <= d.uLat < 1.0 && 0.0 <= d.uLon < 1.0 && 0.0 <= d.uDepth < 1.0
  }

  /** `np.random.uniform(lo, hi)` from a uniform draw `u` in [0, 1). */
  function Uniform(lo: real, hi: real, u: real): (x: real)
    requires lo <= hi && 0.0 <= u < 1.0
    ensures lo <= x <= hi
    ensures lo < hi ==> x < hi
  {
    var width := hi - lo;
    ScaleBelow(width, u);
    lo + width * u
  }

  /** Estimated depth: uniform in [5, 70) km when shallow events outnumber
      deep ones, in [70, 200) km otherwise; rounded to a tenth. */
  function EstimatedDepth(shallow: nat, deep: nat, u: real): (d: real)
    requires 0.0 <= u < 1.0
    ensures shallow > deep ==> 5.0 <= d <= 70.0
    ensures shallow <= deep ==> 70.0 <= d <= 200.0
  {
    var raw := if shallow > deep then Uniform(5.0, 70.0, u) else Uniform(70.0, 200.0, u);
    if shallow > deep then
      RoundToStaysWithin(raw, 10, 50, 700);
      RoundTo(raw, 10)
    else
      RoundToStaysWithin(raw, 10, 700, 2000);
      RoundTo(raw, 10)
  }

  datatype Prediction = Prediction(
    predictedDate: real,
    rangeStart: real,
    rangeEnd: real,
    magnitude: real,
    lat: real,
    lon: real,
    depth: real,
    confidence: int,
    factors: Factors,
    penalties: Penalties,
    peakMonths: seq<Month>,
    peakSeason: Season,
    daysSinceLast: int,
    expectedIntervalYears: real,
    strength: Strength,
    risk: RiskLevel)

  /** The predicted magnitude before rounding: trend blend, noise, clamp. */
  function RawMagnitude(m: MagnitudeStats, rate5: real, rate20: real, normal: real): (x: real)
    ensures x >= MagnitudeFloor(m.min)
    ensures MagnitudeFloor(m.min) <= MagnitudeCeiling(m.max) ==> x <= MagnitudeCeiling(m.max)
  {
    var adjusted := TrendAdjusted(m.avg, m.trend, TrendWeight(rate5, rate20));
    var noisy := adjusted + VariationFactor(m.std) * normal;
    ClampMagnitude(noisy, MagnitudeFloor(m.min), MagnitudeCeiling(m.max))
  }

  /** The five factors of an analysis at time `now`. */
  function FactorsOf(a: Analysis, now: real): (f: Factors)
    requires Valid(a)
    ensures 0.0 < f.dataVolume <= 25.0
    ensures f.regularity in {10, 15, 20, 25} && f.recency in {5, 10, 15, 20}
    ensures f.seasonal in {5, 10, 15} && f.geographic in {8, 12, 15}
  {
    var daysSince := Days(now - a.lastMajorEarthquake);
    Factors(
      DataVolumeScore(a.totalEarthquakes),
      RegularityScore(a.intervals.std, a.intervals.avg),
      RecencyScore(daysSince),
      SeasonalScore(a.seasons.peakMonths, a.seasons.monthly),
      GeoScore(a.depths.shallow, a.depths.deep))
  }

  /** The three penalties of an analysis at time `now`. */
  function PenaltiesOf(a: Analysis, now: real): (p: Penalties)
    requires Valid(a)
    ensures p.sparseData in {-15, -10, 0} && p.highVariability in {-10, 0} && p.outdatedData in {-15, -8, 0}
  {
    Penalties(
      SparsePenalty(a.totalEarthquakes),
      VariabilityPenalty(a.intervals.std, a.intervals.avg),
      OutdatedPenalty(Days(now - a.lastMajorEarthquake)))
  }

  /** The forecast date window of an analysis. */
  function DatesOf(a: Analysis, now: real, monthOf: real -> Month, thisYear: real, nextYear: real): (win: Window)
    requires Valid(a)
    requires PeakCandidates(a.seasons.peakMonths, monthOf, thisYear, nextYear)
    ensures now < win.start <= win.predicted <= win.end
  {
    var w := WeightedInterval(a.intervals.median, a.recentFrequency);
    var projected := Project(a.lastMajorEarthquake, w, now);
    var snapped := Snap(projected, w, now, a.seasons.peakMonths, monthOf, thisYear, nextYear);
    var factor := UncertaintyFactor(a.intervals.std, a.intervals.avg);
    ShiftedWindow(snapped, w * factor, now)
  }

  /** The predicted magnitude, rounded to a tenth. */
  function MagnitudeOf(a: Analysis, normal: real): (mag: real)
    ensures var m := a.magnitudes;
      MagnitudeFloor(m.min) <= MagnitudeCeiling(m.max) ==>
        MagnitudeFloor(m.min) - 0.05 <= mag <= MagnitudeCeiling(m.max) + 0.05
  {
    var raw := RawMagnitude(a.magnitudes, a.recentFrequency5yr, a.recentFrequency, normal);
    var mag := RoundTo(raw, 10);
    assert Abs(mag - raw) <= 0.05;
    mag
  }

  /** A coordinate drawn uniformly from [lo, hi], rounded to two decimals. */
  function Coordinate(lo: real, hi: real, u: real): (c: real)
    requires lo <= hi && 0.0 <= u < 1.0
    ensures lo - 0.005 <= c <= hi + 0.005
  {
    var raw := Uniform(lo, hi, u);
    var c := RoundTo(raw, 100);
    assert Abs(c - raw) <= 0.005;
    c
  }

  /** The forecast for `country` from its analysis, or none without one. The
      random draws, the calendar month of a date, and day 15 of the first peak
      month this year and next year are supplied. */
  function Predict(country: string, analysis: Option<Analysis>, now: real, monthOf: real -> Month,
                   thisYear: real, nextYear: real, draws: Draws): (r: Option<Prediction>)
    requires country in Registry
    requires analysis.Some? ==> Valid(analysis.value)
    requires analysis.Some? ==> PeakCandidates(analysis.value.seasons.peakMonths, monthOf, thisYear, nextYear)
    requires DrawsOk(draws)
    ensures r.None? <==> analysis.None?
    ensures r.Some? ==> now < r.value.rangeStart <= r.value.predictedDate <= r.value.rangeEnd
    ensures r.Some? ==> 35 <= r.value.confidence <= 85
    ensures r.Some? ==> r.value.risk == RiskOf(r.value.magnitude)
    ensures r.Some? ==> r.value.peakMonths == analysis.value.seasons.peakMonths
    ensures r.Some? ==> var m := analysis.value.magnitudes;
      MagnitudeFloor(m.min) <= MagnitudeCeiling(m.max) ==>
        MagnitudeFloor(m.min) - 0.05 <= r.value.magnitude <= MagnitudeCeiling(m.max) + 0.05
    ensures r.Some? ==> var b := Registry[country];
      b.latMin - 0.005 <= r.value.lat <= b.latMax + 0.005 && b.lonMin - 0.005 <= r.value.lon <= b.lonMax + 0.005
    ensures r.Some? ==> 5.0 <= r.value.depth <= 200.0
  {
    match analysis
    case None => None
    case Some(a) => Some(PredictionOf(country, a, now, monthOf, thisYear, nextYear, draws))
  }

  /** The forecast for `country` from a valid analysis. */
  function PredictionOf(country: string, a: Analysis, now: real, monthOf: real -> Month,
                        thisYear: real, nextYear: real, draws: Draws): (p: Prediction)
    requires country in Registry && Valid(a)
    requires PeakCandidates(a.seasons.peakMonths, monthOf, thisYear, nextYear)
    requires DrawsOk(draws)
    ensures now < p.rangeStart <= p.predictedDate <= p.rangeEnd
    ensures 35 <= p.confidence <= 85
    ensures p.risk == RiskOf(p.magnitude)
    ensures p.peakMonths == a.seasons.peakMonths
    ensures var m := a.magnitudes;
      MagnitudeFloor(m.min) <= MagnitudeCeiling(m.max) ==>
        MagnitudeFloor(m.min) - 0.05 <= p.magnitude <= MagnitudeCeiling(m.max) + 0.05
    ensures var b := Registry[country];
      b.latMin - 0.005 <= p.lat <= b.latMax + 0.005 && b.lonMin - 0.005 <= p.lon <= b.lonMax + 0.005
    ensures 5.0 <= p.depth <= 200.0
  {
    var b := Lookup(country).value;
    var win := DatesOf(a, now, monthOf, thisYear, nextYear);
    var w := WeightedInterval(a.intervals.median, a.recentFrequency);
    var mag := MagnitudeOf(a, draws.normal);
    var factors := FactorsOf(a, now);
    var penalties := PenaltiesOf(a, now);
    Prediction(
      predictedDate := win.predicted,
      rangeStart := win.start,
      rangeEnd := win.end,
      magnitude := mag,
      lat := Coordinate(b.latMin, b.latMax, draws.uLat),
      lon := Coordinate(b.lonMin, b.lonMax, draws.uLon),
      depth := EstimatedDepth(a.depths.shallow, a.depths.deep, draws.uDepth),
      confidence := Confidence(factors, penalties),
      factors := factors,
      penalties := penalties,
      peakMonths := a.seasons.peakMonths,
      peakSeason := a.seasons.peakSeason,
      daysSinceLast := Days(now - a.lastMajorEarthquake),
      expectedIntervalYears := RoundTo(w / Quality.DaysPerYear, 10),
      strength := StrengthOf(a.consistency.temporal),
      risk := RiskOf(mag))
  }
}

=== FILE: intervals.dfy ===
/** Inter-event intervals of the significant events and the outlier filter
    applied to them in `analyze_earthquake_patterns`. */
module Intervals {

  import opened Events
  import opened Seqs

  /** Intervals shorter than this many days are always discarded. */
  const MinInterval: real := 30.0
  /** Upper clamp of the interquartile bounds: 20 years in days. */
  const MaxIqrInterval: real := 7300.0
  /** Upper bound of the fixed-bound filter: 10 years in days. */
  const MaxFixedInterval: real := 3650.0

  predicate Ascending(t: seq<real>) {
    forall i, j :: 0 <= i < j < |t| ==> t[i] <= t[j]
  }

  /** An ascending arrangement of a multiset of times is unique: two ascending
      sequences holding the same values are equal. */
  lemma {:induction false} AscendingUnique(x: seq<real>, y: seq<real>)
    requires Ascending(x) && Ascending(y) && multiset(x) == multiset(y)
    ensures x == y
  {
    assert |x| == |multiset(x)| == |y|;
    if |x| > 0 {
      HeadIsLeast(x, y);
      HeadIsLeast(y, x);
      DropHead(x);
      DropHead(y);
      AscendingTail(x);
      AscendingTail(y);
      AscendingUnique(x[1..], y[1..]);
      assert x == [x[0]] + x[1..];
      assert y == [y[0]] + y[1..];
    }
  }

  /** The head of an ascending sequence is at most any of its values. */
  lemma HeadIsLeast(x: seq<real>, y: seq<real>)
    requires |x| > 0 && |y| > 0 && Ascending(y) && multiset(x) == multiset(y)
    ensures y[0] <= x[0]
  {
    var j := Position(y, x[0]);
    if j > 0 {
      assert y[0] <= y[j];
    }
  }

  lemma AscendingTail(x: seq<real>)
    requires |x| > 0 && Ascending(x)
    ensures Ascending(x[1..])
  {
  }

  /** `time.diff().dt.days.dropna()`: whole days between consecutive times. */
  function Gaps(t: seq<real>): (r: seq<int>)
    requires Ascending(t)
    ensures |t| > 0 ==> |r| == |t| - 1
    ensures |t| == 0 ==> r == []
    ensures forall i :: 0 <= i < |r| ==> r[i] >= 0 && r[i] as real <= t[i + 1] - t[i] < r[i] as real + 1.0
    ensures forall i :: 0 <= i < |r| ==> r[i] == Days(t[i + 1] - t[i])
  {
    if |t| <= 1 then []
    else
      assert Ascending(t[1..]);
      [Gap(t[0], t[1])] + Gaps(t[1..])
  }

  /** Whole days from `a` to a later `b`. */
  function Gap(a: real, b: real): (d: int)
    requires a <= b
    ensures d >= 0 && d as real <= b - a < d as real + 1.0
  {
    Days(b - a)
  }

  /** The intervals inside the closed range [lo, hi], in order. */
  function Keep(s: seq<int>, lo: real, hi: real): (r: seq<int>)
    ensures forall x :: x in r <==> x in s && lo <= x as real <= hi
    ensures forall x {:trigger Count(r, x)} :: Count(r, x) == if lo <= x as real <= hi then Count(s, x) else 0
  {
    Filter(s, x => lo <= x as real <= hi)
  }

  /** Lower interquartile fence `q1 - 1.5 * (q3 - q1)`, raised to 30 days when below. */
  function LowerFence(q1: real, q3: real): (lo: real)
    ensures lo >= MinInterval && lo >= q1 - 1.5 * (q3 - q1)
    ensures lo == MinInterval || lo == q1 - 1.5 * (q3 - q1)
  {
    var fence := q1 - 1.5 * (q3 - q1);
    if fence > MinInterval then fence else MinInterval
  }

  /** Upper interquartile fence `q3 + 1.5 * (q3 - q1)`, lowered to 7300 days when above. */
  function UpperFence(q1: real, q3: real): (hi: real)
    ensures hi <= MaxIqrInterval && hi <= q3 + 1.5 * (q3 - q1)
    ensures hi == MaxIqrInterval || hi == q3 + 1.5 * (q3 - q1)
  {
    var fence := q3 + 1.5 * (q3 - q1);
    if fence < MaxIqrInterval then fence else MaxIqrInterval
  }

  /** Which filter produced the surviving intervals. */
  datatype Path = Iqr | Fallback | FixedBounds

  datatype Survivors = Survivors(kept: seq<int>, path: Path)

  /** The interquartile filter removed too much: fewer than 3 survivors, or
      fewer than half of the raw intervals. */
  predicate TooFew(kept: seq<int>, diffs: seq<int>) {
    |kept| < 3 || (|kept| as real) < (|diffs| as real) * 0.5
  }

  /** The outlier filter. With more than three intervals, keep those within the
      interquartile fences `q1`, `q3` (the quartiles of `diffs`, supplied);
      if that leaves too few, or with three or fewer intervals, keep those in
      [30, 3650] days instead. */
  function FilterIntervals(diffs: seq<int>, q1: real, q3: real): (r: Survivors)
    ensures multiset(r.kept) <= multiset(diffs)
    ensures forall x :: x in r.kept ==> x in diffs && MinInterval <= x as real <= MaxIqrInterval
    ensures r.path == FixedBounds <==> |diffs| <= 3
    ensures r.path == Iqr ==>
      && !TooFew(r.kept, diffs)
      && forall x :: x in r.kept <==> x in diffs && LowerFence(q1, q3) <= x as real <= UpperFence(q1, q3)
    ensures r.path == Iqr ==> forall x {:trigger Count(r.kept, x)} ::
      Count(r.kept, x) == if LowerFence(q1, q3) <= x as real <= UpperFence(q1, q3) then Count(diffs, x) else 0
    ensures r.path == Fallback ==> TooFew(Keep(diffs, LowerFence(q1, q3), UpperFence(q1, q3)), diffs)
    ensures r.path != Iqr ==> forall x :: x in r.kept <==> x in diffs && MinInterval <= x as real <= MaxFixedInterval
    ensures r.path != Iqr ==> forall x {:trigger Count(r.kept, x)} ::
      Count(r.kept, x) == if MinInterval <= x as real <= MaxFixedInterval then Count(diffs, x) else 0
  {
    if |diffs| > 3 then
      var iqr := Keep(diffs, LowerFence(q1, q3), UpperFence(q1, q3));
      if TooFew(iqr, diffs) then Survivors(Keep(diffs, MinInterval, MaxFixedInterval), Fallback)
      else Survivors(iqr, Iqr)
    else Survivors(Keep(diffs, MinInterval, MaxFixedInterval), FixedBounds)
  }
}

=== FILE: livefeed.dfy ===
/** Normalisation of live-feed records into catalog events and the merge of
    a fetched batch into the catalog (`_fetch_recent_earthquakes`,
    `load_data`). The HTTP query itself is not modelled: the fetched records
    are an input. */
module LiveFeed {

  import opened Events
  import opened Seqs
  import opened Zones

  /** One feature of the feed: epoch milliseconds, coordinates in the wire
      order (longitude first), an optional depth and an optional place text.
      Year and month of the local timestamp are supplied. */
  datatype FeedRecord = FeedRecord(
    epochMs: int, lon: real, lat: real, depth: Option<real>, mag: real,
    place: Option<string>, year: int, month: Month)

  /** A normalised live event together with the columns only the feed fills. */
  datatype LiveEvent = LiveEvent(event: Event, place: string, zone: Zone)

  /** Depth assumed when the feed reports none, in km. */
  const DefaultDepth: real := 10.0
  const MillisPerDay: real := 86400000.0

  /** Builds the catalog row of one feed record. */
  function Normalize(f: FeedRecord): (r: LiveEvent)
    ensures r.event.time * MillisPerDay == f.epochMs as real
    ensures r.event.lat == f.lat && r.event.lon == f.lon && r.event.mag == f.mag
    ensures r.event.depth == (if f.depth.Some? then f.depth.value else DefaultDepth)
    ensures r.event.year == f.year && r.event.month == f.month
    ensures f.place.Some? ==> r.place == f.place.value
    ensures f.place.None? ==> r.place == "Unknown location"
    ensures r.zone == Classify(f.lat, f.lon)
    ensures InPacific(f.lat, f.lon) ==> r.zone == PacificRing
  {
    var depth := match f.depth case Some(d) => d case None => DefaultDepth;
    var place := match f.place case Some(p) => p case None => "Unknown location";
    LiveEvent(
      Event(f.epochMs as real / MillisPerDay, f.lat, f.lon, depth, f.mag, f.year, f.month),
      place, Classify(f.lat, f.lon))
  }

  /** The normalised records strictly later than `last`, the catalog's latest
      timestamp; everything at or before it is dropped. */
  function NewSince(batch: seq<FeedRecord>, last: real): (r: seq<LiveEvent>)
    ensures |r| <= |batch|
    ensures forall x :: x in r ==> x.event.time > last && exists f :: f in batch && x == Normalize(f)
    ensures forall f :: f in batch && Normalize(f).event.time > last ==> Normalize(f) in r
  {
    if |batch| == 0 then []
    else
      var x := Normalize(batch[0]);
      var rest := NewSince(batch[1..], last);
      assert forall f :: f in batch[1..] ==> f in batch;
      assert forall f :: f in batch ==> f == batch[0] || f in batch[1..];
      if x.event.time > last then [x] + rest else rest
  }

  function EventsOf(xs: seq<LiveEvent>): (r: seq<Event>)
    ensures |r| == |xs| && forall i :: 0 <= i < |xs| ==> r[i] == xs[i].event
  {
    seq(|xs|, i requires 0 <= i < |xs| => xs[i].event)
  }

  /** The catalog after a merge: historical and new rows together, without
      duplicate rows, in time order. */
  function Merge(catalog: seq<Event>, added: seq<LiveEvent>): (r: seq<Event>)
    ensures SortedBy(r, TimeOf)
    ensures NoDuplicates(r)
    ensures forall e :: e in r <==> e in catalog || e in EventsOf(added)
  {
    var all := catalog + EventsOf(added);
    var d := Dedup(all);
    var r := SortBy(d, TimeOf);
    assert forall e :: e in r <==> e in d by {
      forall e ensures e in r <==> e in d {
        assert e in r <==> e in multiset(r);
      }
    }
    r
  }

  /** `load_data`: the catalog is replaced by the merge only when the fetch
      produced at least one new row; otherwise it is kept as loaded. */
  function Ingest(catalog: seq<Event>, added: seq<LiveEvent>): (r: seq<Event>)
    ensures |added| == 0 ==> r == catalog
    ensures |added| > 0 ==> SortedBy(r, TimeOf) && NoDuplicates(r)
    ensures forall e :: e in r <==> e in catalog || e in EventsOf(added)
  {
    if |added| > 0 then Merge(catalog, added) else catalog
  }

  /** Ingesting a batch whose rows the catalog already holds adds nothing:
      the merged catalog holds exactly the catalog's distinct rows, each once. */
  lemma {:induction false} MergeOfKnownRowsAddsNothing(catalog: seq<Event>, added: seq<LiveEvent>)
    requires forall i :: 0 <= i < |added| ==> added[i].event in catalog
    ensures forall e :: e in Merge(catalog, added) <==> e in catalog
    ensures |Merge(catalog, added)| == |Dedup(catalog)|
  {
    var all := catalog + EventsOf(added);
    assert forall x :: x in EventsOf(added) ==> x in catalog;
    DedupAbsorbs(catalog, EventsOf(added));
    SameValuesSameSize(Dedup(all), Dedup(catalog));
  }

  /** Two duplicate-free sequences with the same values have the same length. */
  lemma SameValuesSameSize(a: seq<Event>, b: seq<Event>)
    requires NoDuplicates(a) && NoDuplicates(b)
    requires forall x :: x in a <==> x in b
    ensures |a| == |b|
  {
    assert multiset(a) == multiset(b) by {
      forall x ensures multiset(a)[x] == multiset(b)[x] {
        assert x in a <==> x in multiset(a);
        assert x in b <==> x in multiset(b);
      }
    }
    assert |multiset(a)| == |a| && |multiset(b)| == |b|;
  }
}

=== FILE: quality.dfy ===
/** `_assess_data_quality`: an additive score out of four tiered sub-scores
    (time span, event count, recency, magnitude range), capped at 100. */
module Quality {

  import opened Events
  import opened Stats

  const DaysPerYear: real := 365.25

  /** Years between first and last event: >= 50, 20, 10 score 25, 20, 15; else 10. */
  function SpanTier(years: real): (r: int)
    ensures r in {10, 15, 20, 25}
    ensures r == 25 <==> years >= 50.0
    ensures r >= 20 <==> years >= 20.0
    ensures r >= 15 <==> years >= 10.0
  {
    if years >= 50.0 then 25 else if years >= 20.0 then 20 else if years >= 10.0 then 15 else 10
  }

  /** Number of events: >= 100, 50, 20 score 25, 20, 15; else 10. */
  function CountTier(n: int): (r: int)
    ensures r in {10, 15, 20, 25}
    ensures r == 25 <==> n >= 100
    ensures r >= 20 <==> n >= 50
    ensures r >= 15 <==> n >= 20
  {
    if n >= 100 then 25 else if n >= 50 then 20 else if n >= 20 then 15 else 10
  }

  /** Whole days since the latest event: <= 365, 1825, 3650 score 25, 20, 15; else 5. */
  function RecencyTier(days: int): (r: int)
    ensures r in {5, 15, 20, 25}
    ensures r == 25 <==> days <= 365
    ensures r >= 20 <==> days <= 1825
    ensures r >= 15 <==> days <= 3650
  {
    if days <= 365 then 25 else if days <= 1825 then 20 else if days <= 3650 then 15 else 5
  }

  /** Magnitude range: >= 3.0, 2.0, 1.0 score 25, 20, 15; else 10. */
  function RangeTier(range: real): (r: int)
    ensures r in {10, 15, 20, 25}
    ensures r == 25 <==> range >= 3.0
    ensures r >= 20 <==> range >= 2.0
    ensures r >= 15 <==> range >= 1.0
  {
    if range >= 3.0 then 25 else if range >= 2.0 then 20 else if range >= 1.0 then 15 else 10
  }

  /** More history, more events and a wider magnitude range never lower a
      sub-score; an older latest event never raises one. */
  lemma TiersMonotone(y1: real, y2: real, n1: int, n2: int, d1: int, d2: int, g1: real, g2: real)
    requires y1 <= y2 && n1 <= n2 && d1 <= d2 && g1 <= g2
    ensures SpanTier(y1) <= SpanTier(y2)
    ensures CountTier(n1) <= CountTier(n2)
    ensures RecencyTier(d1) >= RecencyTier(d2)
    ensures RangeTier(g1) <= RangeTier(g2)
  {
  }

  /** The four sub-scores added up. */
  function TierSum(years: real, n: int, days: int, range: real): int {
    SpanTier(years) + CountTier(n) + RecencyTier(days) + RangeTier(range)
  }

  /** The sum of the sub-scores never drops as the span, the count or the
      range grows, nor as the latest event gets more recent. */
  lemma TierSumMonotone(y1: real, y2: real, n1: int, n2: int, d1: int, d2: int, g1: real, g2: real)
    requires y1 <= y2 && n1 <= n2 && d1 >= d2 && g1 <= g2
    ensures TierSum(y1, n1, d1, g1) <= TierSum(y2, n2, d2, g2)
  {
    TiersMonotone(y1, y2, n1, n2, d2, d1, g1, g2);
  }

  /** Whole days from `first` to `last`, in years. */
  function YearsBetween(first: real, last: real): (y: real)
    requires first <= last
    ensures y >= 0.0
    ensures y * 365.25 == Days(last - first) as real
  {
    Days(last - first) as real / DaysPerYear
  }

  /** The sum is 100 only with every sub-score at 25, and 35 only with every
      sub-score at its lowest. */
  lemma TierSumExtremes(years: real, n: int, days: int, range: real)
    ensures TierSum(years, n, days, range) == 100 <==>
      years >= 50.0 && n >= 100 && days <= 365 && range >= 3.0
    ensures TierSum(years, n, days, range) == 35 <==>
      years < 10.0 && n < 20 && days > 3650 && range < 1.0
  {
  }

  /** Time span of the events in years, from whole days. */
  function SpanYears(s: seq<Event>): (y: real)
    requires |s| > 0
    ensures y >= 0.0
    ensures y * 365.25 == Days(MaxOf(Times(s)) - MinOf(Times(s))) as real
  {
    var t := Times(s);
    assert MinOf(t) <= t[0] <= MaxOf(t);
    YearsBetween(MinOf(t), MaxOf(t))
  }

  /** The uncapped sum of the sub-scores; the span, recency and range tiers
      only take part for a non-empty input. */
  function RawQuality(s: seq<Event>, now: real): (r: int)
    ensures |s| == 0 ==> r == 10
    ensures |s| > 0 ==> 35 <= r <= 100
  {
    if |s| == 0 then CountTier(0)
    else TierSum(SpanYears(s), |s|, Days(now - MaxOf(Times(s))), MaxOf(Mags(s)) - MinOf(Mags(s)))
  }

  /** The data-quality score of the significant events at time `now`. */
  function DataQuality(s: seq<Event>, now: real): (r: int)
    ensures |s| == 0 ==> r == 10
    ensures |s| > 0 ==> 35 <= r <= 100
    ensures r == RawQuality(s, now)
  {
    var raw := RawQuality(s, now);
    if raw < 100 then raw else 100
  }

  /** `s2` is at least as good as `s1` on every measure: span, count,
      recency of the latest event and magnitude range. */
  predicate NoWorse(s1: seq<Event>, s2: seq<Event>, now: real)
    requires |s1| > 0 && |s2| > 0
  {
    SpanYears(s1) <= SpanYears(s2) && |s1| <= |s2|
    && Days(now - MaxOf(Times(s1))) >= Days(now - MaxOf(Times(s2)))
    && MaxOf(Mags(s1)) - MinOf(Mags(s1)) <= MaxOf(Mags(s2)) - MinOf(Mags(s2))
  }

  /** A longer span, more events, a more recent latest event and a wider
      magnitude range never lower the score. */
  lemma QualityMonotone(s1: seq<Event>, s2: seq<Event>, now: real)
    requires |s1| > 0 && |s2| > 0 && NoWorse(s1, s2, now)
    ensures DataQuality(s1, now) <= DataQuality(s2, now)
  {
    var y1, y2 := SpanYears(s1), SpanYears(s2);
    var d1, d2 := Days(now - MaxOf(Times(s1))), Days(now - MaxOf(Times(s2)));
    var g1, g2 := MaxOf(Mags(s1)) - MinOf(Mags(s1)), MaxOf(Mags(s2)) - MinOf(Mags(s2));
    assert y1 <= y2 && |s1| <= |s2| && d1 >= d2 && g1 <= g2;
    TierSumMonotone(y1, y2, |s1|, |s2|, d1, d2, g1, g2);
    assert DataQuality(s1, now) == TierSum(y1, |s1|, d1, g1);
    assert DataQuality(s2, now) == TierSum(y2, |s2|, d2, g2);
  }

  /** Every measure in its top tier: a span of at least 50 years, at least
      100 events, the latest within 365 days, a magnitude range of at least 3. */
  predicate TopMeasures(s: seq<Event>, now: real)
    requires |s| > 0
  {
    SpanYears(s) >= 50.0 && |s| >= 100 && Days(now - MaxOf(Times(s))) <= 365
    && MaxOf(Mags(s)) - MinOf(Mags(s)) >= 3.0
  }

  /** Every measure in its bottom tier: a span under 10 years, fewer than 20
      events, the latest over 3650 days ago, a magnitude range under 1. */
  predicate BottomMeasures(s: seq<Event>, now: real)
    requires |s| > 0
  {
    SpanYears(s) < 10.0 && |s| < 20 && Days(now - MaxOf(Times(s))) > 3650
    && MaxOf(Mags(s)) - MinOf(Mags(s)) < 1.0
  }

  /** With events, the score is 100 exactly when all four measures reach
      their top tier, and 35 exactly when all four sit in their bottom tier. */
  lemma QualityExtremes(s: seq<Event>, now: real)
    requires |s| > 0
    ensures DataQuality(s, now) == 100 <==> TopMeasures(s, now)
    ensures DataQuality(s, now) == 35 <==> BottomMeasures(s, now)
  {
    var y, d, g := SpanYears(s), Days(now - MaxOf(Times(s))), MaxOf(Mags(s)) - MinOf(Mags(s));
    TierSumExtremes(y, |s|, d, g);
    assert DataQuality(s, now) == TierSum(y, |s|, d, g);
    assert TopMeasures(s, now) <==> y >= 50.0 && |s| >= 100 && d <= 365 && g >= 3.0;
    assert BottomMeasures(s, now) <==> y < 10.0 && |s| < 20 && d > 3650 && g < 1.0;
  }

}

=== FILE: regions.dfy ===
/** The static registry of named regions (`COUNTRY_COORDS`) and the region
    filter that restricts the catalog to one region's bounding box. */
module Regions {

  import opened Events
  import opened Seqs

  /** A named, inclusive latitude/longitude bounding box, in degrees. */
  datatype Box = Box(name: string, latMin: real, latMax: real, lonMin: real, lonMax: real)

  /** A box whose ranges are non-empty and lie on the globe. */
  predicate WellFormed(b: Box) {
    && -90.0 <= b.latMin <= b.latMax <= 90.0
    && -180.0 <= b.lonMin <= b.lonMax <= 180.0
  }

  /** The registry, keyed by region identifier; the box carries the display name. */
  const Registry: map<string, Box> := map[
    "India" := Box("India", 8.0, 37.0, 68.0, 97.0),
    "Russia" := Box("Russia", 41.0, 82.0, 19.0, 180.0),
    "Japan" := Box("Japan", 24.0, 46.0, 123.0, 146.0),
    "Indonesia" := Box("Indonesia", -11.0, 6.0, 95.0, 141.0),
    "Chile" := Box("Chile", -56.0, -17.0, -76.0, -66.0),
    "Turkey" := Box("Turkey", 36.0, 42.0, 26.0, 45.0),
    "Iran" := Box("Iran", 25.0, 40.0, 44.0, 63.0),
    "Philippines" := Box("Philippines", 4.0, 21.0, 116.0, 127.0),
    "Mexico" := Box("Mexico", 14.0, 33.0, -118.0, -86.0),
    "Greece" := Box("Greece", 34.0, 42.0, 19.0, 30.0),
    "Italy" := Box("Italy", 36.0, 47.0, 6.0, 19.0),
    "Peru" := Box("Peru", -18.0, 0.0, -81.0, -68.0),
    "USA-California" := Box("California, USA", 32.0, 42.0, -125.0, -114.0),
    "New Zealand" := Box("New Zealand", -47.0, -34.0, 166.0, 179.0),
    "Pakistan" := Box("Pakistan", 24.0, 37.0, 61.0, 77.0),
    "Afghanistan" := Box("Afghanistan", 29.0, 39.0, 60.0, 75.0)
  ]

  /** The box registered under `country`, if any. */
  function Lookup(country: string): (r: Option<Box>)
    ensures r.Some? <==> country in Registry
    ensures r.Some? ==> WellFormed(r.value)
  {
    if country in Registry then Some(Registry[country]) else None
  }

  /** The inclusive box test of the region filter. */
  predicate InBox(b: Box, e: Event) {
    b.latMin <= e.lat <= b.latMax && b.lonMin <= e.lon <= b.lonMax
  }

  /** `filter_country_data`: the catalog events inside the region's box, in
      time order; an unknown region yields no events. */
  function FilterRegion(catalog: seq<Event>, country: string): (r: seq<Event>)
    ensures Lookup(country).None? ==> r == []
    ensures Lookup(country).Some? ==>
      forall e :: e in r <==> e in catalog && InBox(Lookup(country).value, e)
    ensures Lookup(country).Some? ==>
      forall e {:trigger Count(r, e)} :: Count(r, e) == if InBox(Lookup(country).value, e) then Count(catalog, e) else 0
    ensures SortedBy(r, TimeOf)
  {
    match Lookup(country)
    case None => []
    case Some(b) =>
      var inside := Filter(catalog, e => InBox(b, e));
      var r := SortBy(inside, TimeOf);
      assert forall e {:trigger Count(r, e)} :: Count(r, e) == Count(inside, e);
      assert forall e :: e in r <==> e in inside by {
        forall e ensures e in r <==> e in inside {
          assert e in r <==> e in multiset(r);
          assert e in inside <==> e in multiset(inside);
        }
      }
      r
  }
}

=== FILE: risk.dfy ===
/** `_calculate_risk_level` and the pattern-strength label: step functions
    over a magnitude and over temporal consistency. */
module Risk {

  datatype RiskLevel = Low | Moderate | High | VeryHigh | Extreme {
    /** Position on the severity scale, 0 = Low. */
    function Rank(): nat {
      match this
      case Low => 0
      case Moderate => 1
      case High => 2
      case VeryHigh => 3
      case Extreme => 4
    }

    function Label(): string {
      match this
      case Low => "Low"
      case Moderate => "Moderate"
      case High => "High"
      case VeryHigh => "Very High"
      case Extreme => "Extreme"
    }

    function Description(): string {
      match this
      case Low => "Light shaking, minimal damage"
      case Moderate => "Moderate shaking, some damage"
      case High => "Strong shaking, considerable damage"
      case VeryHigh => "Severe shaking, major damage"
      case Extreme => "Violent shaking, catastrophic damage"
    }
  }

  /** The magnitudes at which the level steps up, in increasing order. */
  const RiskThresholds: seq<real> := [4.5, 5.5, 6.5, 7.5]

  /** The level of a predicted magnitude: its rank is the number of
      thresholds the magnitude reaches. */
  function RiskOf(magnitude: real): (r: RiskLevel)
    ensures forall i :: 0 <= i < |RiskThresholds| ==> (i < r.Rank() <==> RiskThresholds[i] <= magnitude)
  {
    if magnitude < 4.5 then Low
    else if magnitude < 5.5 then RiskLevel.Moderate
    else if magnitude < 6.5 then High
    else if magnitude < 7.5 then VeryHigh
    else Extreme
  }

  /** A larger magnitude never gets a lower level. */
  lemma RiskMonotone(m1: real, m2: real)
    requires m1 <= m2
    ensures RiskOf(m1).Rank() <= RiskOf(m2).Rank()
  {
  }

  /** Different levels carry different labels. */
  lemma RiskLabelInjective(a: RiskLevel, b: RiskLevel)
    requires a.Label() == b.Label()
    ensures a == b
  {
  }

  datatype Strength = Weak | Moderate | Strong {
    function Rank(): nat {
      match this
      case Weak => 0
      case Moderate => 1
      case Strong => 2
    }
  }

  /** Pattern strength from temporal consistency: Strong above 0.7,
      Moderate above 0.4, Weak otherwise. */
  function StrengthOf(temporal: real): (s: Strength)
    ensures s == Strong <==> temporal > 0.7
    ensures s == Weak <==> temporal <= 0.4
  {
    if temporal > 0.7 then Strong
    else if temporal > 0.4 then Strength.Moderate
    else Weak
  }

  /** More consistent patterns are never weaker. */
  lemma StrengthMonotone(t1: real, t2: real)
    requires t1 <= t2
    ensures StrengthOf(t1).Rank() <= StrengthOf(t2).Rank()
  {
  }

  /** A negative temporal consistency (deviation above the mean interval)
      is reported as Weak. */
  lemma NegativeConsistencyIsWeak(t: real)
    requires t < 0.0
    ensures StrengthOf(t) == Weak
  {
  }
}

=== FILE: seasons.dfy ===
/** Monthly histogram, peak months and seasonal buckets of the significant
    events, as computed in `analyze_earthquake_patterns`. The histogram has
    all twelve slots, zero for a month without events. */
module Seasons {

  import opened Events
  import opened Seqs

  const AllMonths: seq<Month> := [1, 2, 3, 4, 5, 6, 7, 8, 9, 10, 11, 12]

  function MonthsOf(s: seq<Event>): (r: seq<int>)
    ensures |r| == |s| && forall i :: 0 <= i < |s| ==> r[i] == s[i].month
  {
    seq(|s|, i requires 0 <= i < |s| => s[i].month)
  }

  function MonthOf(e: Event): int { e.month }

  /** Month counts do not depend on the order of the events. */
  lemma SameHistogram(s1: seq<Event>, s2: seq<Event>)
    requires multiset(s1) == multiset(s2)
    ensures Histogram(s1) == Histogram(s2)
  {
    MapPerm(s1, s2, MonthOf);
    assert MonthsOf(s1) == MapSeq(s1, MonthOf);
    assert MonthsOf(s2) == MapSeq(s2, MonthOf);
  }

  function Total(h: seq<nat>): nat {
    if |h| == 0 then 0 else h[0] + Total(h[1..])
  }

  lemma {:induction false} TotalBump(h: seq<nat>, k: nat)
    requires k < |h|
    ensures Total(h[k := h[k] + 1]) == Total(h) + 1
  {
    if k > 0 {
      assert h[k := h[k] + 1][1..] == h[1..][k - 1 := h[1..][k - 1] + 1];
      TotalBump(h[1..], k - 1);
    }
  }

  /** Twelve slots spelled out. */
  lemma TotalOfTwelve(h: seq<nat>)
    requires |h| == 12
    ensures Total(h) == h[0] + h[1] + h[2] + h[3] + h[4] + h[5] + h[6] + h[7] + h[8] + h[9] + h[10] + h[11]
  {
    assert Total(h[12..]) == 0;
    assert Total(h[11..]) == h[11] + Total(h[12..]);
    assert Total(h[10..]) == h[10] + Total(h[11..]);
    assert Total(h[9..]) == h[9] + Total(h[10..]);
    assert Total(h[8..]) == h[8] + Total(h[9..]);
    assert Total(h[7..]) == h[7] + Total(h[8..]);
    assert Total(h[6..]) == h[6] + Total(h[7..]);
    assert Total(h[5..]) == h[5] + Total(h[6..]);
    assert Total(h[4..]) == h[4] + Total(h[5..]);
    assert Total(h[3..]) == h[3] + Total(h[4..]);
    assert Total(h[2..]) == h[2] + Total(h[3..]);
    assert Total(h[1..]) == h[1] + Total(h[2..]);
    assert h[0..] == h;
  }

  /** `month.value_counts()` as a total map: slot `i` counts the events of month `i + 1`. */
  function Histogram(s: seq<Event>): (h: seq<nat>)
    ensures |h| == 12
    ensures forall i :: 0 <= i < 12 ==> h[i] == multiset(MonthsOf(s))[i + 1]
    ensures Total(h) == |s|
  {
    if |s| == 0 then [0, 0, 0, 0, 0, 0, 0, 0, 0, 0, 0, 0]
    else
      var m := s[|s| - 1].month;
      var h := Histogram(s[..|s| - 1]);
      var bumped := h[m - 1 := h[m - 1] + 1];
      HistogramStep(s, h, bumped);
      TotalBump(h, m - 1);
      bumped
  }

  /** Counting the last event of `s` on top of the counts of the others
      gives the counts of `s`. */
  lemma HistogramStep(s: seq<Event>, h: seq<nat>, bumped: seq<nat>)
    requires |s| > 0 && |h| == 12
    requires forall i :: 0 <= i < 12 ==> h[i] == multiset(MonthsOf(s[..|s| - 1]))[i + 1]
    requires bumped == h[s[|s| - 1].month - 1 := h[s[|s| - 1].month - 1] + 1]
    ensures forall i :: 0 <= i < 12 ==> bumped[i] == multiset(MonthsOf(s))[i + 1]
  {
    assert MonthsOf(s) == MonthsOf(s[..|s| - 1]) + [s[|s| - 1].month];
  }

  /** The months up to `k` with at least one event, ascending. */
  function PresentUpTo(h: seq<nat>, k: nat): (r: seq<Month>)
    requires |h| == 12 && k <= 12
    ensures forall i :: 0 <= i < |r| ==> r[i] <= k && h[r[i] - 1] > 0
    ensures forall m: int :: 1 <= m <= k && h[m - 1] > 0 ==> m in r
    ensures forall i, j :: 0 <= i < j < |r| ==> r[i] < r[j]
    ensures |r| <= k
  {
    if k == 0 then []
    else
      var r := PresentUpTo(h, k - 1);
      if h[k - 1] > 0 then r + [k] else r
  }

  /** The months with at least one event, ascending (the index of
      `value_counts().sort_index()`). */
  function Present(h: seq<nat>): (r: seq<Month>)
    requires |h| == 12
    ensures forall i :: 0 <= i < |r| ==> h[r[i] - 1] > 0
    ensures forall m: int :: 1 <= m <= 12 && h[m - 1] > 0 ==> m in r
    ensures forall i, j :: 0 <= i < j < |r| ==> r[i] < r[j]
    ensures |r| <= 12
  {
    PresentUpTo(h, |h|)
  }

  /** The months of `c` whose count reaches `threshold`, in order. */
  function Reaching(h: seq<nat>, c: seq<Month>, threshold: real): (r: seq<Month>)
    requires |h| == 12
    ensures |r| <= |c|
  {
    if |c| == 0 then []
    else
      var rest := Reaching(h, c[1..], threshold);
      if h[c[0] - 1] as real >= threshold then [c[0]] + rest else rest
  }

  /** `Reaching` keeps exactly the months of `c` whose count reaches `threshold`. */
  lemma {:induction false} ReachingMembers(h: seq<nat>, c: seq<Month>, threshold: real)
    requires |h| == 12
    ensures forall i :: 0 <= i < |Reaching(h, c, threshold)| ==>
      Reaching(h, c, threshold)[i] in c && h[Reaching(h, c, threshold)[i] - 1] as real >= threshold
    ensures forall m :: m in c && h[m - 1] as real >= threshold ==> m in Reaching(h, c, threshold)
  {
    if |c| > 0 {
      ReachingMembers(h, c[1..], threshold);
      assert forall m :: m in c ==> m == c[0] || m in c[1..];
    }
  }

  /** Selecting from months in calendar order keeps them in calendar order. */
  lemma {:induction false} ReachingKeepsOrder(h: seq<nat>, c: seq<Month>, threshold: real)
    requires |h| == 12 && Increasing(c)
    ensures Increasing(Reaching(h, c, threshold))
  {
    if |c| > 0 {
      var rest := Reaching(h, c[1..], threshold);
      ReachingKeepsOrder(h, c[1..], threshold);
      ReachingMembers(h, c[1..], threshold);
      HeadBelowTail(c);
      assert forall j :: 0 <= j < |rest| ==> rest[j] in c[1..];
    }
  }

  lemma HeadBelowTail(c: seq<Month>)
    requires |c| > 0 && Increasing(c)
    ensures forall m :: m in c[1..] ==> c[0] < m
  {
    forall m | m in c[1..] ensures c[0] < m {
      var k :| 0 <= k < |c| - 1 && c[1..][k] == m;
      assert c[k + 1] == m;
    }
  }

  /** A strictly increasing sequence holds each value at most once. */
  lemma {:induction false} IncreasingOnce(c: seq<Month>, m: Month)
    requires Increasing(c)
    ensures multiset(c)[m] <= 1
  {
    if |c| > 0 {
      assert c == [c[0]] + c[1..];
      assert Increasing(c[1..]);
      IncreasingOnce(c[1..], m);
      HeadBelowTail(c);
      if c[0] == m {
        assert m !in c[1..];
      }
    }
  }

  /** Months drawn without repetition from a strictly increasing sequence are distinct. */
  lemma DrawnFromIncreasingDistinct(c: seq<Month>, r: seq<Month>)
    requires Increasing(c) && multiset(r) <= multiset(c)
    ensures forall i, j :: 0 <= i < j < |r| ==> r[i] != r[j]
  {
    forall i, j | 0 <= i < j < |r| ensures r[i] != r[j] {
      if r[i] == r[j] {
        assert r == r[..j] + r[j..];
        assert r[i] in r[..j] && r[j] in r[j..];
        assert multiset(r)[r[i]] >= 2;
        IncreasingOnce(c, r[i]);
        assert false;
      }
    }
  }

  /** Months in strictly ascending calendar order. */
  predicate Increasing(r: seq<Month>) {
    forall i, j :: 0 <= i < j < |r| ==> r[i] < r[j]
  }

  /** Sort key that puts busier months first. */
  function Busier(h: seq<nat>): Month -> real
    requires |h| == 12
  {
    (m: Month) => -(h[m - 1] as real)
  }

  lemma BusierOrder(h: seq<nat>, t: seq<Month>)
    requires |h| == 12
    requires SortedBy(t, Busier(h))
    ensures forall i, j :: 0 <= i < j < |t| ==> h[t[j] - 1] <= h[t[i] - 1]
  {
    forall i, j | 0 <= i < j < |t| ensures h[t[j] - 1] <= h[t[i] - 1] {
      assert Busier(h)(t[i]) <= Busier(h)(t[j]);
    }
  }

  lemma PrefixFromInput(c: seq<Month>, t: seq<Month>, n: nat, r: seq<Month>)
    requires n <= |t| && r == t[..n]
    requires multiset(t) == multiset(c)
    ensures forall i :: 0 <= i < |r| ==> r[i] in c
  {
    forall i | 0 <= i < n ensures r[i] in c {
      assert r[i] == t[i] && t[i] in multiset(t);
    }
  }

  lemma PrefixHeadIsBusiest(h: seq<nat>, c: seq<Month>, t: seq<Month>, n: nat, r: seq<Month>)
    requires |h| == 12 && n <= |t| && r == t[..n]
    requires multiset(t) == multiset(c)
    requires forall i, j :: 0 <= i < j < |t| ==> h[t[j] - 1] <= h[t[i] - 1]
    ensures |r| > 0 ==> forall m :: m in c ==> h[m - 1] <= h[r[0] - 1]
  {
    if n > 0 {
      forall m | m in c ensures h[m - 1] <= h[r[0] - 1] {
        assert m in multiset(c);
        assert m in t;
        var j :| 0 <= j < |t| && t[j] == m;
      }
    }
  }

  lemma PrefixDescending(h: seq<nat>, t: seq<Month>, n: nat, r: seq<Month>)
    requires |h| == 12 && n <= |t| && r == t[..n]
    requires forall i, j :: 0 <= i < j < |t| ==> h[t[j] - 1] <= h[t[i] - 1]
    ensures forall i, j :: 0 <= i < j < |r| ==> h[r[j] - 1] <= h[r[i] - 1]
  {
  }

  lemma PrefixDominatesRest(h: seq<nat>, c: seq<Month>, t: seq<Month>, n: nat, r: seq<Month>)
    requires |h| == 12 && n <= |t| && r == t[..n]
    requires multiset(t) == multiset(c)
    requires forall i, j :: 0 <= i < j < |t| ==> h[t[j] - 1] <= h[t[i] - 1]
    ensures |r| > 0 ==> forall m :: m in c && m !in r ==> h[m - 1] <= h[r[|r| - 1] - 1]
  {
    if n > 0 {
      forall m | m in c && m !in r ensures h[m - 1] <= h[r[n - 1] - 1] {
        assert m in multiset(c);
        assert m in t;
        var j :| 0 <= j < |t| && t[j] == m;
      }
    }
  }

  /** pandas `nlargest(k)`: up to `k` months of `c` by descending count, ties
      going to the month listed first (the sort is stable). */
  /** `r` is drawn from `c`, in descending count, starting with a busiest month
      of `c`, and no month of `c` left out outnumbers the last one kept. */
  predicate TopRanked(h: seq<nat>, c: seq<Month>, r: seq<Month>)
    requires |h| == 12
  {
    && (forall i :: 0 <= i < |r| ==> r[i] in c)
    && multiset(r) <= multiset(c)
    && (forall i, j :: 0 <= i < j < |r| ==> h[r[j] - 1] <= h[r[i] - 1])
    && (|r| > 0 ==> forall m :: m in c ==> h[m - 1] <= h[r[0] - 1])
    && (|r| > 0 ==> forall m :: m in c && m !in r ==> h[m - 1] <= h[r[|r| - 1] - 1])
  }

  function TopMonths(h: seq<nat>, c: seq<Month>, k: nat): (r: seq<Month>)
    requires |h| == 12
    ensures |r| == if k < |c| then k else |c|
    ensures TopRanked(h, c, r)
  {
    var t := SortBy(c, Busier(h));
    var n := if k < |t| then k else |t|;
    PrefixFacts(h, c, t, n);
    t[..n]
  }

  lemma PrefixFacts(h: seq<nat>, c: seq<Month>, t: seq<Month>, n: nat)
    requires |h| == 12 && n <= |t|
    requires SortedBy(t, Busier(h)) && multiset(t) == multiset(c)
    ensures TopRanked(h, c, t[..n])
  {
    var r := t[..n];
    assert t == r + t[n..];
    BusierOrder(h, t);
    PrefixFromInput(c, t, n, r);
    PrefixHeadIsBusiest(h, c, t, n, r);
    PrefixDescending(h, t, n, r);
    PrefixDominatesRest(h, c, t, n, r);
  }

  /** `r` lists exactly the present months whose count reaches `threshold`. */
  predicate ThresholdPeaks(h: seq<nat>, r: seq<Month>, threshold: real)
    requires |h| == 12
  {
    forall m: int :: 1 <= m <= 12 ==> (m in r <==> h[m - 1] > 0 && h[m - 1] as real >= threshold)
  }

  /** `r` is non-empty and starts with a month of the highest count. */
  predicate BusiestFirst(h: seq<nat>, r: seq<Month>)
    requires |h| == 12
  {
    |r| > 0 && forall i :: 0 <= i < 12 ==> h[i] <= h[r[0] - 1]
  }

  lemma ReachingIsThresholdPeaks(h: seq<nat>, p: seq<Month>, threshold: real)
    requires |h| == 12
    requires forall i :: 0 <= i < |p| ==> h[p[i] - 1] > 0
    requires forall m: int :: 1 <= m <= 12 && h[m - 1] > 0 ==> m in p
    ensures ThresholdPeaks(h, Reaching(h, p, threshold), threshold)
  {
    var r := Reaching(h, p, threshold);
    ReachingMembers(h, p, threshold);
    forall m: int | 1 <= m <= 12 ensures m in r <==> h[m - 1] > 0 && h[m - 1] as real >= threshold {
      if m in r {
        var i :| 0 <= i < |r| && r[i] == m;
        assert r[i] in p;
        var k :| 0 <= k < |p| && p[k] == m;
      }
    }
  }

  lemma TopIsBusiestFirst(h: seq<nat>)
    requires |h| == 12 && |Present(h)| > 0
    ensures BusiestFirst(h, TopMonths(h, Present(h), 3))
  {
    var r := TopMonths(h, Present(h), 3);
    forall i | 0 <= i < 12 ensures h[i] <= h[r[0] - 1] {
      if h[i] > 0 {
        assert (i + 1) in Present(h);
      }
    }
  }

  /** At least two months are present and one of them reaches the threshold. */
  predicate UsesThreshold(h: seq<nat>, monthlyStd: real)
    requires |h| == 12
  {
    var p := Present(h);
    |p| >= 2 && |Reaching(h, p, PeakThreshold(h, monthlyStd))| > 0
  }

  /** Peak months. With at least two months present, the months whose count
      reaches the mean plus half the standard deviation `monthlyStd` (both
      over the present months); when none does, or fewer than two months are
      present (pandas' standard deviation is then undefined), the three
      busiest months. */
  function PeakMonths(h: seq<nat>, monthlyStd: real): (r: seq<Month>)
    requires |h| == 12
    ensures Total(h) > 0 ==> |r| > 0
    ensures forall i :: 0 <= i < |r| ==> h[r[i] - 1] > 0
    ensures |r| <= 12
    ensures UsesThreshold(h, monthlyStd) ==> ThresholdPeaks(h, r, PeakThreshold(h, monthlyStd)) && Increasing(r)
    ensures !UsesThreshold(h, monthlyStd) ==>
      |r| == (if 3 < |Present(h)| then 3 else |Present(h)|) && TopRanked(h, Present(h), r)
    ensures !UsesThreshold(h, monthlyStd) && Total(h) > 0 ==> BusiestFirst(h, r)
  {
    if UsesThreshold(h, monthlyStd) then ThresholdMonths(h, monthlyStd) else BusiestMonths(h)
  }

  /** The threshold branch of `PeakMonths`. */
  function ThresholdMonths(h: seq<nat>, monthlyStd: real): (r: seq<Month>)
    requires |h| == 12 && UsesThreshold(h, monthlyStd)
    ensures 0 < |r| <= 12
    ensures forall i :: 0 <= i < |r| ==> h[r[i] - 1] > 0
    ensures ThresholdPeaks(h, r, PeakThreshold(h, monthlyStd))
    ensures Increasing(r)
  {
    var present := Present(h);
    var threshold := PeakThreshold(h, monthlyStd);
    ReachingMembers(h, present, threshold);
    ReachingIsThresholdPeaks(h, present, threshold);
    ReachingKeepsOrder(h, present, threshold);
    Reaching(h, present, threshold)
  }

  /** The fallback branch of `PeakMonths`: the three busiest present months. */
  function BusiestMonths(h: seq<nat>): (r: seq<Month>)
    requires |h| == 12
    ensures |r| == if 3 < |Present(h)| then 3 else |Present(h)|
    ensures TopRanked(h, Present(h), r)
    ensures forall i :: 0 <= i < |r| ==> h[r[i] - 1] > 0
    ensures Total(h) > 0 ==> BusiestFirst(h, r)
  {
    var present := Present(h);
    PresentWhenTotal(h);
    if |present| > 0 then
      var top := TopMonths(h, present, 3);
      TopIsBusiestFirst(h);
      DrawnFromPresent(h, top);
      top
    else
      []
  }

  /** Months drawn from the present months have events. */
  lemma DrawnFromPresent(h: seq<nat>, r: seq<Month>)
    requires |h| == 12
    requires forall i :: 0 <= i < |r| ==> r[i] in Present(h)
    ensures forall i :: 0 <= i < |r| ==> h[r[i] - 1] > 0
  {
    forall i | 0 <= i < |r| ensures h[r[i] - 1] > 0 {
      var k :| 0 <= k < |Present(h)| && Present(h)[k] == r[i];
    }
  }

  /** The fallback peak months are different months, as `nlargest` picks rows. */
  lemma BusiestDistinct(h: seq<nat>)
    requires |h| == 12
    ensures forall i, j :: 0 <= i < j < |BusiestMonths(h)| ==> BusiestMonths(h)[i] != BusiestMonths(h)[j]
  {
    var present := Present(h);
    assert Increasing(present);
    DrawnFromIncreasingDistinct(present, BusiestMonths(h));
  }

  /** Some month is present as soon as the histogram counts anything. */
  lemma PresentWhenTotal(h: seq<nat>)
    requires |h| == 12
    ensures Total(h) > 0 ==> |Present(h)| > 0
  {
    TotalOfTwelve(h);
    if Total(h) > 0 {
      var i :| 0 <= i < 12 && h[i] > 0;
      assert (i + 1) in Present(h);
    }
  }

  /** Mean plus half a standard deviation of the present months' counts. */
  function PeakThreshold(h: seq<nat>, monthlyStd: real): (t: real)
    requires |h| == 12
    ensures |Present(h)| > 0 ==> (t - 0.5 * monthlyStd) * |Present(h)| as real == Total(h) as real
    ensures |Present(h)| == 0 ==> t == 0.5 * monthlyStd
  {
    (if |Present(h)| == 0 then 0.0 else PresentMean(h)) + 0.5 * monthlyStd
  }

  /** The mean count over the months that have events. */
  function PresentMean(h: seq<nat>): (m: real)
    requires |h| == 12 && |Present(h)| > 0
    ensures m >= 0.0
    ensures m * |Present(h)| as real == Total(h) as real
  {
    Total(h) as real / |Present(h)| as real
  }

  datatype Season = Winter | Spring | Summer | Autumn

  /** Winter is December to February, spring March to May, summer June to
      August, autumn September to November. */
  function SeasonOf(m: Month): (q: Season)
    ensures q == Winter <==> m == 12 || m == 1 || m == 2
    ensures q == Spring <==> 3 <= m <= 5
    ensures q == Summer <==> 6 <= m <= 8
    ensures q == Autumn <==> 9 <= m <= 11
  {
    if m == 12 || m <= 2 then Winter
    else if m <= 5 then Spring
    else if m <= 8 then Summer
    else Autumn
  }

  datatype SeasonSums = SeasonSums(winter: nat, spring: nat, summer: nat, autumn: nat) {
    function Get(q: Season): nat {
      match q
      case Winter => winter
      case Spring => spring
      case Summer => summer
      case Autumn => autumn
    }
    function Sum(): nat { winter + spring + summer + autumn }
  }

  /** The histogram with every month outside season `q` zeroed. */
  function InSeason(h: seq<nat>, q: Season): (r: seq<nat>)
    requires |h| == 12
    ensures |r| == 12
    ensures forall i :: 0 <= i < 12 ==> r[i] == (if SeasonOf(i + 1) == q then h[i] else 0)
  {
    seq(12, i requires 0 <= i < 12 => if SeasonOf(i + 1) == q then h[i] else 0)
  }

  /** The four seasonal buckets summed from the histogram. */
  function Buckets(h: seq<nat>): (b: SeasonSums)
    requires |h| == 12
    ensures b.Sum() == Total(h)
    ensures forall i :: 0 <= i < 12 ==> h[i] <= b.Get(SeasonOf(i + 1))
  {
    TotalOfTwelve(h);
    BucketsCover(h);
    SeasonSums(h[11] + h[0] + h[1], h[2] + h[3] + h[4], h[5] + h[6] + h[7], h[8] + h[9] + h[10])
  }

  /** Each bucket is the total of the months `SeasonOf` assigns to its season. */
  lemma BucketsBySeason(h: seq<nat>)
    requires |h| == 12
    ensures forall q: Season :: Buckets(h).Get(q) == Total(InSeason(h, q))
  {
    TotalOfTwelve(InSeason(h, Winter));
    TotalOfTwelve(InSeason(h, Spring));
    TotalOfTwelve(InSeason(h, Summer));
    TotalOfTwelve(InSeason(h, Autumn));
  }

  /** Each month's count is part of its season's bucket. */
  lemma BucketsCover(h: seq<nat>)
    requires |h| == 12
    ensures forall i :: 0 <= i < 12 ==>
      h[i] <= SeasonSums(h[11] + h[0] + h[1], h[2] + h[3] + h[4], h[5] + h[6] + h[7], h[8] + h[9] + h[10]).Get(SeasonOf(i + 1))
  {
  }

  /** `max(seasonal, key=...)`: the bucket with the largest sum, the earliest
      in winter, spring, summer, autumn order on a tie. */
  function PeakSeason(b: SeasonSums): (p: Season)
    ensures forall q: Season :: b.Get(q) <= b.Get(p)
    ensures p == Spring ==> b.winter < b.spring
    ensures p == Summer ==> b.winter < b.summer && b.spring < b.summer
    ensures p == Autumn ==> b.winter < b.autumn && b.spring < b.autumn && b.summer < b.autumn
  {
    var best := Winter;
    var best := if b.spring > b.Get(best) then Spring else best;
    var best := if b.summer > b.Get(best) then Summer else best;
    if b.autumn > b.Get(best) then Autumn else best
  }

  /** Share of the events falling in the peak season; a quarter when there
      are none. */
  function SeasonalConfidence(b: SeasonSums): (c: real)
    ensures 0.25 <= c <= 1.0
    ensures b.Sum() > 0 ==> c * b.Sum() as real == b.Get(PeakSeason(b)) as real
    ensures b.Sum() == 0 ==> c == 0.25
  {
    var total := b.Sum();
    var peak := b.Get(PeakSeason(b));
    assert peak <= total && 4 * peak >= total;
    if total > 0 then
      ShareBounds(peak as real, total as real);
      peak as real / total as real
    else 0.25
  }

  /** A part between a quarter of a positive whole and the whole. */
  lemma ShareBounds(part: real, whole: real)
    requires 0.0 < whole && part <= whole && 4.0 * part >= whole
    ensures 0.25 <= part / whole <= 1.0
  {
    var q := part / whole;
    assert q * whole == part;
  }
}

=== FILE: seqs.dfy ===
/** Generic sequence utilities: filtering, and a stable insertion sort by a
    real-valued key (the model's stand-in for pandas `sort_values`). */
module Seqs {

  /** The elements of `s` that satisfy `p`, in their original order. */
  function Filter<T(==,!new)>(s: seq<T>, p: T -> bool): (r: seq<T>)
    ensures |r| <= |s|
    ensures forall x :: x in r <==> x in s && p(x)
    ensures multiset(r) <= multiset(s)
    ensures forall x {:trigger Count(r, x)} :: Count(r, x) == if p(x) then Count(s, x) else 0
  {
    if |s| == 0 then []
    else
      assert s == [s[0]] + s[1..];
      CountCons(s[0], s[1..]);
      if p(s[0]) then
        CountCons(s[0], Filter(s[1..], p));
        [s[0]] + Filter(s[1..], p)
      else Filter(s[1..], p)
  }

  /** How often `x` occurs in `s`. */
  function Count<T(==)>(s: seq<T>, x: T): nat {
    multiset(s)[x]
  }

  /** A filter that every element passes changes nothing. */
  lemma {:induction false} FilterAll<T(!new)>(s: seq<T>, p: T -> bool)
    requires forall x :: x in s ==> p(x)
    ensures Filter(s, p) == s
  {
    if |s| > 0 {
      assert forall x :: x in s[1..] ==> x in s;
      FilterAll(s[1..], p);
      assert s == [s[0]] + s[1..];
    }
  }

  /** Prepending `y` adds one occurrence of `y` and nothing else. */
  lemma CountCons<T>(y: T, t: seq<T>)
    ensures forall x {:trigger Count([y] + t, x)} :: Count([y] + t, x) == Count(t, x) + (if x == y then 1 else 0)
  {
    assert multiset([y] + t) == multiset{y} + multiset(t);
  }

  /** Two complementary filters split a sequence: every element lands in exactly one. */
  lemma {:induction false} FilterSplit<T(!new)>(s: seq<T>, p: T -> bool, q: T -> bool)
    requires forall x :: q(x) == !p(x)
    ensures |Filter(s, p)| + |Filter(s, q)| == |s|
  {
    if |s| > 0 {
      FilterSplit(s[1..], p, q);
    }
  }

  predicate SortedBy<T>(s: seq<T>, key: T -> real) {
    forall i, j :: 0 <= i < j < |s| ==> key(s[i]) <= key(s[j])
  }

  /** Every element of a sequence sorted by key has a key at least that of its head. */
  lemma HeadIsSmallest<T(!new)>(s: seq<T>, key: T -> real)
    requires SortedBy(s, key) && |s| > 0
    ensures forall x :: x in s ==> key(s[0]) <= key(x)
  {
    forall x | x in s ensures key(s[0]) <= key(x) {
      var k :| 0 <= k < |s| && s[k] == x;
    }
  }

  /** The last element of a sorted non-empty sequence carries the largest key. */
  lemma LastIsLargest<T(!new)>(s: seq<T>, key: T -> real)
    requires SortedBy(s, key) && |s| > 0
    ensures forall x :: x in s ==> key(x) <= key(s[|s| - 1])
  {
    forall x | x in s ensures key(x) <= key(s[|s| - 1]) {
      var k :| 0 <= k < |s| && s[k] == x;
    }
  }

  /** Prepending an element no larger than everything in a sorted sequence keeps it sorted. */
  lemma ConsSorted<T(!new)>(x: T, t: seq<T>, key: T -> real)
    requires SortedBy(t, key)
    requires forall y :: y in t ==> key(x) <= key(y)
    ensures SortedBy([x] + t, key)
  {
    var r := [x] + t;
    forall i, j | 0 <= i < j < |r| ensures key(r[i]) <= key(r[j]) {
      if i == 0 {
        assert r[j] == t[j - 1] && t[j - 1] in t;
      } else {
        assert r[i] == t[i - 1] && r[j] == t[j - 1];
      }
    }
  }

  /** A filter of a sequence sorted by key stays sorted by that key. */
  lemma {:induction false} FilterKeepsOrder<T(!new)>(s: seq<T>, p: T -> bool, key: T -> real)
    requires SortedBy(s, key)
    ensures SortedBy(Filter(s, p), key)
  {
    if |s| > 0 {
      assert SortedBy(s[1..], key);
      FilterKeepsOrder(s[1..], p, key);
      if p(s[0]) {
        HeadIsSmallest(s, key);
        ConsSorted(s[0], Filter(s[1..], p), key);
      }
    }
  }

  /** Inserts `x` before the first element whose key is not smaller. */
  function Insert<T(!new)>(x: T, s: seq<T>, key: T -> real): (r: seq<T>)
    requires SortedBy(s, key)
    ensures SortedBy(r, key)
    ensures multiset(r) == multiset(s) + multiset{x}
    decreases |s|
  {
    if |s| == 0 || key(x) <= key(s[0]) then
      HeadOrEmpty(s, key);
      ConsSorted(x, s, key);
      [x] + s
    else
      assert s == [s[0]] + s[1..];
      var t := Insert(x, s[1..], key);
      HeadBelowInserted(x, s, t, key);
      ConsSorted(s[0], t, key);
      [s[0]] + t
  }

  /** Helper for the second branch of `Insert`: the head of `s` stays below
      everything once `x`, whose key exceeds it, joins the tail. */
  lemma HeadBelowInserted<T(!new)>(x: T, s: seq<T>, t: seq<T>, key: T -> real)
    requires SortedBy(s, key) && |s| > 0 && key(s[0]) < key(x)
    requires multiset(t) == multiset(s[1..]) + multiset{x}
    ensures forall y :: y in t ==> key(s[0]) <= key(y)
  {
    HeadIsSmallest(s, key);
    forall y | y in t ensures key(s[0]) <= key(y) {
      assert y in multiset(t);
      if y != x {
        assert y in multiset(s[1..]);
        assert y in s;
      }
    }
  }

  /** Helper for the first branch of `Insert`. */
  lemma HeadOrEmpty<T(!new)>(s: seq<T>, key: T -> real)
    requires SortedBy(s, key)
    ensures |s| > 0 ==> forall y :: y in s ==> key(s[0]) <= key(y)
  {
    if |s| > 0 {
      HeadIsSmallest(s, key);
    }
  }

  /** The elements of `s` rearranged into ascending key order; equal keys keep
      their original relative order. */
  function SortBy<T(!new)>(s: seq<T>, key: T -> real): (r: seq<T>)
    ensures SortedBy(r, key)
    ensures multiset(r) == multiset(s)
    ensures |r| == |s|
  {
    if |s| == 0 then []
    else
      assert s == [s[0]] + s[1..];
      Insert(s[0], SortBy(s[1..], key), key)
  }

  /** Each value occurs at most once. */
  ghost predicate NoDuplicates<T(!new)>(s: seq<T>) {
    forall x :: multiset(s)[x] <= 1
  }

  /** A duplicate-free sequence holding exactly the two different values
      `a` and `b` is one of their two orderings. */
  lemma TwoValues<T(!new)>(s: seq<T>, a: T, b: T)
    requires NoDuplicates(s) && a != b && a in s && b in s
    requires forall x :: x in s ==> x == a || x == b
    ensures s == [a, b] || s == [b, a]
  {
    forall x ensures multiset(s)[x] == multiset{a, b}[x] {
      assert multiset(s)[x] <= 1;
      if x == a || x == b {
        assert x in multiset(s);
      } else {
        assert x !in s;
      }
    }
    assert multiset(s) == multiset{a, b};
    assert |s| == |multiset(s)| == 2;
    assert s == [s[0], s[1]];
    assert multiset(s) == multiset{s[0], s[1]};
  }

  /** pandas `drop_duplicates`: the first occurrence of every value, in order. */
  function Dedup<T(==,!new)>(s: seq<T>): (r: seq<T>)
    ensures forall x :: x in r <==> x in s
    ensures NoDuplicates(r)
    ensures |r| <= |s|
  {
    if |s| == 0 then []
    else
      var init := s[..|s| - 1];
      var y := s[|s| - 1];
      assert s == init + [y];
      var rest := Dedup(init);
      if y in init then rest
      else
        assert multiset(rest)[y] == 0;
        rest + [y]
  }

  /** Deduplicating a sequence that already holds every element of `extra`
      yields the same values as deduplicating the sequence alone. */
  lemma DedupAbsorbs<T(!new)>(s: seq<T>, extra: seq<T>)
    requires forall x :: x in extra ==> x in s
    ensures forall x :: x in Dedup(s + extra) <==> x in Dedup(s)
  {
  }

  /** `f` applied to every element, in order. */
  function MapSeq<T, U>(s: seq<T>, f: T -> U): (r: seq<U>)
    ensures |r| == |s| && forall i :: 0 <= i < |s| ==> r[i] == f(s[i])
  {
    seq(|s|, i requires 0 <= i < |s| => f(s[i]))
  }

  /** Dropping the head removes one occurrence of it. */
  lemma DropHead<T>(a: seq<T>)
    requires |a| > 0
    ensures multiset(a[1..]) == multiset(a) - multiset{a[0]}
  {
    assert a == [a[0]] + a[1..];
  }

  /** Dropping position `k` removes one occurrence of `b[k]`. */
  lemma DropAt<T>(b: seq<T>, k: nat)
    requires k < |b|
    ensures multiset(b[..k] + b[k + 1..]) == multiset(b) - multiset{b[k]}
  {
    assert b == b[..k] + [b[k]] + b[k + 1..];
  }

  lemma MapHead<T, U>(a: seq<T>, f: T -> U)
    requires |a| > 0
    ensures multiset(MapSeq(a, f)) == multiset{f(a[0])} + multiset(MapSeq(a[1..], f))
  {
    assert MapSeq(a, f) == [f(a[0])] + MapSeq(a[1..], f);
  }

  lemma MapDropAt<T, U>(b: seq<T>, k: nat, f: T -> U)
    requires k < |b|
    ensures multiset(MapSeq(b, f)) == multiset{f(b[k])} + multiset(MapSeq(b[..k] + b[k + 1..], f))
  {
    assert MapSeq(b, f) == MapSeq(b[..k], f) + [f(b[k])] + MapSeq(b[k + 1..], f);
    assert MapSeq(b[..k] + b[k + 1..], f) == MapSeq(b[..k], f) + MapSeq(b[k + 1..], f);
  }

  /** A position holding `x`, for an `x` that occurs in `b`. */
  lemma Position<T>(b: seq<T>, x: T) returns (k: nat)
    requires x in multiset(b)
    ensures k < |b| && b[k] == x
  {
    assert x in b;
    k :| 0 <= k < |b| && b[k] == x;
  }

  /** Rearranging a sequence rearranges its image: the mapped values occur
      as often whatever the order of the input. */
  lemma {:induction false} MapPerm<T, U>(a: seq<T>, b: seq<T>, f: T -> U)
    requires multiset(a) == multiset(b)
    ensures multiset(MapSeq(a, f)) == multiset(MapSeq(b, f))
  {
    if |a| > 0 {
      var k := Position(b, a[0]);
      var rest := b[..k] + b[k + 1..];
      DropHead(a);
      DropAt(b, k);
      MapPerm(a[1..], rest, f);
      MapHead(a, f);
      MapDropAt(b, k, f);
    }
  }

  /** Filtering a rearranged sequence keeps the same elements as often. */
  lemma FilterPerm<T(!new)>(a: seq<T>, b: seq<T>, p: T -> bool)
    requires multiset(a) == multiset(b)
    ensures multiset(Filter(a, p)) == multiset(Filter(b, p))
    ensures |Filter(a, p)| == |Filter(b, p)|
  {
    forall x ensures multiset(Filter(a, p))[x] == multiset(Filter(b, p))[x] {
      assert Count(Filter(a, p), x) == Count(Filter(b, p), x);
    }
    assert |Filter(a, p)| == |multiset(Filter(a, p))|;
  }

  /** Deduplicating rearranged sequences keeps the same values, once each. */
  lemma DedupPerm<T(!new)>(a: seq<T>, b: seq<T>)
    requires multiset(a) == multiset(b)
    ensures multiset(Dedup(a)) == multiset(Dedup(b))
  {
    forall x ensures multiset(Dedup(a))[x] == multiset(Dedup(b))[x] {
      assert x in a <==> x in multiset(a);
      assert x in b <==> x in multiset(b);
      assert x in Dedup(a) <==> x in multiset(Dedup(a));
      assert x in Dedup(b) <==> x in multiset(Dedup(b));
    }
  }
}

=== FILE: stats.dfy ===
/** Descriptive statistics over sequences of reals, with the bounds the
    analysis relies on. Square roots are not modelled: standard deviations
    are supplied by the caller. */
module Stats {

  import opened Seqs

  function Sum(s: seq<real>): real
  {
    if |s| == 0 then 0.0 else s[0] + Sum(s[1..])
  }

  /** Every element of `s` lies in the closed interval [lo, hi]. */
  predicate Within(s: seq<real>, lo: real, hi: real) {
    forall i :: 0 <= i < |s| ==> lo <= s[i] <= hi
  }

  lemma {:induction false} SumWithin(s: seq<real>, lo: real, hi: real)
    requires Within(s, lo, hi)
    ensures |s| as real * lo <= Sum(s) <= |s| as real * hi
  {
    if |s| > 0 {
      assert Within(s[1..], lo, hi);
      SumWithin(s[1..], lo, hi);
    }
  }

  /** Arithmetic mean (pandas `mean`). */
  function Mean(s: seq<real>): real
    requires |s| > 0
  {
    Sum(s) / |s| as real
  }

  /** The mean of values in [lo, hi] lies in [lo, hi]. */
  lemma MeanWithin(s: seq<real>, lo: real, hi: real)
    requires |s| > 0 && Within(s, lo, hi)
    ensures lo <= Mean(s) <= hi
  {
    SumWithin(s, lo, hi);
    var n := |s| as real;
    assert Mean(s) * n == Sum(s);
  }

  lemma {:induction false} SumConcat(x: seq<real>, y: seq<real>)
    ensures Sum(x + y) == Sum(x) + Sum(y)
  {
    if |x| > 0 {
      assert (x + y)[1..] == x[1..] + y;
      SumConcat(x[1..], y);
    } else {
      assert x + y == y;
    }
  }

  /** The sum does not depend on the order of the values. */
  lemma {:induction false} SumPerm(a: seq<real>, b: seq<real>)
    requires multiset(a) == multiset(b)
    ensures Sum(a) == Sum(b)
  {
    if |a| == 0 {
      assert |b| == |multiset(b)| == 0;
    } else {
      var k := Position(b, a[0]);
      var rest := b[..k] + b[k + 1..];
      DropHead(a);
      DropAt(b, k);
      SumPerm(a[1..], rest);
      assert b == b[..k] + ([b[k]] + b[k + 1..]);
      SumConcat(b[..k], [b[k]] + b[k + 1..]);
      SumConcat(b[..k], b[k + 1..]);
    }
  }

  /** Nor does the mean. */
  lemma MeanPerm(a: seq<real>, b: seq<real>)
    requires |a| > 0 && multiset(a) == multiset(b)
    ensures |b| == |a| && Mean(a) == Mean(b)
  {
    assert |a| == |multiset(a)| == |b|;
    SumPerm(a, b);
  }

  /** Nor do the smallest and the largest value. */
  lemma SameExtremes(a: seq<real>, b: seq<real>)
    requires |a| > 0 && multiset(a) == multiset(b)
    ensures |b| > 0 && MinOf(a) == MinOf(b) && MaxOf(a) == MaxOf(b)
  {
    assert |a| == |multiset(a)| == |b|;
    var i := Position(b, MinOf(a));
    var j := Position(a, MinOf(b));
    var k := Position(b, MaxOf(a));
    var l := Position(a, MaxOf(b));
  }

  /** Largest element (pandas `max`). */
  function MaxOf(s: seq<real>): (r: real)
    requires |s| > 0
    ensures r in s
    ensures forall i :: 0 <= i < |s| ==> s[i] <= r
  {
    if |s| == 1 then s[0]
    else
      var m := MaxOf(s[1..]);
      assert forall i :: 1 <= i < |s| ==> s[i] == s[1..][i - 1];
      if s[0] >= m then s[0] else m
  }

  /** Smallest element (pandas `min`). */
  function MinOf(s: seq<real>): (r: real)
    requires |s| > 0
    ensures r in s
    ensures forall i :: 0 <= i < |s| ==> r <= s[i]
  {
    if |s| == 1 then s[0]
    else
      var m := MinOf(s[1..]);
      assert forall i :: 1 <= i < |s| ==> s[i] == s[1..][i - 1];
      if s[0] <= m then s[0] else m
  }

  function Id(x: real): real { x }

  /** Median (pandas `median`): the middle element of the sorted values, or
      the average of the two middle ones when the count is even. */
  function Median(s: seq<real>): (r: real)
    requires |s| > 0
    ensures MinOf(s) <= r <= MaxOf(s)
    ensures 2 * AtMost(s, r) >= |s| && 2 * AtLeast(s, r) >= |s|
    ensures |s| % 2 == 1 ==> r in s
    ensures |s| % 2 == 0 ==> exists a, b :: LowerMiddle(s, a) && UpperMiddle(s, b) && 2.0 * r == a + b
  {
    var t := SortBy(s, Id);
    var n := |t|;
    var r := if n % 2 == 1 then t[n / 2] else (t[n / 2 - 1] + t[n / 2]) / 2.0;
    MedianBounds(s, t, r);
    MedianFacts(s, t, r);
    MedianExact(s, t, r);
    r
  }

  /** The middle of the sorted rearrangement `t` of `s` lies between the extremes of `s`. */
  lemma MedianBounds(s: seq<real>, t: seq<real>, r: real)
    requires |s| > 0 && |t| == |s| && SortedBy(t, Id) && multiset(t) == multiset(s)
    requires r == if |t| % 2 == 1 then t[|t| / 2] else (t[|t| / 2 - 1] + t[|t| / 2]) / 2.0
    ensures MinOf(s) <= r <= MaxOf(s)
  {
    SameElementsWithin(s, t);
  }

  /** The middle of the sorted rearrangement `t` of `s` has at least half the
      values of `s` on either side. */
  lemma MedianFacts(s: seq<real>, t: seq<real>, r: real)
    requires |s| > 0 && |t| == |s| && SortedBy(t, Id) && multiset(t) == multiset(s)
    requires r == if |t| % 2 == 1 then t[|t| / 2] else (t[|t| / 2 - 1] + t[|t| / 2]) / 2.0
    ensures 2 * AtMost(s, r) >= |s| && 2 * AtLeast(s, r) >= |s|
  {
    SortedMiddle(t, r);
    FilterSameSize(t, s, Below(r));
    FilterSameSize(t, s, Above(r));
  }

  /** The middle of the sorted rearrangement `t` of `s` is a value of `s` for
      an odd count, and the average of the lower and upper middle values for
      an even one. */
  lemma MedianExact(s: seq<real>, t: seq<real>, r: real)
    requires |s| > 0 && |t| == |s| && SortedBy(t, Id) && multiset(t) == multiset(s)
    requires r == if |t| % 2 == 1 then t[|t| / 2] else (t[|t| / 2 - 1] + t[|t| / 2]) / 2.0
    ensures |s| % 2 == 1 ==> r in s
    ensures |s| % 2 == 0 ==> exists a, b :: LowerMiddle(s, a) && UpperMiddle(s, b) && 2.0 * r == a + b
  {
    var n := |t|;
    var m := n / 2;
    if n % 2 == 1 {
      assert t[m] in multiset(s);
    } else {
      assert n == 2 * m;
      MiddlePair(s, t, m);
      assert LowerMiddle(s, t[m - 1]) && UpperMiddle(s, t[m]) && 2.0 * r == t[m - 1] + t[m];
    }
  }

  /** `a` is the lower of the two middle values of an even-sized `s`: at
      least half the values are at most `a` and more than half at least `a`. */
  predicate LowerMiddle(s: seq<real>, a: real) {
    2 * AtMost(s, a) >= |s| && 2 * AtLeast(s, a) >= |s| + 2
  }

  /** `b` is the upper of the two middle values of an even-sized `s`. */
  predicate UpperMiddle(s: seq<real>, b: real) {
    2 * AtMost(s, b) >= |s| + 2 && 2 * AtLeast(s, b) >= |s|
  }

  /** The two middle values of the sorted rearrangement `t` of an even-sized `s`
      are its lower and upper middle values. */
  lemma MiddlePair(s: seq<real>, t: seq<real>, m: nat)
    requires 0 < m && |t| == 2 * m && |s| == |t|
    requires SortedBy(t, Id) && multiset(t) == multiset(s)
    ensures LowerMiddle(s, t[m - 1]) && UpperMiddle(s, t[m])
  {
    RankOf(s, t, m - 1);
    RankOf(s, t, m);
  }

  /** The element at index `k` of the sorted rearrangement `t` of `s` has at
      least `k + 1` values of `s` at most it and `|t| - k` at least it. */
  lemma RankOf(s: seq<real>, t: seq<real>, k: nat)
    requires SortedBy(t, Id) && multiset(t) == multiset(s) && k < |t|
    ensures AtMost(s, t[k]) >= k + 1 && AtLeast(s, t[k]) >= |t| - k
  {
    SortedRank(t, k);
    FilterSameSize(t, s, Below(t[k]));
    FilterSameSize(t, s, Above(t[k]));
  }

  /** In a sorted sequence, the element at index `k` has at least `k + 1`
      elements at most it and at least `|t| - k` at least it. */
  lemma SortedRank(t: seq<real>, k: nat)
    requires SortedBy(t, Id) && k < |t|
    ensures |Filter(t, Below(t[k]))| >= k + 1 && |Filter(t, Above(t[k]))| >= |t| - k
  {
    assert forall i :: 0 <= i < k + 1 ==> Below(t[k])(t[i]) by {
      forall i | 0 <= i < k + 1 ensures Below(t[k])(t[i]) { assert Id(t[i]) <= Id(t[k]) || i == k; }
    }
    PrefixPasses(t, Below(t[k]), k + 1);
    assert forall i :: k <= i < |t| ==> Above(t[k])(t[i]) by {
      forall i | k <= i < |t| ensures Above(t[k])(t[i]) { assert Id(t[k]) <= Id(t[i]) || i == k; }
    }
    SuffixPasses(t, Above(t[k]), k);
  }

  /** A rearrangement of `s` lies between the extremes of `s`. */
  lemma SameElementsWithin(s: seq<real>, t: seq<real>)
    requires |s| > 0 && multiset(t) == multiset(s)
    ensures Within(t, MinOf(s), MaxOf(s))
  {
    forall i | 0 <= i < |t| ensures MinOf(s) <= t[i] <= MaxOf(s) {
      assert t[i] in multiset(s);
      var k :| 0 <= k < |s| && s[k] == t[i];
    }
  }

  function Below(v: real): real -> bool { x => x <= v }
  function Above(v: real): real -> bool { x => x >= v }

  /** How many elements of `s` are at most `v`. */
  function AtMost(s: seq<real>, v: real): nat { |Filter(s, Below(v))| }

  /** How many elements of `s` are at least `v`. */
  function AtLeast(s: seq<real>, v: real): nat { |Filter(s, Above(v))| }

  /** The middle value of a sorted sequence has at least half the elements
      on either side of it. */
  lemma SortedMiddle(t: seq<real>, r: real)
    requires SortedBy(t, Id) && |t| > 0
    requires r == if |t| % 2 == 1 then t[|t| / 2] else (t[|t| / 2 - 1] + t[|t| / 2]) / 2.0
    ensures 2 * |Filter(t, Below(r))| >= |t| && 2 * |Filter(t, Above(r))| >= |t|
  {
    var n := |t|;
    var m := n / 2;
    if n % 2 == 1 {
      assert forall i :: 0 <= i < m + 1 ==> Below(r)(t[i]) by {
        forall i | 0 <= i < m + 1 ensures Below(r)(t[i]) { assert Id(t[i]) <= Id(t[m]) || i == m; }
      }
      PrefixPasses(t, Below(r), m + 1);
    } else {
      assert forall i :: 0 <= i < m ==> Below(r)(t[i]) by {
        forall i | 0 <= i < m ensures Below(r)(t[i]) { assert Id(t[i]) <= Id(t[m - 1]) <= Id(t[m]); }
      }
      PrefixPasses(t, Below(r), m);
    }
    assert forall i :: m <= i < n ==> Above(r)(t[i]) by {
      forall i | m <= i < n ensures Above(r)(t[i]) {
        assert Id(t[m]) <= Id(t[i]) || i == m;
        if n % 2 == 0 { assert Id(t[m - 1]) <= Id(t[m]); }
      }
    }
    SuffixPasses(t, Above(r), m);
  }

  /** A filter keeps at least the leading elements that all pass it. */
  lemma {:induction false} PrefixPasses(t: seq<real>, p: real -> bool, k: nat)
    requires k <= |t| && forall i :: 0 <= i < k ==> p(t[i])
    ensures |Filter(t, p)| >= k
  {
    if k > 0 {
      PrefixPasses(t[1..], p, k - 1);
    }
  }

  /** A filter keeps at least the trailing elements that all pass it. */
  lemma {:induction false} SuffixPasses(t: seq<real>, p: real -> bool, k: nat)
    requires k <= |t| && forall i :: k <= i < |t| ==> p(t[i])
    ensures |Filter(t, p)| >= |t| - k
  {
    if |t| > 0 {
      if k == 0 {
        SuffixPasses(t[1..], p, 0);
      } else {
        SuffixPasses(t[1..], p, k - 1);
      }
    }
  }

  /** Sequences with the same elements keep equally many under any filter. */
  lemma FilterSameSize(s: seq<real>, t: seq<real>, p: real -> bool)
    requires multiset(s) == multiset(t)
    ensures |Filter(s, p)| == |Filter(t, p)|
  {
    var a := Filter(s, p);
    var b := Filter(t, p);
    forall x ensures multiset(a)[x] == multiset(b)[x] {
      assert Count(s, x) == Count(t, x);
      assert Count(a, x) == Count(b, x);
    }
    assert multiset(a) == multiset(b);
    assert |multiset(a)| == |a| && |multiset(b)| == |b|;
  }

  /** Python's built-in `round` to an integer: nearest integer, ties to the even one. */
  function RoundHalfEven(x: real): (r: int)
    ensures -0.5 <= r as real - x <= 0.5
    ensures r as real - x == 0.5 || r as real - x == -0.5 ==> r % 2 == 0
  {
    var f := x.Floor;
    var frac := x - f as real;
    if frac < 0.5 then f
    else if frac > 0.5 then f + 1
    else if f % 2 == 0 then f
    else f + 1
  }

  /** Rounding never leaves an interval whose ends are integers. */
  lemma RoundStaysWithin(x: real, lo: int, hi: int)
    requires lo as real <= x <= hi as real
    ensures lo <= RoundHalfEven(x) <= hi
  {
  }
}

=== FILE: summary.dfy ===
/** `get_recent_earthquake_summary`: activity of one region over the
    trailing 365 days. */
module Summary {

  import opened Events
  import opened Seqs
  import opened Regions

  /** Length of the trailing window, in days. */
  const RecentWindow: real := 365.0

  datatype RecentSummary = RecentSummary(
    totalRecent: nat,
    significantRecent: nat,
    latest: Option<Event>,
    latestSignificant: Option<Event>,
    daysSinceLatest: Option<int>,
    daysSinceSignificant: Option<int>)

  /** The record returned when nothing falls in the window. */
  const Quiet: RecentSummary := RecentSummary(0, 0, None, None, None, None)

  /** `iloc[-1]` of a time-ordered, non-empty sequence: its latest event. */
  function LastOf(s: seq<Event>): (e: Event)
    requires |s| > 0 && SortedBy(s, TimeOf)
    ensures e in s
    ensures forall x :: x in s ==> x.time <= e.time
  {
    LastIsLargest(s, TimeOf);
    s[|s| - 1]
  }

  predicate IsRecent(now: real, e: Event) { e.time >= now - RecentWindow }

  /** The region's events inside the window, in time order. */
  function RecentOf(region: seq<Event>, now: real): (r: seq<Event>)
    ensures SortedBy(region, TimeOf) ==> SortedBy(r, TimeOf)
    ensures forall e :: e in r <==> e in region && IsRecent(now, e)
    ensures forall e {:trigger Count(r, e)} :: Count(r, e) == if IsRecent(now, e) then Count(region, e) else 0
  {
    var r := Filter(region, e => IsRecent(now, e));
    if SortedBy(region, TimeOf) then
      FilterKeepsOrder(region, e => IsRecent(now, e), TimeOf);
      r
    else r
  }

  /** The significant events of a time-ordered sequence, in time order. */
  function SignificantOf(s: seq<Event>): (r: seq<Event>)
    ensures SortedBy(s, TimeOf) ==> SortedBy(r, TimeOf)
    ensures forall e :: e in r <==> e in s && IsSignificant(e)
    ensures forall e {:trigger Count(r, e)} :: Count(r, e) == if IsSignificant(e) then Count(s, e) else 0
  {
    var r := Filter(s, IsSignificant);
    if SortedBy(s, TimeOf) then
      FilterKeepsOrder(s, IsSignificant, TimeOf);
      r
    else r
  }

  /** The region's latest event, which is inside the window whenever any event is. */
  function LatestRecent(region: seq<Event>, now: real): (e: Event)
    requires SortedBy(region, TimeOf) && |RecentOf(region, now)| > 0
    ensures e in region && IsRecent(now, e)
    ensures forall x :: x in region ==> x.time <= e.time
  {
    var recent := RecentOf(region, now);
    var latest := LastOf(recent);
    LastIsLargest(region, TimeOf);
    assert region[|region| - 1] in recent;
    latest
  }

  /** The latest significant event, looked for in the window first and in
      the whole history when the window holds no significant event. */
  function LatestSignificant(region: seq<Event>, now: real): (r: Option<Event>)
    requires SortedBy(region, TimeOf)
    ensures r.Some? <==> exists e :: e in region && IsSignificant(e)
    ensures r.Some? ==> r.value in region && IsSignificant(r.value)
    ensures r.Some? ==> forall e :: e in region && IsSignificant(e) ==> e.time <= r.value.time
  {
    var recentSig := SignificantOf(RecentOf(region, now));
    var allSig := SignificantOf(region);
    assert (exists e :: e in region && IsSignificant(e)) ==> |allSig| > 0 by {
      if exists e :: e in region && IsSignificant(e) {
        var e :| e in region && IsSignificant(e);
        assert e in allSig;
      }
    }
    if |recentSig| > 0 then
      var last := LastOf(recentSig);
      assert forall e :: e in region && IsSignificant(e) ==> e.time <= last.time by {
        forall e | e in region && IsSignificant(e) ensures e.time <= last.time {
          if IsRecent(now, e) { assert e in recentSig; }
        }
      }
      Some(last)
    else if |allSig| > 0 then Some(LastOf(allSig))
    else None
  }

  /** The latest event and the latest significant event are reported with
      their whole-day ages. */
  predicate Reports(r: RecentSummary, region: seq<Event>, now: real) {
    && SortedBy(region, TimeOf) && |RecentOf(region, now)| > 0
    && r.latest == Some(LatestRecent(region, now))
    && r.daysSinceLatest == Some(Days(now - r.latest.value.time))
    && r.latestSignificant == LatestSignificant(region, now)
    && r.daysSinceSignificant == (if r.latestSignificant.Some? then Some(Days(now - r.latestSignificant.value.time)) else None)
  }

  /** The summary of a region with at least one event in the window. */
  function BusySummary(region: seq<Event>, now: real): (r: RecentSummary)
    requires SortedBy(region, TimeOf) && |RecentOf(region, now)| > 0
    ensures r.totalRecent == |RecentOf(region, now)| > 0
    ensures r.significantRecent == |SignificantOf(RecentOf(region, now))|
    ensures Reports(r, region, now)
  {
    var recent := RecentOf(region, now);
    var latest := LatestRecent(region, now);
    var sig := LatestSignificant(region, now);
    RecentSummary(
      |recent|,
      |SignificantOf(recent)|,
      Some(latest),
      sig,
      Some(Days(now - latest.time)),
      if sig.Some? then Some(Days(now - sig.value.time)) else None)
  }

  /** The summary of a region with at least one event: the quiet record when
      nothing falls in the window, the counts and latest events otherwise. */
  function SummaryOf(region: seq<Event>, now: real): (r: RecentSummary)
    requires |region| > 0 && SortedBy(region, TimeOf)
    ensures r.totalRecent == |RecentOf(region, now)|
    ensures r.significantRecent == |SignificantOf(RecentOf(region, now))|
    ensures r.totalRecent == 0 <==> r == Quiet
    ensures r.totalRecent > 0 ==> Reports(r, region, now)
  {
    if |RecentOf(region, now)| == 0 then Quiet else BusySummary(region, now)
  }

  /** The summary for `country` at time `now`: none when the region has no
      events at all. */
  function Summarize(catalog: seq<Event>, country: string, now: real): (r: Option<RecentSummary>)
    ensures r.None? <==> |FilterRegion(catalog, country)| == 0
    ensures country !in Registry ==> r.None?
    ensures r.Some? ==> r.value == SummaryOf(FilterRegion(catalog, country), now)
  {
    var region := FilterRegion(catalog, country);
    if |region| == 0 then None else Some(SummaryOf(region, now))
  }

  /** Without any event in the window the summary reports no significant
      event, even when the region's history holds significant ones: the
      full-history search runs only when the window is not empty. */
  lemma QuietWindowHidesHistory(region: seq<Event>, now: real, past: Event)
    requires |region| > 0 && SortedBy(region, TimeOf)
    requires forall e :: e in region ==> !IsRecent(now, e)
    requires past in region && IsSignificant(past)
    ensures SummaryOf(region, now) == Quiet
    ensures LatestSignificant(region, now).Some?
  {
    if |RecentOf(region, now)| > 0 {
      assert RecentOf(region, now)[0] in RecentOf(region, now);
    }
  }

  /** With any event in the window, a significant event anywhere in the
      region's history is reported. */
  lemma HistoryFoundWhenWindowBusy(region: seq<Event>, now: real, e: Event)
    requires |region| > 0 && SortedBy(region, TimeOf)
    requires |RecentOf(region, now)| > 0
    requires e in region && IsSignificant(e)
    ensures SummaryOf(region, now).latestSignificant.Some?
    ensures e.time <= SummaryOf(region, now).latestSignificant.value.time
  {
    assert Reports(SummaryOf(region, now), region, now);
  }
}

=== FILE: zones.dfy ===
/** `_determine_earthquake_zone`: a coarse tectonic-zone label from a
    coordinate pair, decided by four overlapping predicates tried in a fixed
    order, the first match winning. */
module Zones {

  datatype Zone = PacificRing | MediterraneanHimalayan | AtlanticRidge | Global

  /** The label the source stores in the `zone` column. */
  function Label(z: Zone): string {
    match z
    case PacificRing => "pacific_ring_zone"
    case MediterraneanHimalayan => "mediterranean_himalayan_zone"
    case AtlanticRidge => "atlantic_ridge_zone"
    case Global => "global_zone"
  }

  /** Pacific Ring of Fire: latitude -60..70 and longitude 110..180 or -180..-100. */
  predicate InPacific(lat: real, lon: real) {
    -60.0 <= lat <= 70.0 && ((110.0 <= lon <= 180.0) || (-180.0 <= lon <= -100.0))
  }

  /** Mediterranean-Himalayan belt: latitude 20..50, longitude -10..160. */
  predicate InMediterranean(lat: real, lon: real) {
    20.0 <= lat <= 50.0 && -10.0 <= lon <= 160.0
  }

  /** Mid-Atlantic Ridge: longitude -40..-10, latitude -60..70. */
  predicate InAtlantic(lat: real, lon: real) {
    -40.0 <= lon <= -10.0 && -60.0 <= lat <= 70.0
  }

  /** First-match classification, in the priority Pacific, Mediterranean, Atlantic, global. */
  function Classify(lat: real, lon: real): (z: Zone)
    ensures z == PacificRing <==> InPacific(lat, lon)
    ensures z == MediterraneanHimalayan <==> !InPacific(lat, lon) && InMediterranean(lat, lon)
    ensures z == AtlanticRidge <==> !InPacific(lat, lon) && !InMediterranean(lat, lon) && InAtlantic(lat, lon)
    ensures z == Global <==> !InPacific(lat, lon) && !InMediterranean(lat, lon) && !InAtlantic(lat, lon)
  {
    if -60.0 <= lat <= 70.0 && ((110.0 <= lon <= 180.0) || (-180.0 <= lon <= -100.0)) then PacificRing
    else if 20.0 <= lat <= 50.0 && -10.0 <= lon <= 160.0 then MediterraneanHimalayan
    else if -40.0 <= lon <= -10.0 && -60.0 <= lat <= 70.0 then AtlanticRidge
    else Global
  }

  /** The zones are labelled distinctly, so the stored label identifies the zone. */
  lemma LabelInjective(z1: Zone, z2: Zone)
    requires Label(z1) == Label(z2)
    ensures z1 == z2
  {
  }

  /** The Pacific and Mediterranean predicates overlap (latitude 20..50,
      longitude 110..160); there, priority gives the Pacific label. */
  lemma PacificShadowsMediterranean(lat: real, lon: real)
    requires 20.0 <= lat <= 50.0 && 110.0 <= lon <= 160.0
    ensures InPacific(lat, lon) && InMediterranean(lat, lon)
    ensures Classify(lat, lon) == PacificRing
  {
  }

  /** The Atlantic predicate is never hidden by the Pacific one, and is hidden
      by the Mediterranean one only on the meridian -10 between latitudes 20
      and 50: the Atlantic label is returned exactly off that segment. */
  lemma AtlanticShadowedOnlyOnMeridian(lat: real, lon: real)
    requires InAtlantic(lat, lon)
    ensures !InPacific(lat, lon)
    ensures Classify(lat, lon) == AtlanticRidge <==> !(lon == -10.0 && 20.0 <= lat <= 50.0)
  {
  }

  /** A point on the overlap meridian is labelled Mediterranean, not Atlantic. */
  lemma MeridianPointIsMediterranean()
    ensures InAtlantic(30.0, -10.0) && Classify(30.0, -10.0) == MediterraneanHimalayan
  {
  }
}
